=== FILE: README.md ===
# lingua-bundle language detection, modelled in Dafny

This project models the core of `Volmarg/lingua-bundle`, a Symfony bundle
that finds out which language a text is written in and which languages it
mentions. The bundle runs the `polyglot` command line tool on input files
and reads its output rows. It maps the detected language name to a
two-letter locale code through the `umpirsky/language-list` catalogue and
to a three-letter ISO 639-2 code through a fixed table. It then searches
the text for words that name languages in that locale.

The model is pure: PHP arrays are association lists (`Assoc<K, V>`), PHP
strings are byte sequences (`bytes`), and exceptions are `Failure` values.
Every outside effect is an input:

- `strip_tags`, the outputs of the health probes and of the detection
  command, and `uniqid()` are parameters;
- the locale files are a `Catalog`: what each read attempt of a path
  observes;
- the per-locale memo of `LocaleLanguageService` is an explicit `Cache`
  threaded through every call (`Answer`, `Reply`);
- the files the bulk detection writes, quarantines and unlinks are
  returned as data.

Modules:

- `Bytes`, `PhpArrays`: PHP built-ins used by the core, including
  `explode`, `implode`, `str_replace`, `trim`, `strtolower`,
  `array_search`, `array_unique` and `array_filter`.
- `Dto`: `LanguageInformationDto` and `WordsFilterResultDto`.
- `PolyglotFiles`, `PolyglotHealth`, `PolyglotResultParser`: the files
  handler, the health predicates and the output row parser.
- `TextNormalization`: `shortenAndNormalizeText`.
- `PolyglotBulkDetection`: `detect` and its helpers.
- `Polyglot`: the single-text path.
- `LocaleLanguages`: the locale catalogue.
- `IsoLanguageCodes`: the ISO 639 mapper.
- `SpecialCharacters`: `SpecialCharacterHandler`.
- `SimilarText`: PHP's `similar_text`.
- `MentionDetection`: `LanguageMentionDetectionController`.
- `LanguageDetection`: `LanguageDetectionController`.

## Model

| member | source | states |
|---|---|---|
| PolyglotFiles.InputFilePath | src/Service/LanguageDetection/Polyglot/PolyglotFilesHandler.php:15-34 | The path is the input folder, then the file name, then `.txt`, each at its own position. |
| PolyglotFiles.InputFilePathRoundTrip | src/Service/LanguageDetection/Polyglot/PolyglotFilesHandler.php:15-18 | The file name can be read back from every input path, so the path determines the name. |
| PolyglotFiles.InputFilePathInjective | src/Service/LanguageDetection/Polyglot/PolyglotFilesHandler.php:15-18 | Different unique ids never share an input file. |
| PolyglotHealth.CheckHealth | src/Service/LanguageDetection/Polyglot.php:75-100 | Detection may go ahead exactly when `which` printed a non-empty answer and the joined probe lines contain "Too few arguments". The installation check fails first, and the second error carries the joined output. |
| PolyglotHealth.LineWithComplaintSuffices | src/Service/LanguageDetection/Polyglot.php:78-82 | One probe line that carries the complaint is enough to pass the running check. |
| PolyglotHealth.SilentProbeFails | src/Service/LanguageDetection/Polyglot.php:78-84 | A probe that printed nothing fails the running check. |
| PolyglotResultParser.SelectWidth | src/Service/LanguageDetection/Polyglot/PolyglotResultParser.php:26-40 | The width chosen is the first one from 7 to 31 spaces at which a second non-empty piece survives `array_filter`; no smaller width does. |
| PolyglotResultParser.GetLanguageFromDetectionResultRow | src/Service/LanguageDetection/Polyglot/PolyglotResultParser.php:42-49 | A parsed row never has an empty (or "0") language or text. |
| PolyglotResultParser.FirstTwoPieces | src/Service/LanguageDetection/Polyglot/PolyglotResultParser.php:31-35 | Entries 0 and 1 of an `explode` are the text up to the first separator and the segment between the first and the second separator. |
| PolyglotResultParser.ParsedRowShape | src/Service/LanguageDetection/Polyglot/PolyglotResultParser.php:19-50 | Both ways: a row yields a language and a text exactly when `SelectWidth` chooses a width, the language is the row before the first run of that width, the text is the trimmed segment up to the second run, and neither is "" or "0". Whatever follows the second run is ignored. |
| PolyglotResultParser.ParsedLanguageBeforeFirstRun | src/Service/LanguageDetection/Polyglot/PolyglotResultParser.php:26-49 | The parsed text is trimmed at both ends. The language ends right before a run of the width `SelectWidth` chose, and it holds no such run itself. |
| PolyglotResultParser.LeadingSeparatorGivesNull | src/Service/LanguageDetection/Polyglot/PolyglotResultParser.php:32-46 | A row that starts with a run of the chosen width gives null, because `array_filter` drops its empty entry 0. |
| PolyglotResultParser.LeadingRunGivesNull | src/Service/LanguageDetection/Polyglot/PolyglotResultParser.php:27-46 | Seven spaces followed by a piece that survives the filter give null. |
| PolyglotResultParser.LeadingRunCanParse | src/Service/LanguageDetection/Polyglot/PolyglotResultParser.php:27-49 | Leading spaces alone do not give null: after seven spaces and a "0" piece, which the filter drops, an eight-space run splits the row with the spaces inside the language. |
| PolyglotResultParser.NoSeparatorGivesNull | src/Service/LanguageDetection/Polyglot/PolyglotResultParser.php:26-47 | A row without seven spaces in a row never parses. |
| PolyglotResultParser.ParseRoundTrip | src/Service/LanguageDetection/Polyglot/PolyglotResultParser.php:19-50 | A row made of a space-free language name, seven spaces and a trimmed text parses back into exactly that name and text. |
| TextNormalization.BlankNonWord | src/Service/LanguageDetection/Polyglot/PolyglotBulkDetection.php:208 | Word bytes stay where they are and every other byte becomes a space. |
| TextNormalization.CollapseSpaces | src/Service/LanguageDetection/Polyglot/PolyglotBulkDetection.php:211 | The result has no two spaces in a row and starts with the input's first byte. |
| TextNormalization.CollapseKeepsContent | src/Service/LanguageDetection/Polyglot/PolyglotBulkDetection.php:211 | Collapsing loses nothing but spaces: the non-space bytes are kept, in order. |
| TextNormalization.CollapseOfCollapsed | src/Service/LanguageDetection/Polyglot/PolyglotBulkDetection.php:211 | A text without double spaces is left unchanged. |
| TextNormalization.ShortenAndNormalizeText | src/Service/LanguageDetection/Polyglot/PolyglotBulkDetection.php:199-220 | The file contents are normalised: only word bytes and single spaces, no space at either end, at most 1000 bytes. They are the slice of the collapsed text's first 1000 bytes that remains once the spaces around it are trimmed, and they are empty exactly when those bytes are all spaces. |
| TextNormalization.NormalizeKeepsShortText | src/Service/LanguageDetection/Polyglot/PolyglotBulkDetection.php:199-220 | For a text short enough not to be cut, normalisation keeps every byte of the cleaned text except spaces, in order. |
| TextNormalization.NormalizedIsFixpoint | src/Service/LanguageDetection/Polyglot/PolyglotBulkDetection.php:199-220 | A normalised text of at most 1000 bytes that `strip_tags` leaves alone is its own normal form. |
| TextNormalization.NormalizeIdempotent | src/Service/LanguageDetection/Polyglot/PolyglotBulkDetection.php:199-220 | Normalising twice gives the same as normalising once. |
| PolyglotBulkDetection.BulkLanguageDetectionCommand | src/Service/LanguageDetection/Polyglot/PolyglotBulkDetection.php:25-43 | The command fails exactly when a health check fails, with that check's error. Otherwise it ends with " & wait". |
| PolyglotBulkDetection.CommandRunsEveryFile | src/Service/LanguageDetection/Polyglot/PolyglotBulkDetection.php:30-40 | When no path contains `&`, cutting the command at " & " gives back one detection command per file, in order, and then `wait`. |
| PolyglotBulkDetection.InputFiles | src/Service/LanguageDetection/Polyglot/PolyglotBulkDetection.php:82-98 | There is one input file per text, in order, at that id's input path, and each holds a normalised text of at most 1000 bytes. |
| PolyglotBulkDetection.InputFilesDistinct | src/Service/LanguageDetection/Polyglot/PolyglotBulkDetection.php:82-98 | With distinct ids no text's file overwrites another's. |
| PolyglotBulkDetection.OutputRows | src/Service/LanguageDetection/Polyglot/PolyglotBulkDetection.php:65-66 | No output row left after filtering is empty or "0". |
| PolyglotBulkDetection.FindRow | src/Service/LanguageDetection/Polyglot/PolyglotBulkDetection.php:128-134 | The row found is the first one that contains the file's text; when none is found, no row contains it. |
| PolyglotBulkDetection.BuildLanguageInformationDto | src/Service/LanguageDetection/Polyglot/PolyglotBulkDetection.php:230-258 | A row that does not parse is rejected, as is a language with no English locale. A parsed row whose language has a non-empty English code always yields a DTO. That DTO carries the parsed language, its English locale code, the matching three-letter code and the full text. |
| PolyglotBulkDetection.ClassifyTextCases | src/Service/LanguageDetection/Polyglot/PolyglotBulkDetection.php:116-148 | A missing or empty file skips the text. A text that no row contains, or whose row does not parse, is quarantined. Once a row parses, the outcome is found exactly when the English code is non-empty and unlocalized exactly when it is empty, and an exception happens exactly when the locale lookup raises. A found DTO names the parsed language and its locale code. |
| PolyglotBulkDetection.ParseDetectionResults | src/Service/LanguageDetection/Polyglot/PolyglotBulkDetection.php:112-152 | Every found id is a distinct input id that was not quarantined. It carries exactly one DTO, describing its own text. Only input ids are quarantined. |
| PolyglotBulkDetection.ClassifyAllSteps | src/Service/LanguageDetection/Polyglot/PolyglotBulkDetection.php:116-149 | Without an exception, each text's outcome is the one a single iteration gives it, using the memo the texts before it left. |
| PolyglotBulkDetection.EntriesAt | src/Service/LanguageDetection/Polyglot/PolyglotBulkDetection.php:136-149 | With distinct ids, an id is quarantined exactly when its own outcome is a quarantine, and found exactly when its outcome is a DTO. |
| PolyglotBulkDetection.ParseDetectionResultsComplete | src/Service/LanguageDetection/Polyglot/PolyglotBulkDetection.php:112-152 | On success, a text is quarantined exactly when its file has contents that no row contains or whose first row does not parse. It is found exactly when that row parses to a language with a non-empty English code. |
| PolyglotBulkDetection.RemoveInputFiles | src/Service/LanguageDetection/Polyglot/PolyglotBulkDetection.php:161-168 | Exactly the input files that were not moved away are unlinked. |
| PolyglotBulkDetection.Detect | src/Service/LanguageDetection/Polyglot/PolyglotBulkDetection.php:61-73 | A failed health check raises before anything is quarantined, and an exception unlinks nothing. On success every input file is either quarantined or removed, never both. |
| PolyglotBulkDetection.DetectFound | src/Service/LanguageDetection/Polyglot/PolyglotBulkDetection.php:61-73 | On success every found id is an input id with one DTO built from its text, and its file was removed. |
| PolyglotBulkDetection.DetectComplete | src/Service/LanguageDetection/Polyglot/PolyglotBulkDetection.php:61-73 | On success, a text's file is moved away exactly when it is undetectable and unlinked otherwise. Its id is handed back exactly when it is detectable. With a memo that agrees with the locale files, this does not depend on the memo. So the ids returned are the input ids minus those with an empty file, a missing or unparsable row, or no English code. |
| PolyglotBulkDetection.DetectableFresh | src/Service/LanguageDetection/Polyglot/PolyglotBulkDetection.php:243-248 | With a memo that agrees with the locale files, whether a text is detectable does not depend on the memo. |
| PolyglotBulkDetection.ClassifyAllKeepsCoherent | src/Service/LanguageDetection/Polyglot/PolyglotBulkDetection.php:116-149 | A memo that agrees with the locale files still agrees after the loop. |
| Polyglot.LanguageDetectionCommand | src/Service/LanguageDetection/Polyglot.php:40-47 | The command fails exactly when a health check fails. Otherwise it is the detection prefix, the path and the error muting, in that order. |
| Polyglot.ShortText | src/Service/LanguageDetection/Polyglot.php:112 | The text handed over is a prefix of at most 1000 bytes, and the whole text when the text is no longer than that. |
| Polyglot.DetectedLanguages | src/Service/LanguageDetection/Polyglot.php:119-130 | The languages are non-empty, one per parsed row at most, and there are none exactly when no row parses. |
| Polyglot.FirstDetectedLanguage | src/Service/LanguageDetection/Polyglot.php:123-136 | The first language is the one of the first row that parses. |
| Polyglot.GetLanguageInformation | src/Service/LanguageDetection/Polyglot.php:110-153 | The file written holds a prefix of the stripped text. A failed health check raises. A DTO carries the unique id, a non-empty language, its code and the matching three-letter code. The file is unlinked exactly when a DTO is returned. |
| Polyglot.SingleUsesFirstParsedRow | src/Service/LanguageDetection/Polyglot.php:118-152 | Once a row parses, the English locale code of the first parsed row's language decides the outcome. A catalogue failure escapes. An empty code ("" or "0") gives `null` and keeps the input file. Any other code gives the DTO for that language and code, and the file is unlinked. |
| Polyglot.NoParsedRowGivesNull | src/Service/LanguageDetection/Polyglot.php:132-134 | When no row parses, the answer is `null` and the input file is left in place. |
| LocaleLanguages.LocaleFilePathInjective | src/Service/Locale/LocaleLanguageService.php:41-44 | Different locales are read from different files. |
| LocaleLanguages.LoadFrom | src/Service/Locale/LocaleLanguageService.php:162-180 | The retry loop fails exactly when a decode error comes after empty tables only. It returns a non-empty table exactly when one is decoded within 20 attempts after empty tables only, and that table is the one decoded. |
| LocaleLanguages.ReadLocaleFile | src/Service/Locale/LocaleLanguageService.php:149-183 | The loop as the source writes it computes the same result as the retry function. |
| LocaleLanguages.GetLanguagesForLocale | src/Service/Locale/LocaleLanguageService.php:143-184 | A memoised locale is answered from the memo. A missing package raises. Otherwise the file is read through the retry loop, and only a non-empty table is memoised. |
| LocaleLanguages.CacheIsTransparent | src/Service/Locale/LocaleLanguageService.php:143-184 | A coherent memo changes no answer and stays coherent. |
| LocaleLanguages.RepeatedReadAgrees | src/Service/Locale/LocaleLanguageService.php:143-184 | When the locale files read the same on both calls, asking for the same locale again gives the same table or the same failure. |
| LocaleLanguages.MemoisedReadAgrees | src/Service/Locale/LocaleLanguageService.php:145-177 | Once a non-empty table has been read for a locale, every later call answers with it, whatever the files hold by then. |
| LocaleLanguages.EmptyReadIsReread | src/Service/Locale/LocaleLanguageService.php:154-177 | An empty table or a failure is not memoised, so the next call reads the file again and gets whatever it holds then. |
| LocaleLanguages.ConvertLocaleToLanguageName | src/Service/Locale/LocaleLanguageService.php:75-79 | The conversion succeeds exactly when the target table has the code, and the name is that entry's. A missing code raises. |
| LocaleLanguages.ConvertLanguageNameToLocale | src/Service/Locale/LocaleLanguageService.php:90-98 | The result is "" exactly when no entry has the name or the first such entry's code is empty. Otherwise it is the code of the first entry with that name, as `array_search` returns: no earlier entry carries the name. |
| LocaleLanguages.NameLocaleRoundTrip | src/Service/Locale/LocaleLanguageService.php:75-98 | In a table with distinct codes and names, converting a code to its name and back gives the code. |
| IsoLanguageCodes.LastKeyOfIsCombine | src/Service/Locale/IsoLanguageCodeService.php:206-211 | Searching the table from the end finds what `array_combine` of values and keys maps a code to: the key of the last entry with that value. |
| IsoLanguageCodes.ReverseLookupIsCombine | src/Service/Locale/IsoLanguageCodeService.php:204-212 | The lookup is an index into the combined table with the lower-cased code, and gives `null` when the code is absent. |
| IsoLanguageCodes.GetThreeDigitForTwoDigit | src/Service/Locale/IsoLanguageCodeService.php:10-212 | A three-letter code is returned exactly when some table entry has the lower-cased two-letter code, and it is such an entry's key. |
| IsoLanguageCodes.ReverseLookupRoundTrip | src/Service/Locale/IsoLanguageCodeService.php:204-212 | With distinct two-letter codes, looking up an entry's code in any letter case gives back that entry's three-letter code. |
| Dto.Read | src/Dto/LanguageInformationDto.php:13-38 | Reading an uninitialised typed property fails, and reading a set one gives its value. |
| Dto.SetLanguageName | src/Dto/LanguageInformationDto.php:43-58 | The getter returns the value set, and every other property is unchanged. |
| Dto.SetTwoDigitLanguageCode | src/Dto/LanguageInformationDto.php:59-74 | The getter returns the value set, and every other property is unchanged. |
| Dto.SetMentionedLanguages | src/Dto/LanguageInformationDto.php:75-90 | The getter returns the value set, and every other property is unchanged. |
| Dto.SetText | src/Dto/LanguageInformationDto.php:91-106 | The getter returns the value set, and every other property is unchanged. |
| Dto.SetThreeDigitLanguageCode | src/Dto/LanguageInformationDto.php:107-122 | The getter returns the value set, and every other property is unchanged. |
| Dto.SetUniqueId | src/Dto/LanguageInformationDto.php:123-134 | The getter returns the value set, and every other property is unchanged. |
| Dto.GetMentionedLanguages | src/Dto/LanguageInformationDto.php:28 | A fresh DTO has no mentioned languages, because the property defaults to `[]`. |
| Dto.SettersCommute | src/Dto/LanguageInformationDto.php:43-134 | Setters of different properties commute, and the later write to the same property wins. |
| Dto.SetWords | src/Dto/LanguageDetection/WordsFilterResultDto.php:15-26 | The words read back are the ones set, and the languages are unchanged. |
| Dto.SetLanguages | src/Dto/LanguageDetection/WordsFilterResultDto.php:31-42 | The languages read back are the ones set, and the words are unchanged. |
| SpecialCharacters.EscapeCharactersKeepsAscii | src/Service/SpecialCharacterHandler.php:49-72 | ASCII text comes out unchanged for every code and mode (corrected German map). |
| SpecialCharacters.EscapeCharactersRemovesSpecials | src/Service/SpecialCharacterHandler.php:49-72 | In both the source's version and the corrected one, no non-ASCII letter of the chosen map is left in the result, in either case. For the corrected maps that is every source form; as written, the German upper-case "SS" is the one that can remain. |
| SpecialCharacters.EscapeCharactersKeepsPlainText | src/Service/SpecialCharacterHandler.php:65-71 | In both versions, a text that holds none of the chosen map's source forms comes out unchanged. |
| SpecialCharacters.AsWrittenAgreesOffGerman | src/Service/SpecialCharacterHandler.php:49-72 | The source's `escapeCharacters` agrees with the corrected one on every text exactly when the call is not a direct German one. |
| SpecialCharacters.AsWrittenGermanOnAscii | src/Service/SpecialCharacterHandler.php:19-24 | As written, direct German escaping of ASCII text is exactly the replacement of "SS" by "S". |
| SpecialCharacters.UnsupportedCodeUnchanged | src/Service/SpecialCharacterHandler.php:51-63 | A code with no map in the chosen mode leaves the text unchanged. |
| SpecialCharacters.NorwegianNeedsIndirect | src/Service/SpecialCharacterHandler.php:51-63 | Norwegian is only transliterated in the indirect mode. In the default direct mode the second `match` replaces its map with `[]`. |
| SpecialCharacters.MapsTransliterate | src/Service/SpecialCharacterHandler.php:7-38 | Every map replaces with non-empty ASCII, in both cases. The corrected maps all have non-ASCII sources only. The source's maps have them exactly when the call is not a direct German one, whose upper-case source is the ASCII "SS". |
| SpecialCharacters.AsWrittenRewritesDoubleS | src/Service/SpecialCharacterHandler.php:19-24 | As written, German escaping turns the plain ASCII "SS" into "S" and "SSS" into "SS"; the corrected map keeps "SS". |
| SimilarText.FirstLongest | src/Controller/LanguageMentionDetectionController.php:97 | The match is a common substring of maximal length, and it is the first such match in scan order. |
| SimilarText.Similar | src/Controller/LanguageMentionDetectionController.php:97 | The similarity count never exceeds either string's length. |
| SimilarText.LeftOfFirstRaiseScoresZero | src/Controller/LanguageMentionDetectionController.php:97 | PHP's `count > 1` guard on the left recursion changes nothing: when no earlier position starts a common run, the parts left of the match score 0. |
| SimilarText.SimilarSelf | src/Controller/LanguageMentionDetectionController.php:97-99 | A string is fully similar to itself. |
| SimilarText.SelfMeetsThreshold | src/Controller/LanguageMentionDetectionController.php:97-99 | A non-empty word equal to a name meets the 85% threshold. |
| SimilarText.SimilarDisjoint | src/Controller/LanguageMentionDetectionController.php:97 | Strings with no byte in common are 0% similar. |
| SimilarText.ThresholdBoundsLength | src/Controller/LanguageMentionDetectionController.php:97-99 | A pair that meets the threshold has comparable lengths: the shorter string is at least 85/115 of the longer. |
| MentionDetection.SplitWordsKeepsContent | src/Controller/LanguageMentionDetectionController.php:129 | Splitting at word ends loses nothing but whitespace. |
| MentionDetection.CandidateWords | src/Controller/LanguageMentionDetectionController.php:128-129 | The candidates are exactly the non-empty pieces of the split stripped text, without duplicates. |
| MentionDetection.RemoveNonWord | src/Controller/LanguageMentionDetectionController.php:133 | Only word bytes are left, and a word that has only word bytes is unchanged. |
| MentionDetection.ListedIsMember | src/Controller/LanguageMentionDetectionController.php:33-45 | A code is supported exactly when it is in the list. |
| MentionDetection.HalfLanguageNameIsLargerHalf | src/Controller/LanguageMentionDetectionController.php:141-143 | The half name is a prefix of the name that is at least half as long as the name. |
| MentionDetection.WordWithNameHasHalf | src/Controller/LanguageMentionDetectionController.php:141-145 | A word that contains a name also contains its half, so it always passes the filter. |
| MentionDetection.FirstHint | src/Controller/LanguageMentionDetectionController.php:136-151 | The language chosen for a word is the first supported table entry whose half name the word holds. |
| MentionDetection.FilterKeepsHintingWords | src/Controller/LanguageMentionDetectionController.php:125-161 | A word is kept exactly when it is a normalised candidate that hints at some supported language. |
| MentionDetection.FilterLanguagesAreHinted | src/Controller/LanguageMentionDetectionController.php:125-161 | Every kept language is a supported table entry whose half name some kept word holds. |
| MentionDetection.FilterKeepsFirstHints | src/Controller/LanguageMentionDetectionController.php:145-158 | The name each kept word hints at first survives `array_unique`. |
| MentionDetection.FilterWordsAndLanguages | src/Controller/LanguageMentionDetectionController.php:155-158 | The kept words and the kept names are each free of duplicates. |
| MentionDetection.Hits | src/Controller/LanguageMentionDetectionController.php:81-110 | A language matches exactly when some word contains its name or is at least 85% similar to it. |
| MentionDetection.ConvertAllReadsOneTable | src/Controller/LanguageMentionDetectionController.php:92-107 | All conversions read one table of the returned locale. The names are that table's entries for the matched codes, and the loop fails exactly when the table lacks one of them. |
| MentionDetection.GetMentionedLanguages | src/Controller/LanguageMentionDetectionController.php:69-114 | The result has no duplicates. A used locale that cannot be read raises, and without a returned locale nothing else can fail. |
| MentionDetection.MentionsInUsedLocale | src/Controller/LanguageMentionDetectionController.php:69-114 | Without a returned locale, a name is reported exactly when it names a kept language that some kept word matches. |
| MentionDetection.MentionsInReturnedLocale | src/Controller/LanguageMentionDetectionController.php:69-114 | With a returned locale, the call fails exactly when that locale lacks a matched code. Otherwise the names are exactly that locale's names for the matched codes. |
| MentionDetection.ExactNameIsMentioned | src/Controller/LanguageMentionDetectionController.php:145-150 | A word that is exactly the name of its first hinted language is reported. |
| MentionDetection.NoHintNoMention | src/Controller/LanguageMentionDetectionController.php:132-153 | A text none of whose words holds half of a supported name mentions nothing. |
| LanguageDetection.Rename | src/Controller/LanguageDetectionController.php:85-88 | With a non-empty target locale, the name becomes that locale's name for the DTO's code and nothing else changes; without one, the DTO is unchanged. |
| LanguageDetection.Annotate | src/Controller/LanguageDetectionController.php:84-91 | Only the name and the mentions change, the mentions have no duplicates, and the name changes only when converting. Reading an unset code raises PHP's `Error` for an uninitialised typed property (`Uninitialized` here). |
| LanguageDetection.TargetStaysMemoised | src/Controller/LanguageDetectionController.php:85-90 | After a successful conversion, the mention search reads the same target table that the conversion read. |
| LanguageDetection.AnnotateWithTarget | src/Controller/LanguageDetectionController.php:84-91 | With a target locale, a failed conversion escapes first, then a failure to read the DTO's own locale. Otherwise the name is the target table's entry for the code. The mentions are exactly the target table's names for the matched codes, and the call fails exactly when that table lacks one of them. |
| LanguageDetection.AnnotateWithoutTarget | src/Controller/LanguageDetectionController.php:84-91 | Without a target locale the name stays polyglot's, and the mentions are the names in the DTO's own locale that the text's words match. |
| LanguageDetection.GetLanguageInformation | src/Controller/LanguageDetectionController.php:64-95 | An empty text gives `null`, and so does any exception from polyglot. A returned DTO is polyglot's DTO annotated. Only the catalogue can raise afterwards. |
| LanguageDetection.SingleReplyDescribesText | src/Controller/LanguageDetectionController.php:64-95 | A returned DTO carries the unique id it was detected under, its code and the matching three-letter code. |
| LanguageDetection.UnhealthySingleGivesNull | src/Controller/LanguageDetectionController.php:68-82 | When polyglot is not healthy, the answer is `null`, not an exception. |
| LanguageDetection.Rekey | src/Controller/LanguageDetectionController.php:112-120 | Both arrays the loop builds keep distinct keys. |
| LanguageDetection.RekeyWithFreshIds | src/Controller/LanguageDetectionController.php:112-120 | With fresh distinct ids, both arrays end up as the texts under their new ids, in order, so no old key is left. |
| LanguageDetection.RekeyTablesAgree | src/Controller/LanguageDetectionController.php:112-120 | With any ids, every key of the re-keyed texts is in `uniqueKeyToText` or is the old key of a text the loop has not reached yet. |
| LanguageDetection.RekeyedTextsAreKnown | src/Controller/LanguageDetectionController.php:123-126 | Every id the detection finds can be read back from `uniqueKeyToText`. |
| LanguageDetection.GetLanguagesInformation | src/Controller/LanguageDetectionController.php:110-146 | Detection runs on the re-keyed texts, and a detection exception escapes. A failed health check surfaces as a failure. |
| LanguageDetection.BulkFailsInDetectionOrCatalogue | src/Controller/LanguageDetectionController.php:110-146 | A batch fails only in detection or in the catalogue, never on an uninitialised DTO property. |
| LanguageDetection.BulkRepliesDescribeTexts | src/Controller/LanguageDetectionController.php:110-146 | With fresh ids, every DTO a successful batch returns describes one of the texts: its id, its full text and its codes. |
| PhpArrays.ArraySearch | src/Service/Locale/LocaleLanguageService.php:93 | The key returned belongs to the first entry holding the value, and none is returned when no entry holds it. |
| PhpArrays.UniqueKeepsFirstOrder | src/Controller/LanguageMentionDetectionController.php:112 | `array_unique` keeps each value once, at its first occurrence, in order. |
| PhpArrays.UniqueByValueKeepsFirst | src/Controller/LanguageMentionDetectionController.php:157 | `array_unique` on an array keeps, for each name, its first entry. |
| Bytes.ExplodeJoin | src/Service/LanguageDetection/Polyglot/PolyglotBulkDetection.php:40 | Exploding a join of pieces that are each cleanly cut by the separator gives the pieces back. |
| Bytes.JoinExplode | src/Service/LanguageDetection/Polyglot/PolyglotBulkDetection.php:66 | Joining the exploded pieces gives the string back. |

## Left out

- Logging, the `shell_exec`, `exec`, `file_put_contents`, `file_get_contents`, `unlink`, `rename` and `mkdir` calls, and the clock behind `uniqid()` are left out. Their results are parameters or returned data.
- The failed-detections folder: a quarantined file is recorded by its input path. The folder name built from `uniqid()` and the `mkdir` of `handleLanguageDetectionFailure` are not modelled.
- Write failures in `prepareFilePaths` are not modelled: every input file is written. The source only logs such a failure.
- The search for the `language-list` directory under `vendor` (`getLanguagePackageLocaleInclusionPath`) is not modelled. It is the `Catalog`'s optional inclusion path, with `None` for the not-found exception.
- JSON decoding is not modelled. A locale file is observed as missing, as undecodable or as a decoded code-to-name table. Non-string JSON values and numeric keys are not modelled.
- PHP's loose comparisons are not modelled. `array_search`, `in_array` and array keys compare strings exactly, which agrees with PHP for the non-numeric codes and names involved. Numeric-string keys, which PHP turns into integers, are not modelled.
- `strip_tags` is a parameter, not an HTML tokeniser.
- Multi-byte characters: `mb_substr` in `shortenAndNormalizeText` is modelled as a byte cut. This is exact there, because the text has already been reduced to ASCII word bytes and spaces. `substr` on the single path is a byte cut in the source too.
- SimilarText.MeetsThreshold: the float percentage `sim * 2 * 100 / (|a| + |b|) >= 85` is decided by exact integer cross-multiplication, not by floating point. The two differ only on rounding at the boundary.
- MentionDetection.Hits: the `str_contains` shortcut before `similar_text` is kept, but the ordering of `$matchingLanguages` is left open. Only membership is stated, because `array_unique` is applied afterwards.
- MentionDetection.GetMentionedLanguages: the converted names are characterised only when both the used locale and the returned locale can be read (MentionsInReturnedLocale).
- Polyglot.GetLanguageInformation: its own contract does not say when a DTO rather than `null` comes back. SingleUsesFirstParsedRow and NoParsedRowGivesNull state that for every healthy run.
- IsoLanguageCodes.GetThreeDigitForTwoDigit: the table's two-letter codes are not proved distinct. The contract says "some entry's key", which is exact only if the codes are distinct.
- `Polyglot::getBulkLanguageInformation` hands over to `PolyglotBulkDetection.Detect` unchanged and has no member of its own.
- `LanguageMentionDebugAction`, `GuzzleService` and the interfaces are outside the core.
- LocaleLanguages.RepeatedReadAgrees: the same answer is promised only when the files read the same on both calls. A `Catalog` is fixed for the two calls. A file that changes in between is covered only by MemoisedReadAgrees and EmptyReadIsReread.
- Concurrency between requests, which the retry loop of `getLanguagesForLocale` works around, is not modelled. Each read attempt observes whatever the `Catalog` says.

## Findings

| source | as written | input that shows it | evidently intended | confidence | as-written member | corrected member |
|---|---|---|---|---|---|---|
| src/Service/SpecialCharacterHandler.php:19-24 | The German map's upper-case pass replaces `mb_strtoupper("ß")`, which is "SS" under PHP's full case mapping, with "S". | `escapeCharacters("SS", "deu")` (also "KLASSE", "STRASSE") gives "S" ("KLASE", "STRASE") | Only special letters are transliterated, and ASCII text passes through unchanged. | medium, not executed | SpecialCharacters.AsWrittenRewritesDoubleS | SpecialCharacters.EscapeCharactersKeepsAscii |

=== FILE: bulk_detection.dfy ===
/** `PolyglotBulkDetection`: detects the language of many texts with one
    shell command. Every text is normalised and written to its own input
    file, polyglot runs once per file in parallel, and each text is matched
    back to the output row that contains its normalised form. */
module PolyglotBulkDetection {
  import opened Wrappers
  import opened Bytes
  import opened PhpArrays
  import opened Dto
  import opened LocaleLanguages
  import opened IsoLanguageCodes
  import opened PolyglotFiles
  import opened PolyglotResultParser
  import opened PolyglotHealth
  import opened TextNormalization


  /** What the bulk detection reads from outside: PHP's `strip_tags`, what
      the health probes printed, what a shell command prints (`shell_exec`,
      None when it prints nothing) and the locale files. */
  datatype Environment = Environment(
    stripTags: bytes -> bytes,
    health: Health,
    run: bytes -> Option<bytes>,
    catalog: Catalog)

  /** The exceptions that escape `detect`. */
  datatype DetectionError =
    | Unhealthy(health: HealthError)
    | CatalogueFailure(catalog: CatalogError)

  // ---------------------------------------------------------------- the command

  const DetectPrefix: bytes := "polyglot detect --input "
  const ErrorMuting: bytes := " 2> /dev/null"
  /** Runs the previous command in the background. */
  const Background: bytes := " & "
  const WaitForAll: bytes := "wait"

  /** The command for one input file. The source puts a space between the
      path and the error muting, which starts with a space of its own. */
  function PartialCommand(path: bytes): (r: bytes)
    ensures |r| == |DetectPrefix| + |path| + 1 + |ErrorMuting|
    ensures r[..|DetectPrefix|] == DetectPrefix
    ensures r[|DetectPrefix|..|DetectPrefix| + |path|] == path
    ensures r[|DetectPrefix| + |path|..] == " " + ErrorMuting
  {
    DetectPrefix + path + " " + ErrorMuting
  }

  function PartialCommands(paths: seq<bytes>): (r: seq<bytes>)
    ensures |r| == |paths|
    ensures forall i | 0 <= i < |paths| :: r[i] == PartialCommand(paths[i])
  {
    seq(|paths|, i requires 0 <= i < |paths| => PartialCommand(paths[i]))
  }

  /** `bulkLanguageDetectionCommand`: both health checks first (their
      exceptions escape), then one background command per file and a final
      `wait`. */
  function BulkLanguageDetectionCommand(h: Health, paths: seq<bytes>): (r: Result<bytes, HealthError>)
    ensures r.Failure? <==> CheckHealth(h).Some?
    ensures r.Failure? ==> r.error == CheckHealth(h).value
    ensures r.Success? ==> (|r.value| >= |Background + WaitForAll|
      && r.value[|r.value| - |Background + WaitForAll|..] == Background + WaitForAll)
  {
    match CheckHealth(h)
    case Some(e) => Failure(e)
    case None => Success(Join(Background, PartialCommands(paths)) + Background + WaitForAll)
  }

  lemma {:induction false} JoinSnoc(sep: bytes, pieces: seq<bytes>, x: bytes)
    requires |pieces| >= 1
    ensures Join(sep, pieces + [x]) == Join(sep, pieces) + sep + x
    decreases |pieces|
  {
    assert (pieces + [x])[1..] == pieces[1..] + [x];
    if |pieces| > 1 {
      JoinSnoc(sep, pieces[1..], x);
    }
  }

  predicate NoAmpersand(s: bytes) {
    forall i | 0 <= i < |s| :: s[i] != '&'
  }

  /** A piece without `&` is cleanly cut off by " & ". */
  lemma {:induction false} NoAmpersandSeparates(p: bytes)
    requires NoAmpersand(p)
    ensures SeparatesCleanly(Background, p)
  {
    var q := p + Background;
    assert q[|p|..|p| + 3] == Background;
    assert OccursAt(q, Background, |p|);
    forall k | 0 <= k < |p| ensures !OccursAt(q, Background, k) {
      assert q[k + 1] != '&';
    }
    var r := IndexOf(q, Background);
    assert r.Some?;
    assert r.value <= |p|;
  }

  /** The command line for a path without `&` has none either. */
  lemma {:induction false} PartialCommandNoAmpersand(path: bytes)
    requires NoAmpersand(path)
    ensures NoAmpersand(PartialCommand(path))
  {
    var part := PartialCommand(path);
    var tail := " " + ErrorMuting;
    assert NoAmpersand(DetectPrefix);
    assert NoAmpersand(tail);
    forall k | 0 <= k < |part| ensures part[k] != '&' {
      if k < |DetectPrefix| {
        assert part[k] == part[..|DetectPrefix|][k] == DetectPrefix[k];
      } else if k < |DetectPrefix| + |path| {
        assert part[k] == part[|DetectPrefix|..|DetectPrefix| + |path|][k - |DetectPrefix|];
      } else {
        assert part[k] == part[|DetectPrefix| + |path|..][k - |DetectPrefix| - |path|] == tail[k - |DetectPrefix| - |path|];
      }
    }
  }

  /** The shell sees exactly one background command per file, in order,
      then `wait`, provided no path contains `&` (unique ids never do). */
  lemma {:induction false} CommandRunsEveryFile(h: Health, paths: seq<bytes>)
    requires CheckHealth(h).None? && |paths| >= 1
    requires forall i | 0 <= i < |paths| :: NoAmpersand(paths[i])
    ensures Explode(Background, BulkLanguageDetectionCommand(h, paths).value) == PartialCommands(paths) + [WaitForAll]
  {
    var parts := PartialCommands(paths);
    JoinSnoc(Background, parts, WaitForAll);
    assert Join(Background, parts) + Background + WaitForAll == Join(Background, parts + [WaitForAll]);
    forall i | 0 <= i < |parts + [WaitForAll]| ensures SeparatesCleanly(Background, (parts + [WaitForAll])[i]) {
      if i < |parts| {
        PartialCommandNoAmpersand(paths[i]);
        NoAmpersandSeparates(PartialCommand(paths[i]));
      } else {
        NoAmpersandSeparates(WaitForAll);
      }
    }
    ExplodeJoin(Background, parts + [WaitForAll]);
  }

  // ---------------------------------------------------------------- input files

  /** `prepareFilePaths`: each text's input file and what is written into
      it, in the order of the texts. */
  function InputFiles(stripTags: bytes -> bytes, texts: Assoc<bytes, bytes>): (files: Assoc<bytes, bytes>)
    ensures |files| == |texts|
    ensures forall i | 0 <= i < |texts| :: files[i].0 == InputFilePath(texts[i].0)
    ensures forall i | 0 <= i < |texts| :: Normalized(files[i].1) && |files[i].1| <= MaxTextLength
  {
    seq(|texts|, i requires 0 <= i < |texts| =>
      (InputFilePath(texts[i].0), ShortenAndNormalizeText(stripTags, texts[i].1)))
  }

  /** Distinct unique ids give distinct files: no text overwrites another. */
  lemma {:induction false} InputFilesDistinct(stripTags: bytes -> bytes, texts: Assoc<bytes, bytes>)
    requires DistinctKeys(texts)
    ensures DistinctKeys(InputFiles(stripTags, texts))
  {
    var files := InputFiles(stripTags, texts);
    forall i, j | 0 <= i < j < |files| ensures files[i].0 != files[j].0 {
      if files[i].0 == files[j].0 {
        InputFilePathInjective(texts[i].0, texts[j].0);
      }
    }
  }

  // ---------------------------------------------------------------- output rows

  /** `array_filter(explode("\n", $output))`; no output reads as "". */
  function OutputRows(output: Option<bytes>): (rows: seq<bytes>)
    ensures forall i | 0 <= i < |rows| :: !PhpEmpty(rows[i])
  {
    FilterNonEmpty(Explode("\n", if output.Some? then output.value else []))
  }

  /** The first row, from `from` on, that contains `shortText`. */
  function FindRow(rows: seq<bytes>, shortText: bytes, from: nat): (r: Option<nat>)
    ensures r.Some? ==> from <= r.value < |rows| && Contains(rows[r.value], shortText)
    ensures forall i | from <= i < |rows| && (r.None? || i < r.value) :: !Contains(rows[i], shortText)
    decreases |rows| - from
  {
    if from >= |rows| then None
    else if Contains(rows[from], shortText) then Some(from)
    else FindRow(rows, shortText, from + 1)
  }

  // ---------------------------------------------------------------- one text

  /** A DTO the bulk detection hands out for the text `text` with id `id`. */
  predicate FoundFor(d: LanguageInformation, id: bytes, text: bytes) {
    d.uniqueId == Set(id) && d.text == Set(text)
    && d.languageName.Set? && d.languageName.value.Some? && !PhpEmpty(d.languageName.value.value)
    && d.twoDigitLanguageCode.Set? && !PhpEmpty(d.twoDigitLanguageCode.value)
    && d.threeDigitLanguageCode == Set(GetThreeDigitForTwoDigit(d.twoDigitLanguageCode.value))
    && d.mentionedLanguages == []
  }

  /** The outcome of `buildLanguageInformationDto`. */
  datatype Built =
    | Unparsed               // the row did not parse: the file is quarantined
    | NoLocale               // the language has no English locale entry
    | Built(dto: LanguageInformation)

  /** `buildLanguageInformationDto`: parse the row, look the language up
      among the English names, and fill a DTO with the names, both codes and
      the full text. */
  function BuildLanguageInformationDto(cat: Catalog, cache: Cache, text: bytes, row: bytes): (a: Answer<Built>)
    ensures var parsed := GetLanguageFromDetectionResultRow(row);
      (parsed.None? ==> a == Answer(cache, Success(Unparsed)))
      && (parsed.Some? ==>
            var c := ConvertLanguageNameToLocale(cat, cache, parsed.value.language, "en");
            a.cache == c.cache
            && (c.result.Failure? ==> a.result == Failure(c.result.error))
            && (c.result.Success? ==> a.result.Success? && (a.result.value.NoLocale? <==> c.result.value == []))
            && (c.result.Success? && c.result.value != [] ==> a.result.Success? && a.result.value.Built?)
            && (a.result.Success? && a.result.value.Built? ==>
                  a.result.value.dto.twoDigitLanguageCode == Set(c.result.value)
                  && a.result.value.dto.languageName == Set(Some(parsed.value.language))))
    ensures a.result.Success? && a.result.value.Built? ==>
      a.result.value.dto.uniqueId.Unset? && FoundFor(a.result.value.dto.(uniqueId := Set([])), [], text)
  {
    match GetLanguageFromDetectionResultRow(row)
    case None => Answer(cache, Success(Unparsed))
    case Some(parsed) =>
      var c := ConvertLanguageNameToLocale(cat, cache, parsed.language, "en");
      match c.result
      case Failure(e) => Answer(c.cache, Failure(e))
      case Success(code) =>
        if PhpEmpty(code) then Answer(c.cache, Success(NoLocale))
        else
          var d := SetLanguageName(NewLanguageInformation, Some(parsed.language));
          var d := SetTwoDigitLanguageCode(d, code);
          var d := SetThreeDigitLanguageCode(d, GetThreeDigitForTwoDigit(code));
          Answer(c.cache, Success(Built(SetText(d, text))))
  }

  /** What happens to one text in `parseDetectionResults`. */
  datatype Outcome =
    | Skipped            // the input file is missing or empty
    | Quarantined        // no row names the text, or its row does not parse
    | Unlocalized        // the detected language has no locale
    | Found(dto: LanguageInformation)

  /** One iteration of `parseDetectionResults`: read the text's input file,
      find the first row containing it and build the DTO.
      `ClassifyTextCases` states when each outcome happens. */
  function ClassifyText(cat: Catalog, files: Assoc<bytes, bytes>, rows: seq<bytes>, cache: Cache, id: bytes, text: bytes): (a: Answer<Outcome>)
    ensures a.result.Success? && a.result.value.Found? ==> FoundFor(a.result.value.dto, id, text)
  {
    var content := Get(files, InputFilePath(id));
    if content.None? || PhpEmpty(content.value) then Answer(cache, Success(Skipped))
    else
      match FindRow(rows, content.value, 0)
      case None => Answer(cache, Success(Quarantined))
      case Some(k) => FromBuilt(BuildLanguageInformationDto(cat, cache, text, rows[k]), id)
  }

  /** The outcome of a text whose row was found: an unparsed row
      quarantines it, a built DTO receives the unique id. */
  function FromBuilt(b: Answer<Built>, id: bytes): (a: Answer<Outcome>)
    ensures a.cache == b.cache
    ensures a.result.Failure? <==> b.result.Failure?
    ensures a.result.Failure? ==> a.result.error == b.result.error
    ensures a.result == Success(Quarantined) <==> b.result == Success(Unparsed)
    ensures a.result == Success(Unlocalized) <==> b.result == Success(NoLocale)
    ensures a.result.Success? && a.result.value.Found? <==> b.result.Success? && b.result.value.Built?
    ensures a.result.Success? && a.result.value.Found? ==> a.result.value.dto == SetUniqueId(b.result.value.dto, id)
  {
    match b.result
    case Failure(e) => Answer(b.cache, Failure(e))
    case Success(Unparsed) => Answer(b.cache, Success(Quarantined))
    case Success(NoLocale) => Answer(b.cache, Success(Unlocalized))
    case Success(Built(d)) => Answer(b.cache, Success(Found(SetUniqueId(d, id))))
  }

  /** A missing or empty input file skips the text; a text no row contains,
      or whose row does not parse, is quarantined; otherwise the DTO's
      language is the parsed one and its code the English locale's. */
  lemma {:induction false} ClassifyTextCases(cat: Catalog, files: Assoc<bytes, bytes>, rows: seq<bytes>, cache: Cache, id: bytes, text: bytes)
    ensures var a := ClassifyText(cat, files, rows, cache, id, text);
      var content := Get(files, InputFilePath(id));
      (content.None? || PhpEmpty(content.value) ==> a == Answer(cache, Success(Skipped)))
      && (content.Some? && !PhpEmpty(content.value) ==>
            (FindRow(rows, content.value, 0).None? ==> a == Answer(cache, Success(Quarantined)))
            && (FindRow(rows, content.value, 0).Some? ==>
                  var parsed := GetLanguageFromDetectionResultRow(rows[FindRow(rows, content.value, 0).value]);
                  (a.result == Success(Quarantined) <==> parsed.None?)
                  && (parsed.Some? ==>
                        var c := ConvertLanguageNameToLocale(cat, cache, parsed.value.language, "en");
                        a.cache == c.cache
                        && (a.result.Failure? <==> c.result.Failure?)
                        && (a.result == Success(Unlocalized) <==> c.result == Success([]))
                        && (a.result.Success? && a.result.value.Found? <==> c.result.Success? && c.result.value != [])
                        && (a.result.Success? && a.result.value.Found? ==>
                              a.result.value.dto.languageName == Set(Some(parsed.value.language))
                              && a.result.value.dto.twoDigitLanguageCode == Set(c.result.value)))))
  {
  }

  // ---------------------------------------------------------------- all texts

  /** The outcomes of the texts handled before an exception (all of them
      when none was raised), with the memo threaded through. */
  datatype Classified = Classified(cache: Cache, outcomes: seq<Outcome>, failure: Option<CatalogError>)

  /** The loop of `parseDetectionResults`, text by text. */
  function ClassifyAll(cat: Catalog, files: Assoc<bytes, bytes>, rows: seq<bytes>, cache: Cache, texts: Assoc<bytes, bytes>): (c: Classified)
    ensures |c.outcomes| <= |texts|
    ensures c.failure.None? ==> |c.outcomes| == |texts|
    ensures forall i | 0 <= i < |c.outcomes| && c.outcomes[i].Found? :: FoundFor(c.outcomes[i].dto, texts[i].0, texts[i].1)
    decreases |texts|
  {
    if |texts| == 0 then Classified(cache, [], None)
    else
      var a := ClassifyText(cat, files, rows, cache, texts[0].0, texts[0].1);
      match a.result
      case Failure(e) => Classified(a.cache, [], Some(e))
      case Success(o) =>
        var rest := ClassifyAll(cat, files, rows, a.cache, texts[1..]);
        Classified(rest.cache, [o] + rest.outcomes, rest.failure)
  }

  /** `$foundLanguages[$uniqueId][] = $dto` for every found text, in order. */
  function FoundEntries(texts: Assoc<bytes, bytes>, outcomes: seq<Outcome>): (found: Assoc<bytes, seq<LanguageInformation>>)
    requires |outcomes| <= |texts|
    ensures |found| <= |outcomes|
  {
    if |outcomes| == 0 then []
    else
      (if outcomes[0].Found? then [(texts[0].0, [outcomes[0].dto])] else [])
      + FoundEntries(texts[1..], outcomes[1..])
  }

  /** The ids of the texts whose files `handleLanguageDetectionFailure`
      moved away, in order. */
  function QuarantinedIds(texts: Assoc<bytes, bytes>, outcomes: seq<Outcome>): (ids: seq<bytes>)
    requires |outcomes| <= |texts|
    ensures |ids| <= |outcomes|
  {
    if |outcomes| == 0 then []
    else
      (if outcomes[0].Quarantined? then [texts[0].0] else [])
      + QuarantinedIds(texts[1..], outcomes[1..])
  }

  /** A key of the tail of an array with distinct keys is not its first key,
      and looking it up in the whole array finds the same entry. */
  lemma {:induction false} GetTail(texts: Assoc<bytes, bytes>, k: bytes)
    requires DistinctKeys(texts) && |texts| > 0 && Get(texts[1..], k).Some?
    ensures k != texts[0].0 && Get(texts, k) == Get(texts[1..], k)
  {
    var i :| 0 <= i < |texts[1..]| && texts[1..][i].0 == k;
    assert texts[i + 1].0 == k;
  }

  /** Only input ids are quarantined. */
  lemma {:induction false} QuarantinedAreIds(texts: Assoc<bytes, bytes>, outcomes: seq<Outcome>)
    requires DistinctKeys(texts) && |outcomes| <= |texts|
    ensures forall q | q in QuarantinedIds(texts, outcomes) :: Get(texts, q).Some?
    decreases |outcomes|
  {
    if |outcomes| > 0 {
      QuarantinedAreIds(texts[1..], outcomes[1..]);
      forall q | q in QuarantinedIds(texts[1..], outcomes[1..]) ensures Get(texts, q).Some? {
        GetTail(texts, q);
      }
    }
  }

  /** Each found entry carries one DTO, for the text stored under its id. */
  lemma {:induction false} FoundEntriesDtos(texts: Assoc<bytes, bytes>, outcomes: seq<Outcome>)
    requires DistinctKeys(texts) && |outcomes| <= |texts|
    requires forall i | 0 <= i < |outcomes| && outcomes[i].Found? :: FoundFor(outcomes[i].dto, texts[i].0, texts[i].1)
    ensures forall j | 0 <= j < |FoundEntries(texts, outcomes)| ::
      |FoundEntries(texts, outcomes)[j].1| == 1 && Get(texts, FoundEntries(texts, outcomes)[j].0).Some?
      && FoundFor(FoundEntries(texts, outcomes)[j].1[0], FoundEntries(texts, outcomes)[j].0,
                  Get(texts, FoundEntries(texts, outcomes)[j].0).value)
    decreases |outcomes|
  {
    if |outcomes| > 0 {
      var tail := FoundEntries(texts[1..], outcomes[1..]);
      FoundEntriesDtos(texts[1..], outcomes[1..]);
      forall j | 0 <= j < |tail|
        ensures Get(texts, tail[j].0) == Get(texts[1..], tail[j].0)
      {
        GetTail(texts, tail[j].0);
      }
      assert Get(texts, texts[0].0) == Some(texts[0].1);
    }
  }

  /** Found ids are distinct and never quarantined. */
  lemma {:induction false} FoundEntriesDistinct(texts: Assoc<bytes, bytes>, outcomes: seq<Outcome>)
    requires DistinctKeys(texts) && |outcomes| <= |texts|
    ensures var found := FoundEntries(texts, outcomes);
      DistinctKeys(found)
      && forall j | 0 <= j < |found| :: Get(texts, found[j].0).Some? && found[j].0 !in QuarantinedIds(texts, outcomes)
    decreases |outcomes|
  {
    if |outcomes| > 0 {
      var id := texts[0].0;
      var tail := FoundEntries(texts[1..], outcomes[1..]);
      var qs := QuarantinedIds(texts[1..], outcomes[1..]);
      FoundEntriesDistinct(texts[1..], outcomes[1..]);
      QuarantinedAreIds(texts[1..], outcomes[1..]);
      forall j | 0 <= j < |tail|
        ensures tail[j].0 != id && Get(texts, tail[j].0).Some?
      {
        GetTail(texts, tail[j].0);
      }
      if id in qs {
        GetTail(texts, id);
      }
      assert Get(texts, id) == Some(texts[0].1);
    }
  }

  /** Found ids are distinct input ids, never quarantined, and each carries
      one DTO for its own text. */
  lemma {:induction false} FoundEntriesSpec(texts: Assoc<bytes, bytes>, outcomes: seq<Outcome>)
    requires DistinctKeys(texts) && |outcomes| <= |texts|
    requires forall i | 0 <= i < |outcomes| && outcomes[i].Found? :: FoundFor(outcomes[i].dto, texts[i].0, texts[i].1)
    ensures var found := FoundEntries(texts, outcomes);
      DistinctKeys(found)
      && forall j | 0 <= j < |found| ::
           |found[j].1| == 1 && Get(texts, found[j].0).Some?
           && FoundFor(found[j].1[0], found[j].0, Get(texts, found[j].0).value)
           && found[j].0 !in QuarantinedIds(texts, outcomes)
  {
    FoundEntriesDtos(texts, outcomes);
    FoundEntriesDistinct(texts, outcomes);
  }

  /** The result of `parseDetectionResults`: the memo, the ids whose files
      were moved to the failed-detections folder (also those moved before an
      exception), and the DTOs per unique id. */
  datatype Parsed = Parsed(cache: Cache, quarantined: seq<bytes>, result: Result<Assoc<bytes, seq<LanguageInformation>>, CatalogError>)

  /** `parseDetectionResults`: every text in order, the memo threaded
      through; an exception ends the loop. */
  function ParseDetectionResults(cat: Catalog, files: Assoc<bytes, bytes>, rows: seq<bytes>, cache: Cache, texts: Assoc<bytes, bytes>): (p: Parsed)
    requires DistinctKeys(texts)
    ensures forall q | q in p.quarantined :: Get(texts, q).Some?
    ensures p.result.Success? ==>
      var found := p.result.value;
      DistinctKeys(found)
      && forall j | 0 <= j < |found| ::
           |found[j].1| == 1 && Get(texts, found[j].0).Some?
           && FoundFor(found[j].1[0], found[j].0, Get(texts, found[j].0).value)
           && found[j].0 !in p.quarantined
  {
    var c := ClassifyAll(cat, files, rows, cache, texts);
    QuarantinedAreIds(texts, c.outcomes);
    FoundEntriesSpec(texts, c.outcomes);
    Parsed(c.cache, QuarantinedIds(texts, c.outcomes),
      if c.failure.Some? then Failure(c.failure.value) else Success(FoundEntries(texts, c.outcomes)))
  }

  // ---------------------------------------------------------------- which texts

  /** The text's file has contents, but no row contains them or the first
      row that does will not parse: `handleLanguageDetectionFailure` moves
      the file away. */
  predicate Undetectable(files: Assoc<bytes, bytes>, rows: seq<bytes>, id: bytes) {
    var content := Get(files, InputFilePath(id));
    content.Some? && !PhpEmpty(content.value)
    && (FindRow(rows, content.value, 0).None?
        || GetLanguageFromDetectionResultRow(rows[FindRow(rows, content.value, 0).value]).None?)
  }

  /** The text's file has contents, the first row containing them parses,
      and the language it names has a non-empty English locale code. */
  predicate Detectable(cat: Catalog, files: Assoc<bytes, bytes>, rows: seq<bytes>, cache: Cache, id: bytes) {
    var content := Get(files, InputFilePath(id));
    content.Some? && !PhpEmpty(content.value)
    && FindRow(rows, content.value, 0).Some?
    && var parsed := GetLanguageFromDetectionResultRow(rows[FindRow(rows, content.value, 0).value]);
       parsed.Some?
       && var c := ConvertLanguageNameToLocale(cat, cache, parsed.value.language, "en");
          c.result.Success? && c.result.value != []
  }

  /** The memo as the loop reaches text `i`: what the texts before it left. */
  function CacheBefore(cat: Catalog, files: Assoc<bytes, bytes>, rows: seq<bytes>, cache: Cache, texts: Assoc<bytes, bytes>, i: nat): Cache
    requires i <= |texts|
  {
    ClassifyAll(cat, files, rows, cache, texts[..i]).cache
  }

  /** A memo that agrees with the catalogue stays so through the loop. */
  lemma {:induction false} ClassifyAllKeepsCoherent(cat: Catalog, files: Assoc<bytes, bytes>, rows: seq<bytes>, cache: Cache, texts: Assoc<bytes, bytes>)
    requires Coherent(cat, cache)
    ensures Coherent(cat, ClassifyAll(cat, files, rows, cache, texts).cache)
    decreases |texts|
  {
    if |texts| > 0 {
      var a := ClassifyText(cat, files, rows, cache, texts[0].0, texts[0].1);
      ClassifyTextKeepsCoherent(cat, files, rows, cache, texts[0].0, texts[0].1);
      if a.result.Success? {
        ClassifyAllKeepsCoherent(cat, files, rows, a.cache, texts[1..]);
      }
    }
  }

  /** One text leaves the memo as it was or as the English read left it. */
  lemma {:induction false} ClassifyTextKeepsCoherent(cat: Catalog, files: Assoc<bytes, bytes>, rows: seq<bytes>, cache: Cache, id: bytes, text: bytes)
    requires Coherent(cat, cache)
    ensures Coherent(cat, ClassifyText(cat, files, rows, cache, id, text).cache)
  {
    ClassifyTextMemo(cat, files, rows, cache, id, text);
    CacheIsTransparent(cat, cache, "en");
  }

  /** The only change one text makes to the memo is the English read. */
  lemma {:induction false} ClassifyTextMemo(cat: Catalog, files: Assoc<bytes, bytes>, rows: seq<bytes>, cache: Cache, id: bytes, text: bytes)
    ensures var a := ClassifyText(cat, files, rows, cache, id, text);
      a.cache == cache || a.cache == GetLanguagesForLocale(cat, cache, "en").cache
  {
  }

  /** With a memo that agrees with the catalogue, whether a text is
      detectable does not depend on the memo. */
  lemma {:induction false} DetectableFresh(cat: Catalog, files: Assoc<bytes, bytes>, rows: seq<bytes>, cache: Cache, id: bytes)
    requires Coherent(cat, cache)
    ensures Detectable(cat, files, rows, cache, id) <==> Detectable(cat, files, rows, map[], id)
  {
    CacheIsTransparent(cat, cache, "en");
  }

  /** Without an exception, each outcome is the one `ClassifyText` gives the
      text with the memo the texts before it left. */
  lemma {:induction false} ClassifyAllSteps(cat: Catalog, files: Assoc<bytes, bytes>, rows: seq<bytes>, cache: Cache, texts: Assoc<bytes, bytes>, i: nat)
    requires i < |texts|
    ensures var c := ClassifyAll(cat, files, rows, cache, texts);
      c.failure.None? ==>
        ClassifyText(cat, files, rows, CacheBefore(cat, files, rows, cache, texts, i), texts[i].0, texts[i].1).result
        == Success(c.outcomes[i])
    decreases i
  {
    var c := ClassifyAll(cat, files, rows, cache, texts);
    if c.failure.None? {
      var a := ClassifyText(cat, files, rows, cache, texts[0].0, texts[0].1);
      assert a.result.Success?;
      CacheBeforeStep(cat, files, rows, cache, texts, i);
      if i > 0 {
        var rest := ClassifyAll(cat, files, rows, a.cache, texts[1..]);
        assert c == Classified(rest.cache, [a.result.value] + rest.outcomes, rest.failure);
        ClassifyAllSteps(cat, files, rows, a.cache, texts[1..], i - 1);
        assert texts[i] == texts[1..][i - 1];
        assert c.outcomes[i] == rest.outcomes[i - 1];
      }
    }
  }

  /** The first text is classified with the memo handed in; a later one
      with the memo the rest of the loop has reached. */
  lemma {:induction false} CacheBeforeStep(cat: Catalog, files: Assoc<bytes, bytes>, rows: seq<bytes>, cache: Cache, texts: Assoc<bytes, bytes>, i: nat)
    requires i < |texts|
    requires ClassifyText(cat, files, rows, cache, texts[0].0, texts[0].1).result.Success?
    ensures i == 0 ==> CacheBefore(cat, files, rows, cache, texts, i) == cache
    ensures i > 0 ==>
      CacheBefore(cat, files, rows, cache, texts, i)
      == CacheBefore(cat, files, rows, ClassifyText(cat, files, rows, cache, texts[0].0, texts[0].1).cache, texts[1..], i - 1)
  {
    if i == 0 {
      assert texts[..0] == [];
    } else {
      assert texts[..i][0] == texts[0];
      assert texts[..i][1..] == texts[1..][..i - 1];
    }
  }

  /** With distinct ids, an id is quarantined exactly when its own outcome
      is `Quarantined`, and found exactly when its outcome is `Found`. */
  lemma {:induction false} EntriesAt(texts: Assoc<bytes, bytes>, outcomes: seq<Outcome>, i: nat)
    requires DistinctKeys(texts) && |outcomes| == |texts| && i < |texts|
    requires forall k | 0 <= k < |outcomes| && outcomes[k].Found? :: FoundFor(outcomes[k].dto, texts[k].0, texts[k].1)
    ensures texts[i].0 in QuarantinedIds(texts, outcomes) <==> outcomes[i].Quarantined?
    ensures Get(FoundEntries(texts, outcomes), texts[i].0).Some? <==> outcomes[i].Found?
    decreases i
  {
    var id := texts[0].0;
    var found := FoundEntries(texts[1..], outcomes[1..]);
    var qs := QuarantinedIds(texts[1..], outcomes[1..]);
    QuarantinedAreIds(texts[1..], outcomes[1..]);
    FoundEntriesSpec(texts[1..], outcomes[1..]);
    if id in qs {
      GetTail(texts, id);
    }
    forall j | 0 <= j < |found| ensures found[j].0 != id {
      GetTail(texts, found[j].0);
    }
    if i == 0 {
      if outcomes[0].Found? {
        assert FoundEntries(texts, outcomes)[0].0 == id;
      }
    } else {
      EntriesAt(texts[1..], outcomes[1..], i - 1);
      assert texts[1..][i - 1] == texts[i];
      assert texts[i].0 != id;
      var all := FoundEntries(texts, outcomes);
      assert Get(all, texts[i].0) == Get(found, texts[i].0) by {
        if outcomes[0].Found? {
          assert all == [(id, [outcomes[0].dto])] + found;
          assert all[1..] == found;
        } else {
          assert all == found;
        }
      }
    }
  }

  /** What a successful parse does with the `i`-th text: it is quarantined
      exactly when it is undetectable, and found exactly when it is
      detectable with the memo the texts before it left. Every other text,
      one whose file is missing or empty or whose language has no English
      code, is neither. */
  lemma {:induction false} ParseDetectionResultsComplete(cat: Catalog, files: Assoc<bytes, bytes>, rows: seq<bytes>, cache: Cache, texts: Assoc<bytes, bytes>, i: nat)
    requires DistinctKeys(texts) && i < |texts|
    requires ParseDetectionResults(cat, files, rows, cache, texts).result.Success?
    ensures var p := ParseDetectionResults(cat, files, rows, cache, texts);
      (texts[i].0 in p.quarantined <==> Undetectable(files, rows, texts[i].0))
      && (Get(p.result.value, texts[i].0).Some?
          <==> Detectable(cat, files, rows, CacheBefore(cat, files, rows, cache, texts, i), texts[i].0))
  {
    var c := ClassifyAll(cat, files, rows, cache, texts);
    ClassifyAllSteps(cat, files, rows, cache, texts, i);
    EntriesAt(texts, c.outcomes, i);
    ClassifyTextCases(cat, files, rows, CacheBefore(cat, files, rows, cache, texts, i), texts[i].0, texts[i].1);
  }

  /** The files in `paths` that still exist, i.e. were not quarantined:
      what `removeInputFiles` unlinks. */
  function RemoveInputFiles(paths: seq<bytes>, quarantined: seq<bytes>): (removed: seq<bytes>)
    ensures forall x :: x in removed <==> x in paths && x !in quarantined
  {
    if |paths| == 0 then []
    else (if paths[0] in quarantined then [] else [paths[0]]) + RemoveInputFiles(paths[1..], quarantined)
  }

  /** What one bulk run leaves behind: the memo, the input files written
      (path, contents), the files moved to the failed-detections folder, the
      files unlinked, and the DTOs per unique id or the exception. */
  datatype BulkRun = BulkRun(
    cache: Cache,
    files: Assoc<bytes, bytes>,
    quarantined: seq<bytes>,
    removed: seq<bytes>,
    result: Result<Assoc<bytes, seq<LanguageInformation>>, DetectionError>)

  /** `detect`: write the files, run the command, parse the output and
      remove the files. An exception skips the removal, so every file that
      was not quarantined stays in the input folder; on success every file is
      either quarantined or removed. */
  function Detect(env: Environment, cache: Cache, texts: Assoc<bytes, bytes>): (run: BulkRun)
    requires DistinctKeys(texts)
    ensures run.files == InputFiles(env.stripTags, texts)
    ensures run.result.Failure? ==> run.removed == []
    ensures CheckHealth(env.health).Some? ==> run.result == Failure(Unhealthy(CheckHealth(env.health).value)) && run.quarantined == []
    ensures forall x | x in run.quarantined :: x in InputPaths(texts)
    ensures run.result.Success? ==>
      forall x | x in InputPaths(texts) :: (x in run.quarantined) != (x in run.removed)
  {
    var files := InputFiles(env.stripTags, texts);
    var paths := InputPaths(texts);
    match BulkLanguageDetectionCommand(env.health, paths)
    case Failure(e) => BulkRun(cache, files, [], [], Failure(Unhealthy(e)))
    case Success(command) =>
      var rows := OutputRows(env.run(command));
      var p := ParseDetectionResults(env.catalog, files, rows, cache, texts);
      var moved := QuarantinedPaths(texts, p.quarantined);
      match p.result
      case Failure(e) => BulkRun(p.cache, files, moved, [], Failure(CatalogueFailure(e)))
      case Success(found) => BulkRun(p.cache, files, moved, RemoveInputFiles(paths, moved), Success(found))
  }

  /** The input file of each text, in order. */
  function InputPaths(texts: Assoc<bytes, bytes>): (paths: seq<bytes>)
    ensures |paths| == |texts| && forall i | 0 <= i < |texts| :: paths[i] == InputFilePath(texts[i].0)
  {
    seq(|texts|, i requires 0 <= i < |texts| => InputFilePath(texts[i].0))
  }

  /** The files of the quarantined ids: all of them input files. */
  function QuarantinedPaths(texts: Assoc<bytes, bytes>, ids: seq<bytes>): (moved: seq<bytes>)
    requires forall q | q in ids :: Get(texts, q).Some?
    ensures |moved| == |ids| && forall i | 0 <= i < |ids| :: moved[i] == InputFilePath(ids[i])
    ensures forall x | x in moved :: x in InputPaths(texts)
  {
    var moved := seq(|ids|, i requires 0 <= i < |ids| => InputFilePath(ids[i]));
    forall x | x in moved ensures x in InputPaths(texts) {
      var k :| 0 <= k < |moved| && moved[k] == x;
      assert Get(texts, ids[k]).Some?;
      var i :| 0 <= i < |texts| && texts[i].0 == ids[k];
      assert InputPaths(texts)[i] == x;
    }
    moved
  }

  /** Every found id is one of the texts' keys, with the one DTO built from
      its text, and its input file was removed. */
  predicate FoundAll(texts: Assoc<bytes, bytes>, found: Assoc<bytes, seq<LanguageInformation>>, removed: seq<bytes>) {
    DistinctKeys(found)
    && forall j | 0 <= j < |found| ::
         |found[j].1| == 1 && Get(texts, found[j].0).Some?
         && FoundFor(found[j].1[0], found[j].0, Get(texts, found[j].0).value)
         && InputFilePath(found[j].0) in removed
  }

  /** What a successful run hands back: per input id one DTO carrying that
      id's text, whose file was removed rather than quarantined. */
  lemma {:induction false} DetectFound(env: Environment, cache: Cache, texts: Assoc<bytes, bytes>)
    requires DistinctKeys(texts)
    ensures Detect(env, cache, texts).result.Success? ==>
      FoundAll(texts, Detect(env, cache, texts).result.value, Detect(env, cache, texts).removed)
  {
    DetectRemovesFound(env, cache, texts);
  }

  /** Every found id's input file is among the files removed. */
  lemma {:induction false} DetectRemovesFound(env: Environment, cache: Cache, texts: Assoc<bytes, bytes>)
    requires DistinctKeys(texts)
    ensures var run := Detect(env, cache, texts);
      run.result.Success? ==>
        forall j | 0 <= j < |run.result.value| :: InputFilePath(run.result.value[j].0) in run.removed
  {
    var run := Detect(env, cache, texts);
    if run.result.Success? {
      var paths := InputPaths(texts);
      var command := BulkLanguageDetectionCommand(env.health, paths).value;
      var rows := OutputRows(env.run(command));
      var p := ParseDetectionResults(env.catalog, run.files, rows, cache, texts);
      var found := run.result.value;
      forall j | 0 <= j < |found| ensures InputFilePath(found[j].0) in run.removed {
        var id := found[j].0;
        var i :| 0 <= i < |texts| && texts[i].0 == id;
        assert paths[i] == InputFilePath(id);
        PathNotMoved(texts, p.quarantined, id);
      }
    }
  }

  /** The rows polyglot printed for the texts' files; `None` when the
      health checks stop the run before the command. */
  function DetectionRows(env: Environment, texts: Assoc<bytes, bytes>): (rows: Option<seq<bytes>>)
    ensures rows.None? <==> CheckHealth(env.health).Some?
  {
    match BulkLanguageDetectionCommand(env.health, InputPaths(texts))
    case Failure(_) => None
    case Success(command) => Some(OutputRows(env.run(command)))
  }

  /** The file of an id is moved exactly when the id is quarantined. */
  lemma {:induction false} PathMovedIff(texts: Assoc<bytes, bytes>, ids: seq<bytes>, id: bytes)
    requires forall q | q in ids :: Get(texts, q).Some?
    ensures InputFilePath(id) in QuarantinedPaths(texts, ids) <==> id in ids
  {
    if id in ids {
      var k :| 0 <= k < |ids| && ids[k] == id;
      assert QuarantinedPaths(texts, ids)[k] == InputFilePath(id);
    } else {
      PathNotMoved(texts, ids, id);
    }
  }

  /** What a successful run does with the `i`-th text, in terms of the rows
      polyglot printed: its file is moved to the failed-detections folder
      exactly when the text is undetectable, and unlinked otherwise; the id
      is found exactly when the text is detectable with the memo the texts
      before it left. So the ids handed back are the input ids minus those
      whose file was empty, whose row was missing or unparsable, or whose
      language has no English code. */
  lemma {:induction false} DetectComplete(env: Environment, cache: Cache, texts: Assoc<bytes, bytes>, i: nat)
    requires DistinctKeys(texts) && i < |texts|
    requires Detect(env, cache, texts).result.Success?
    ensures DetectionRows(env, texts).Some?
    ensures var run := Detect(env, cache, texts); var rows := DetectionRows(env, texts).value;
      var id := texts[i].0;
      (InputFilePath(id) in run.quarantined <==> Undetectable(run.files, rows, id))
      && (InputFilePath(id) in run.removed <==> !Undetectable(run.files, rows, id))
      && (Get(run.result.value, id).Some?
          <==> Detectable(env.catalog, run.files, rows, CacheBefore(env.catalog, run.files, rows, cache, texts, i), id))
      && (Coherent(env.catalog, cache) ==>
            (Get(run.result.value, id).Some? <==> Detectable(env.catalog, run.files, rows, map[], id)))
  {
    var run := Detect(env, cache, texts);
    var rows := DetectionRows(env, texts).value;
    var p := ParseDetectionResults(env.catalog, run.files, rows, cache, texts);
    assert run.quarantined == QuarantinedPaths(texts, p.quarantined);
    ParseDetectionResultsComplete(env.catalog, run.files, rows, cache, texts, i);
    PathMovedIff(texts, p.quarantined, texts[i].0);
    assert InputPaths(texts)[i] == InputFilePath(texts[i].0);
    if Coherent(env.catalog, cache) {
      ClassifyAllKeepsCoherent(env.catalog, run.files, rows, cache, texts[..i]);
      DetectableFresh(env.catalog, run.files, rows, CacheBefore(env.catalog, run.files, rows, cache, texts, i), texts[i].0);
    }
  }

  /** The file of an id that was not quarantined was not moved. */
  lemma {:induction false} PathNotMoved(texts: Assoc<bytes, bytes>, ids: seq<bytes>, id: bytes)
    requires forall q | q in ids :: Get(texts, q).Some?
    requires id !in ids
    ensures InputFilePath(id) !in QuarantinedPaths(texts, ids)
  {
    var moved := QuarantinedPaths(texts, ids);
    forall k | 0 <= k < |moved| ensures moved[k] != InputFilePath(id) {
      InputFilePathRoundTrip(ids[k]);
      InputFilePathRoundTrip(id);
    }
  }

  /** Each found id carries one DTO, its text is known, and the DTO has its
      two-letter code: what the controller relies on. */
  predicate WellFound(texts: Assoc<bytes, bytes>, found: Assoc<bytes, seq<LanguageInformation>>) {
    forall j | 0 <= j < |found| ::
      |found[j].1| == 1 && Get(texts, found[j].0).Some? && found[j].1[0].twoDigitLanguageCode.Set?
  }

  /** A successful run is well found on its input. */
  lemma {:induction false} DetectWellFound(env: Environment, cache: Cache, texts: Assoc<bytes, bytes>)
    requires DistinctKeys(texts)
    ensures Detect(env, cache, texts).result.Success? ==> WellFound(texts, Detect(env, cache, texts).result.value)
  {
    DetectFound(env, cache, texts);
  }
}

=== FILE: bytes.dfy ===
/** PHP strings as byte sequences, and the byte-level string functions of the
    PHP runtime the repository relies on (`str_contains`, `strpos`, `trim`,
    `strtolower`, `explode`, `implode`, `str_replace`, `str_repeat`). */
module Bytes {
  import opened Wrappers

  /** One byte of a PHP string. Each character of a Dafny string literal in
      this model stands for one byte; UTF-8 text is written byte by byte. */
  type byte = c: char | c as int < 256
  type bytes = seq<byte>

  /** `\w` of a PCRE pattern without the `u` flag: ASCII `[A-Za-z0-9_]`. */
  predicate IsWordByte(b: byte) {
    ('a' <= b <= 'z') || ('A' <= b <= 'Z') || ('0' <= b <= '9') || b == '_'
  }

  predicate IsAsciiByte(b: byte) {
    b as int < 128
  }

  predicate AllAscii(s: bytes) {
    forall i | 0 <= i < |s| :: IsAsciiByte(s[i])
  }

  /** Every byte is a non-ASCII byte, as in any UTF-8 encoding of a non-ASCII
      character. */
  predicate NoAscii(s: bytes) {
    forall i | 0 <= i < |s| :: !IsAsciiByte(s[i])
  }

  /** The bytes PHP's `trim` strips by default: " \t\n\r\0\x0B". */
  predicate IsTrimmable(b: byte) {
    b == ' ' || b == '\t' || b == '\n' || b == '\r' || b == '\0' || b as int == 0x0B
  }

  /** `\s` of PCRE: space, \t, \n, \x0B, \f, \r. */
  predicate IsPcreSpace(b: byte) {
    b == ' ' || b == '\t' || b == '\n' || b as int == 0x0B || b as int == 0x0C || b == '\r'
  }

  /** PHP's `empty()` on a string: true for "" and for "0". */
  predicate PhpEmpty(s: bytes) {
    |s| == 0 || s == "0"
  }

  /** `needle` occurs in `s` starting at byte offset `i`. */
  predicate OccursAt(s: bytes, needle: bytes, i: int) {
    0 <= i && i + |needle| <= |s| && s[i..i + |needle|] == needle
  }

  /** PHP's `str_contains` (an empty needle is contained in every string). */
  predicate Contains(s: bytes, needle: bytes) {
    exists i | 0 <= i <= |s| - |needle| :: OccursAt(s, needle, i)
  }

  /** PHP's `strpos` from offset `from`: the first occurrence at or after it. */
  function IndexOfFrom(s: bytes, needle: bytes, from: nat): (r: Option<nat>)
    ensures r.Some? ==> from <= r.value && OccursAt(s, needle, r.value)
    ensures forall k | from <= k && (r.None? || k < r.value) :: !OccursAt(s, needle, k)
    decreases |s| - from
  {
    if from + |needle| > |s| then None
    else if s[from..from + |needle|] == needle then Some(from)
    else IndexOfFrom(s, needle, from + 1)
  }

  function IndexOf(s: bytes, needle: bytes): (r: Option<nat>)
    ensures r.Some? ==> OccursAt(s, needle, r.value)
    ensures r.Some? <==> Contains(s, needle)
    ensures forall k | 0 <= k && (r.None? || k < r.value) :: !OccursAt(s, needle, k)
  {
    IndexOfFrom(s, needle, 0)
  }

  /** An occurrence inside a prefix is an occurrence in the whole string. */
  lemma {:induction false} OccursAtExtend(a: bytes, b: bytes, needle: bytes, i: int)
    requires OccursAt(a, needle, i)
    ensures OccursAt(a + b, needle, i)
  {
    assert (a + b)[i..i + |needle|] == a[i..i + |needle|];
  }

  /** The first occurrence in `a` stays the first occurrence once `b` is
      appended. */
  lemma {:induction false} IndexOfAppend(a: bytes, b: bytes, needle: bytes)
    requires IndexOf(a, needle).Some?
    ensures IndexOf(a + b, needle) == IndexOf(a, needle)
  {
    var i := IndexOf(a, needle).value;
    OccursAtExtend(a, b, needle, i);
    forall k | 0 <= k < i
      ensures !OccursAt(a + b, needle, k)
    {
      assert !OccursAt(a, needle, k);
      assert (a + b)[k..k + |needle|] == a[k..k + |needle|];
    }
  }

  // ---------------------------------------------------------------- trim

  /** Number of leading bytes `trim` removes. */
  function TrimLeftCount(s: bytes): (n: nat)
    ensures n <= |s|
    ensures forall k | 0 <= k < n :: IsTrimmable(s[k])
    ensures n < |s| ==> !IsTrimmable(s[n])
  {
    if |s| == 0 || !IsTrimmable(s[0]) then 0 else 1 + TrimLeftCount(s[1..])
  }

  /** Number of trailing bytes `trim` removes. */
  function TrimRightCount(s: bytes): (n: nat)
    ensures n <= |s|
    ensures forall k | |s| - n <= k < |s| :: IsTrimmable(s[k])
    ensures n < |s| ==> !IsTrimmable(s[|s| - n - 1])
  {
    if |s| == 0 || !IsTrimmable(s[|s| - 1]) then 0 else 1 + TrimRightCount(s[..|s| - 1])
  }

  /** PHP's `trim` with its default byte set. */
  function Trim(s: bytes): (r: bytes)
    ensures |r| <= |s|
    ensures |r| > 0 ==> !IsTrimmable(r[0]) && !IsTrimmable(r[|r| - 1])
    ensures TrimLeftCount(s) + |r| <= |s| && r == s[TrimLeftCount(s)..TrimLeftCount(s) + |r|]
    ensures forall k | 0 <= k < TrimLeftCount(s) :: IsTrimmable(s[k])
    ensures forall k | TrimLeftCount(s) + |r| <= k < |s| :: IsTrimmable(s[k])
  {
    var t := s[TrimLeftCount(s)..];
    var r := t[..|t| - TrimRightCount(t)];
    assert forall k | TrimLeftCount(s) + |r| <= k < |s| :: s[k] == t[k - TrimLeftCount(s)];
    r
  }

  /** A string with nothing to strip at either end is its own trim. */
  lemma {:induction false} TrimOfUntrimmed(s: bytes)
    requires |s| > 0 ==> !IsTrimmable(s[0]) && !IsTrimmable(s[|s| - 1])
    ensures Trim(s) == s
  {
    if |s| > 0 {
      assert TrimLeftCount(s) == 0;
      assert TrimRightCount(s) == 0;
    }
  }

  // ---------------------------------------------------------------- case

  /** `strtolower` on one byte: ASCII letters only. */
  function LowerByte(b: byte): (r: byte)
    ensures 'A' <= b <= 'Z' ==> r as int == b as int + 32
    ensures !('A' <= b <= 'Z') ==> r == b
  {
    if 'A' <= b <= 'Z' then (b as int + 32) as char else b
  }

  /** PHP 8's `strtolower`: maps ASCII upper-case letters, leaves every other
      byte alone. */
  function ToLower(s: bytes): (r: bytes)
    ensures |r| == |s|
    ensures forall i | 0 <= i < |s| :: r[i] == LowerByte(s[i])
  {
    if |s| == 0 then [] else [LowerByte(s[0])] + ToLower(s[1..])
  }

  lemma {:induction false} ToLowerIdempotent(s: bytes)
    ensures ToLower(ToLower(s)) == ToLower(s)
  {
    var l := ToLower(s);
    assert forall i | 0 <= i < |s| :: LowerByte(l[i]) == l[i];
  }

  // ---------------------------------------------------------------- repeat

  /** `str_repeat(" ", n)`. */
  function Spaces(n: nat): (r: bytes)
    ensures |r| == n
    ensures forall i | 0 <= i < n :: r[i] == ' '
  {
    seq(n, _ => ' ')
  }

  // ---------------------------------------------------------------- explode / implode

  /** PHP's `explode($sep, $s)` without a limit: the pieces between the
      non-overlapping occurrences of `sep`, scanning left to right. */
  function Explode(sep: bytes, s: bytes): (pieces: seq<bytes>)
    requires |sep| > 0
    ensures |pieces| >= 1
    ensures !Contains(pieces[|pieces| - 1], sep)
    decreases |s|
  {
    match IndexOf(s, sep)
    case None => [s]
    case Some(i) => [s[..i]] + Explode(sep, s[i + |sep|..])
  }

  /** PHP's `implode($sep, $pieces)`. */
  function Join(sep: bytes, pieces: seq<bytes>): bytes {
    if |pieces| == 0 then []
    else if |pieces| == 1 then pieces[0]
    else pieces[0] + sep + Join(sep, pieces[1..])
  }

  /** Imploding the pieces of an explode restores the original string. */
  lemma {:induction false} JoinExplode(sep: bytes, s: bytes)
    requires |sep| > 0
    ensures Join(sep, Explode(sep, s)) == s
    decreases |s|
  {
    match IndexOf(s, sep)
    case None =>
    case Some(i) =>
      JoinExplode(sep, s[i + |sep|..]);
      JoinAroundSeparator(sep, s, i, Explode(sep, s[i + |sep|..]));
  }

  /** Joining the text before a separator occurrence with pieces that join to
      the text after it gives back the whole text. */
  lemma {:induction false} JoinAroundSeparator(sep: bytes, s: bytes, i: nat, tail: seq<bytes>)
    requires i + |sep| <= |s| && s[i..i + |sep|] == sep
    requires |tail| >= 1 && Join(sep, tail) == s[i + |sep|..]
    ensures Join(sep, [s[..i]] + tail) == s
  {
    var pieces := [s[..i]] + tail;
    assert pieces[1..] == tail;
    assert Join(sep, pieces) == s[..i] + sep + Join(sep, tail);
    SplitAt3(s, i, i + |sep|);
  }

  lemma {:induction false} SplitAt3(s: bytes, i: nat, j: nat)
    requires i <= j <= |s|
    ensures s == s[..i] + s[i..j] + s[j..]
  {
  }

  /** `sep` first occurs in `p + sep` right after `p`: `p` neither contains
      `sep` nor ends in a way that lets `sep` start inside it. */
  predicate SeparatesCleanly(sep: bytes, p: bytes) {
    IndexOf(p + sep, sep) == Some(|p|)
  }

  /** Exploding an implode gives back the pieces, provided each piece is
      cleanly separated by `sep`. */
  lemma {:induction false} ExplodeJoin(sep: bytes, pieces: seq<bytes>)
    requires |sep| > 0 && |pieces| >= 1
    requires forall i | 0 <= i < |pieces| :: SeparatesCleanly(sep, pieces[i])
    ensures Explode(sep, Join(sep, pieces)) == pieces
    decreases |pieces|
  {
    if |pieces| == 1 {
      ExplodeClean(sep, pieces[0]);
    } else {
      var rest := Join(sep, pieces[1..]);
      assert Join(sep, pieces) == (pieces[0] + sep) + rest;
      ExplodeJoin(sep, pieces[1..]);
      ExplodeCleanPrefix(sep, pieces[0], rest);
      assert pieces == [pieces[0]] + pieces[1..];
    }
  }

  /** A cleanly separated piece alone explodes to itself. */
  lemma {:induction false} ExplodeClean(sep: bytes, p: bytes)
    requires |sep| > 0 && SeparatesCleanly(sep, p)
    ensures Explode(sep, p) == [p]
  {
    forall k | 0 <= k <= |p| - |sep| ensures !OccursAt(p, sep, k) {
      assert !OccursAt(p + sep, sep, k);
      assert (p + sep)[k..k + |sep|] == p[k..k + |sep|];
    }
  }

  /** A cleanly separated piece followed by `sep` is split off first. */
  lemma {:induction false} ExplodeCleanPrefix(sep: bytes, p: bytes, rest: bytes)
    requires |sep| > 0 && SeparatesCleanly(sep, p)
    ensures Explode(sep, (p + sep) + rest) == [p] + Explode(sep, rest)
  {
    IndexOfAppend(p + sep, rest, sep);
    assert ((p + sep) + rest)[|p| + |sep|..] == rest;
    assert ((p + sep) + rest)[..|p|] == p;
  }

  // ---------------------------------------------------------------- str_replace

  /** PHP's `str_replace($from, $to, $s)` for one non-empty search string:
      every non-overlapping occurrence, scanning left to right, is replaced. */
  function Replace(from: bytes, to: bytes, s: bytes): bytes
    requires |from| > 0
    decreases |s|
  {
    if |s| < |from| then s
    else if s[..|from|] == from then to + Replace(from, to, s[|from|..])
    else [s[0]] + Replace(from, to, s[1..])
  }

  /** Replacing a string that does not occur changes nothing. */
  lemma {:induction false} ReplaceAbsent(from: bytes, to: bytes, s: bytes)
    requires |from| > 0
    requires !Contains(s, from)
    ensures Replace(from, to, s) == s
    decreases |s|
  {
    if |s| >= |from| {
      assert !OccursAt(s, from, 0);
      if !Contains(s[1..], from) {
        ReplaceAbsent(from, to, s[1..]);
      } else {
        var k :| 0 <= k <= |s[1..]| - |from| && OccursAt(s[1..], from, k);
        assert s[k + 1..k + 1 + |from|] == s[1..][k..k + |from|];
        assert OccursAt(s, from, k + 1);
      }
    }
  }

  /** A non-ASCII prefix of a replacement's output is already a prefix of its
      input when the replacement text is non-empty ASCII. */
  lemma {:induction false} ReplacePrefixNoAscii(from: bytes, to: bytes, s: bytes, p: bytes)
    requires |from| > 0 && |to| > 0 && AllAscii(to)
    requires NoAscii(p)
    requires |p| <= |Replace(from, to, s)| && Replace(from, to, s)[..|p|] == p
    ensures |p| <= |s| && s[..|p|] == p
    decreases |s|
  {
    if |p| > 0 && |s| >= |from| {
      assert p[0] == Replace(from, to, s)[0];
      if s[..|from|] == from {
        assert false;
      } else {
        var r1 := Replace(from, to, s[1..]);
        assert Replace(from, to, s) == [s[0]] + r1;
        assert r1[..|p| - 1] == p[1..];
        ReplacePrefixNoAscii(from, to, s[1..], p[1..]);
        assert s == [s[0]] + s[1..];
      }
    }
  }

  /** An occurrence past the end of `a` is an occurrence in `b`. */
  lemma {:induction false} OccursAtShift(a: bytes, b: bytes, y: bytes, i: int)
    requires OccursAt(a + b, y, i) && i >= |a|
    ensures OccursAt(b, y, i - |a|)
  {
    assert b[i - |a|..i - |a| + |y|] == (a + b)[i..i + |y|];
  }

  /** An occurrence at the start of `[c] + b` puts the rest of `y` at the
      start of `b`. */
  lemma {:induction false} OccursAtHead(c: byte, b: bytes, y: bytes)
    requires |y| > 0 && OccursAt([c] + b, y, 0)
    ensures y[0] == c && |y| - 1 <= |b| && b[..|y| - 1] == y[1..]
  {
    assert ([c] + b)[..|y|] == y;
  }

  /** Replacing with non-empty ASCII text cannot create an occurrence of a
      non-ASCII byte string. */
  lemma {:induction false} ReplaceKeepsNoAsciiAbsent(from: bytes, to: bytes, s: bytes, y: bytes)
    requires |from| > 0 && |to| > 0 && AllAscii(to)
    requires |y| > 0 && NoAscii(y)
    requires !Contains(s, y)
    ensures !Contains(Replace(from, to, s), y)
    decreases |s|
  {
    var r := Replace(from, to, s);
    if Contains(r, y) {
      var i :| 0 <= i <= |r| - |y| && OccursAt(r, y, i);
      if |s| < |from| {
      } else if s[..|from|] == from {
        var rest := s[|from|..];
        assert r == to + Replace(from, to, rest);
        assert y[0] == r[i];
        if i < |to| {
          assert false;
        } else {
          OccursAtShift(to, Replace(from, to, rest), y, i);
          NoContainsSuffix(s, |from|, y);
          ReplaceKeepsNoAsciiAbsent(from, to, rest, y);
        }
      } else {
        var r1 := Replace(from, to, s[1..]);
        assert r == [s[0]] + r1;
        if i == 0 {
          OccursAtHead(s[0], r1, y);
          ReplacePrefixNoAscii(from, to, s[1..], y[1..]);
          assert s[..|y|] == [s[0]] + s[1..][..|y| - 1];
          assert OccursAt(s, y, 0);
        } else {
          OccursAtShift([s[0]], r1, y, i);
          NoContainsSuffix(s, 1, y);
          ReplaceKeepsNoAsciiAbsent(from, to, s[1..], y);
        }
      }
    }
  }

  /** Replacing a non-ASCII string by non-empty ASCII text leaves no
      occurrence of it. */
  lemma {:induction false} ReplaceRemovesNoAscii(from: bytes, to: bytes, s: bytes)
    requires |from| > 0 && NoAscii(from)
    requires |to| > 0 && AllAscii(to)
    ensures !Contains(Replace(from, to, s), from)
    decreases |s|
  {
    var r := Replace(from, to, s);
    if Contains(r, from) {
      var i :| 0 <= i <= |r| - |from| && OccursAt(r, from, i);
      if |s| < |from| {
      } else if s[..|from|] == from {
        var rest := s[|from|..];
        assert r == to + Replace(from, to, rest);
        assert from[0] == r[i];
        if i < |to| {
          assert false;
        } else {
          OccursAtShift(to, Replace(from, to, rest), from, i);
          ReplaceRemovesNoAscii(from, to, rest);
        }
      } else {
        var r1 := Replace(from, to, s[1..]);
        assert r == [s[0]] + r1;
        if i == 0 {
          OccursAtHead(s[0], r1, from);
          ReplacePrefixNoAscii(from, to, s[1..], from[1..]);
          assert false;
        } else {
          OccursAtShift([s[0]], r1, from, i);
          ReplaceRemovesNoAscii(from, to, s[1..]);
        }
      }
    }
  }

  /** A string absent from `s` is absent from every suffix of `s`. */
  lemma {:induction false} NoContainsSuffix(s: bytes, k: nat, y: bytes)
    requires k <= |s|
    requires !Contains(s, y)
    ensures !Contains(s[k..], y)
  {
    if Contains(s[k..], y) {
      var i :| 0 <= i <= |s[k..]| - |y| && OccursAt(s[k..], y, i);
      assert s[k + i..k + i + |y|] == s[k..][i..i + |y|];
      assert OccursAt(s, y, k + i);
    }
  }

  /** Replacing one byte by one byte is a pointwise substitution. */
  lemma {:induction false} ReplaceByte(from: byte, to: byte, s: bytes)
    ensures |Replace([from], [to], s)| == |s|
    ensures forall i | 0 <= i < |s| :: Replace([from], [to], s)[i] == (if s[i] == from then to else s[i])
    decreases |s|
  {
    if |s| > 0 {
      ReplaceByte(from, to, s[1..]);
    }
  }
}

=== FILE: dto.dfy ===
/** The data transfer objects: `LanguageInformationDto` and
    `WordsFilterResultDto`. A typed property without a default starts out
    uninitialised; reading it then raises an error, which `Unset` models. */
module Dto {
  import opened Wrappers
  import opened Bytes
  import opened PhpArrays

  /** A typed property: uninitialised, or holding a value. */
  datatype Slot<T> = Unset | Set(value: T)

  /** Reading an uninitialised typed property. */
  datatype DtoError = UninitializedProperty

  function Read<T>(s: Slot<T>): (r: Result<T, DtoError>)
    ensures r.Success? <==> s.Set?
    ensures s.Set? ==> r.value == s.value
  {
    match s
    case Unset => Failure(UninitializedProperty)
    case Set(v) => Success(v)
  }

  /** `LanguageInformationDto`: only `mentionedLanguages` has a default (the
      empty array); the nullable properties also start uninitialised. */
  datatype LanguageInformation = LanguageInformation(
    languageName: Slot<Option<bytes>>,
    twoDigitLanguageCode: Slot<bytes>,
    threeDigitLanguageCode: Slot<Option<bytes>>,
    mentionedLanguages: seq<bytes>,
    text: Slot<bytes>,
    uniqueId: Slot<bytes>)

  /** `new LanguageInformationDto()`. */
  const NewLanguageInformation: LanguageInformation :=
    LanguageInformation(Unset, Unset, Unset, [], Unset, Unset)

  function GetLanguageName(d: LanguageInformation): (r: Result<Option<bytes>, DtoError>)
    ensures r.Success? <==> d.languageName.Set?
  {
    Read(d.languageName)
  }

  /** Each setter makes its getter return the value and leaves every other
      property as it was. */
  function SetLanguageName(d: LanguageInformation, v: Option<bytes>): (r: LanguageInformation)
    ensures GetLanguageName(r) == Success(v)
    ensures r.(languageName := d.languageName) == d
  {
    d.(languageName := Set(v))
  }

  function GetTwoDigitLanguageCode(d: LanguageInformation): (r: Result<bytes, DtoError>)
    ensures r.Success? <==> d.twoDigitLanguageCode.Set?
  {
    Read(d.twoDigitLanguageCode)
  }

  function SetTwoDigitLanguageCode(d: LanguageInformation, v: bytes): (r: LanguageInformation)
    ensures GetTwoDigitLanguageCode(r) == Success(v)
    ensures r.(twoDigitLanguageCode := d.twoDigitLanguageCode) == d
  {
    d.(twoDigitLanguageCode := Set(v))
  }

  function GetThreeDigitLanguageCode(d: LanguageInformation): (r: Result<Option<bytes>, DtoError>)
    ensures r.Success? <==> d.threeDigitLanguageCode.Set?
  {
    Read(d.threeDigitLanguageCode)
  }

  function SetThreeDigitLanguageCode(d: LanguageInformation, v: Option<bytes>): (r: LanguageInformation)
    ensures GetThreeDigitLanguageCode(r) == Success(v)
    ensures r.(threeDigitLanguageCode := d.threeDigitLanguageCode) == d
  {
    d.(threeDigitLanguageCode := Set(v))
  }

  /** Never fails: the property has a default. */
  function GetMentionedLanguages(d: LanguageInformation): (r: seq<bytes>)
    ensures d == NewLanguageInformation ==> r == []
  {
    d.mentionedLanguages
  }

  function SetMentionedLanguages(d: LanguageInformation, v: seq<bytes>): (r: LanguageInformation)
    ensures GetMentionedLanguages(r) == v
    ensures r.(mentionedLanguages := d.mentionedLanguages) == d
  {
    d.(mentionedLanguages := v)
  }

  function GetText(d: LanguageInformation): (r: Result<bytes, DtoError>)
    ensures r.Success? <==> d.text.Set?
  {
    Read(d.text)
  }

  function SetText(d: LanguageInformation, v: bytes): (r: LanguageInformation)
    ensures GetText(r) == Success(v)
    ensures r.(text := d.text) == d
  {
    d.(text := Set(v))
  }

  function GetUniqueId(d: LanguageInformation): (r: Result<bytes, DtoError>)
    ensures r.Success? <==> d.uniqueId.Set?
  {
    Read(d.uniqueId)
  }

  function SetUniqueId(d: LanguageInformation, v: bytes): (r: LanguageInformation)
    ensures GetUniqueId(r) == Success(v)
    ensures r.(uniqueId := d.uniqueId) == d
  {
    d.(uniqueId := Set(v))
  }

  /** Setters of different properties commute, and a later write to the same
      property wins. */
  lemma {:induction false} SettersCommute(d: LanguageInformation, name: Option<bytes>, code: bytes, mentioned: seq<bytes>)
    ensures SetLanguageName(SetTwoDigitLanguageCode(d, code), name) == SetTwoDigitLanguageCode(SetLanguageName(d, name), code)
    ensures SetMentionedLanguages(SetLanguageName(d, name), mentioned) == SetLanguageName(SetMentionedLanguages(d, mentioned), name)
    ensures SetLanguageName(SetLanguageName(d, None), name) == SetLanguageName(d, name)
  {
  }

  /** `WordsFilterResultDto`: the words that passed the filter and the
      languages (code -> name) they hinted at. */
  datatype WordsFilterResult = WordsFilterResult(words: seq<bytes>, languages: Assoc<bytes, bytes>)

  function GetWords(d: WordsFilterResult): (r: seq<bytes>)
    ensures d == WordsFilterResult(r, d.languages)
  {
    d.words
  }

  function SetWords(d: WordsFilterResult, words: seq<bytes>): (r: WordsFilterResult)
    ensures GetWords(r) == words && GetLanguages(r) == GetLanguages(d)
  {
    d.(words := words)
  }

  function GetLanguages(d: WordsFilterResult): (r: Assoc<bytes, bytes>)
    ensures d == WordsFilterResult(d.words, r)
  {
    d.languages
  }

  function SetLanguages(d: WordsFilterResult, languages: Assoc<bytes, bytes>): (r: WordsFilterResult)
    ensures GetLanguages(r) == languages && GetWords(r) == GetWords(d)
  {
    d.(languages := languages)
  }
}

=== FILE: iso_codes.dfy ===
/** The ISO 639 code mapper: the three-letter (639-2/T) code for a two-letter
    (639-1) code, through a fixed table of 183 languages. */
module IsoLanguageCodes {
  import opened Wrappers
  import opened Bytes
  import opened PhpArrays

  /** Three-letter code -> two-letter code, in the source's order, written in
      parts of twelve entries. */
  const IsoThreeDigitToIsoTwoDigit: Assoc<bytes, bytes> :=
    IsoPart0 + IsoPart1 + IsoPart2 + IsoPart3 + IsoPart4 + IsoPart5 + IsoPart6 + IsoPart7 + IsoPart8 + IsoPart9 + IsoPart10 + IsoPart11 + IsoPart12 + IsoPart13 + IsoPart14 + IsoPart15

  const IsoPart0: Assoc<bytes, bytes> := [
    ("abk", "ab"), ("aar", "aa"), ("afr", "af"), ("aka", "ak"), ("sqi", "sq"), ("amh", "am"),
    ("ara", "ar"), ("arg", "an"), ("hye", "hy"), ("asm", "as"), ("ava", "av"), ("ave", "ae")
  ]

  const IsoPart1: Assoc<bytes, bytes> := [
    ("aym", "ay"), ("aze", "az"), ("bam", "bm"), ("bak", "ba"), ("eus", "eu"), ("bel", "be"),
    ("ben", "bn"), ("bis", "bi"), ("bos", "bs"), ("bre", "br"), ("bul", "bg"), ("mya", "my")
  ]

  const IsoPart2: Assoc<bytes, bytes> := [
    ("cat", "ca"), ("cha", "ch"), ("che", "ce"), ("nya", "ny"), ("zho", "zh"), ("chu", "cu"),
    ("chv", "cv"), ("cor", "kw"), ("cos", "co"), ("cre", "cr"), ("hrv", "hr"), ("ces", "cs")
  ]

  const IsoPart3: Assoc<bytes, bytes> := [
    ("dan", "da"), ("div", "dv"), ("nld", "nl"), ("dzo", "dz"), ("eng", "en"), ("epo", "eo"),
    ("est", "et"), ("ewe", "ee"), ("fao", "fo"), ("fij", "fj"), ("fin", "fi"), ("fra", "fr")
  ]

  const IsoPart4: Assoc<bytes, bytes> := [
    ("fry", "fy"), ("ful", "ff"), ("gla", "gd"), ("glg", "gl"), ("lug", "lg"), ("kat", "ka"),
    ("deu", "de"), ("ell", "el"), ("kal", "kl"), ("grn", "gn"), ("guj", "gu"), ("hat", "ht")
  ]

  const IsoPart5: Assoc<bytes, bytes> := [
    ("hau", "ha"), ("heb", "he"), ("her", "hz"), ("hin", "hi"), ("hmo", "ho"), ("hun", "hu"),
    ("isl", "is"), ("ido", "io"), ("ibo", "ig"), ("ind", "id"), ("ina", "ia"), ("ile", "ie")
  ]

  const IsoPart6: Assoc<bytes, bytes> := [
    ("iku", "iu"), ("ipk", "ik"), ("gle", "ga"), ("ita", "it"), ("jpn", "ja"), ("jav", "jv"),
    ("kan", "kn"), ("kau", "kr"), ("kas", "ks"), ("kaz", "kk"), ("khm", "km"), ("kik", "ki")
  ]

  const IsoPart7: Assoc<bytes, bytes> := [
    ("kin", "rw"), ("kir", "ky"), ("kom", "kv"), ("kon", "kg"), ("kor", "ko"), ("kua", "kj"),
    ("kur", "ku"), ("lao", "lo"), ("lat", "la"), ("lav", "lv"), ("lim", "li"), ("lin", "ln")
  ]

  const IsoPart8: Assoc<bytes, bytes> := [
    ("lit", "lt"), ("lub", "lu"), ("ltz", "lb"), ("mkd", "mk"), ("mlg", "mg"), ("msa", "ms"),
    ("mal", "ml"), ("mlt", "mt"), ("glv", "gv"), ("mri", "mi"), ("mar", "mr"), ("mah", "mh")
  ]

  const IsoPart9: Assoc<bytes, bytes> := [
    ("mon", "mn"), ("nau", "na"), ("nav", "nv"), ("nde", "nd"), ("nbl", "nr"), ("ndo", "ng"),
    ("nep", "ne"), ("nor", "no"), ("nob", "nb"), ("nno", "nn"), ("iii", "ii"), ("oci", "oc")
  ]

  const IsoPart10: Assoc<bytes, bytes> := [
    ("oji", "oj"), ("ori", "or"), ("orm", "om"), ("oss", "os"), ("pli", "pi"), ("pus", "ps"),
    ("fas", "fa"), ("pol", "pl"), ("por", "pt"), ("pan", "pa"), ("que", "qu"), ("ron", "ro")
  ]

  const IsoPart11: Assoc<bytes, bytes> := [
    ("roh", "rm"), ("run", "rn"), ("rus", "ru"), ("sme", "se"), ("smo", "sm"), ("sag", "sg"),
    ("san", "sa"), ("srd", "sc"), ("srp", "sr"), ("sna", "sn"), ("snd", "sd"), ("sin", "si")
  ]

  const IsoPart12: Assoc<bytes, bytes> := [
    ("slk", "sk"), ("slv", "sl"), ("som", "so"), ("sot", "st"), ("spa", "es"), ("sun", "su"),
    ("swa", "sw"), ("ssw", "ss"), ("swe", "sv"), ("tgl", "tl"), ("tah", "ty"), ("tgk", "tg")
  ]

  const IsoPart13: Assoc<bytes, bytes> := [
    ("tam", "ta"), ("tat", "tt"), ("tel", "te"), ("tha", "th"), ("bod", "bo"), ("tir", "ti"),
    ("ton", "to"), ("tso", "ts"), ("tsn", "tn"), ("tur", "tr"), ("tuk", "tk"), ("twi", "tw")
  ]

  const IsoPart14: Assoc<bytes, bytes> := [
    ("uig", "ug"), ("ukr", "uk"), ("urd", "ur"), ("uzb", "uz"), ("ven", "ve"), ("vie", "vi"),
    ("vol", "vo"), ("wln", "wa"), ("cym", "cy"), ("wol", "wo"), ("xho", "xh"), ("yid", "yi")
  ]

  const IsoPart15: Assoc<bytes, bytes> := [
    ("yor", "yo"), ("zha", "za"), ("zul", "zu")
  ]

  /** `array_combine(array_values($t), array_keys($t))`: each value maps to
      the key of the LAST entry carrying it. */
  function Combine<K, V(==)>(t: Assoc<K, V>): (m: map<V, K>) {
    if |t| == 0 then map[]
    else Combine(t[..|t| - 1])[t[|t| - 1].1 := t[|t| - 1].0]
  }

  /** The key of the last entry whose value is `v`. */
  function LastKeyOf(t: Assoc<bytes, bytes>, v: bytes): (r: Option<bytes>)
    ensures r.Some? ==> exists i | 0 <= i < |t| :: t[i].0 == r.value && t[i].1 == v
    ensures r.None? <==> forall i | 0 <= i < |t| :: t[i].1 != v
  {
    if |t| == 0 then None
    else if t[|t| - 1].1 == v then Some(t[|t| - 1].0)
    else
      var r := LastKeyOf(t[..|t| - 1], v);
      assert forall i | 0 <= i < |t| - 1 :: t[..|t| - 1][i] == t[i];
      r
  }

  /** Searching from the end finds what the combined table holds: the key
      of the last entry carrying the value. */
  lemma {:induction false} LastKeyOfIsCombine(t: Assoc<bytes, bytes>, v: bytes)
    ensures v in Combine(t) <==> LastKeyOf(t, v).Some?
    ensures v in Combine(t) ==> Combine(t)[v] == LastKeyOf(t, v).value
  {
    if |t| > 0 {
      LastKeyOfIsCombine(t[..|t| - 1], v);
    }
  }

  /** Lookup of the lower-cased code in the combined table, done as a search
      from the end of the table. */
  function ReverseLookup(t: Assoc<bytes, bytes>, code: bytes): (r: Option<bytes>)
    ensures r.Some? <==> exists i | 0 <= i < |t| :: t[i].1 == ToLower(code)
    ensures r.Some? ==> exists i | 0 <= i < |t| :: t[i].0 == r.value && t[i].1 == ToLower(code)
  {
    LastKeyOf(t, ToLower(code))
  }

  /** The search is the source's lookup: `array_combine` with keys and
      values swapped, then an index with the lower-cased code. */
  lemma {:induction false} ReverseLookupIsCombine(t: Assoc<bytes, bytes>, code: bytes)
    ensures ReverseLookup(t, code) ==
      (if ToLower(code) in Combine(t) then Some(Combine(t)[ToLower(code)]) else None)
  {
    LastKeyOfIsCombine(t, ToLower(code));
  }

  /** `getThreeDigitForTwoDigit`: the three-letter code for a two-letter
      code, case-insensitively, or null. */
  function GetThreeDigitForTwoDigit(twoDigitCode: bytes): (r: Option<bytes>)
    ensures r.Some? <==> exists i | 0 <= i < |IsoThreeDigitToIsoTwoDigit| :: IsoThreeDigitToIsoTwoDigit[i].1 == ToLower(twoDigitCode)
    ensures r.Some? ==> exists i | 0 <= i < |IsoThreeDigitToIsoTwoDigit| ::
      IsoThreeDigitToIsoTwoDigit[i].0 == r.value && IsoThreeDigitToIsoTwoDigit[i].1 == ToLower(twoDigitCode)
  {
    ReverseLookup(IsoThreeDigitToIsoTwoDigit, twoDigitCode)
  }

  /** In a table whose two-letter codes are distinct, looking up an entry's
      two-letter code (in any case) gives back that entry's three-letter code. */
  lemma {:induction false} ReverseLookupRoundTrip(t: Assoc<bytes, bytes>, i: nat, code: bytes)
    requires DistinctValues(t)
    requires i < |t| && ToLower(code) == t[i].1
    ensures ReverseLookup(t, code) == Some(t[i].0)
  {
    var r := ReverseLookup(t, code);
    var j :| 0 <= j < |t| && t[j].0 == r.value && t[j].1 == ToLower(code);
    assert i == j;
  }
}

=== FILE: language_detection.dfy ===
/** `LanguageDetectionController`: the entry points. A single text goes to
    polyglot and any exception polyglot raises is swallowed; a batch of
    texts is moved under fresh keys and detected in bulk, and there the
    exceptions escape. Every DTO found gets its name converted to the target
    locale (when one is given) and the languages its text mentions. */
module LanguageDetection {
  import opened Wrappers
  import opened Bytes
  import opened PhpArrays
  import opened Dto
  import opened LocaleLanguages
  import opened IsoLanguageCodes
  import opened PolyglotHealth
  import opened PolyglotBulkDetection
  import Polyglot
  import MentionDetection

  /** What escapes the controller. */
  datatype ControllerError =
    | DetectionFailed(detection: DetectionError) // bulk path only: the single path swallows these
    | CatalogueFailed(catalog: CatalogError)     // converting a name, or the tables behind the mentions
    | Uninitialized                              // a DTO getter read a property that was never set
    | TextMissing                                // `$uniqueKeyToText[$uniqueId]` was null

  /** A controller answer and the locale memo as it is afterwards. */
  datatype Reply<T> = Reply(cache: Cache, result: Result<T, ControllerError>)

  /** `!empty($targetLocale)`: the detected name is converted. */
  predicate Converts(targetLocale: Option<bytes>) {
    targetLocale.Some? && !PhpEmpty(targetLocale.value)
  }

  /** `d` is `d0` with at most its name and its mentioned languages
      replaced; the mentions hold no duplicates, and the name is only
      replaced when converting. */
  predicate AnnotatedFrom(d0: LanguageInformation, d: LanguageInformation, targetLocale: Option<bytes>) {
    d.(languageName := d0.languageName, mentionedLanguages := d0.mentionedLanguages) == d0
    && NoDuplicates(d.mentionedLanguages)
    && (!Converts(targetLocale) ==> d.languageName == d0.languageName)
    && (Converts(targetLocale) ==> d.languageName.Set? && d.languageName.value.Some?)
  }

  /** The renaming step of both controller paths: with a target locale the name becomes the
      target locale's name for the DTO's two-letter code. */
  function Rename(cat: Catalog, cache: Cache, d: LanguageInformation, code: bytes, targetLocale: Option<bytes>): (a: Answer<LanguageInformation>)
    ensures !Converts(targetLocale) ==> a == Answer(cache, Success(d))
    ensures Converts(targetLocale) && a.result.Success? ==>
      GetLanguagesForLocale(cat, cache, targetLocale.value).result.Success?
      && a.result.value.languageName.Set? && a.result.value.languageName.value.Some?
      && Get(GetLanguagesForLocale(cat, cache, targetLocale.value).result.value, code) == a.result.value.languageName.value
      && a.result.value.(languageName := d.languageName) == d
  {
    if Converts(targetLocale) then
      var c := ConvertLocaleToLanguageName(cat, cache, code, targetLocale.value);
      match c.result
      case Failure(e) => Answer(c.cache, Failure(e))
      case Success(name) => Answer(c.cache, Success(SetLanguageName(d, Some(name))))
    else Answer(cache, Success(d))
  }

  /** What both paths do with one DTO: read its two-letter code, convert its
      name, and attach the languages `text` mentions, searched in the code's
      locale and returned in the target locale (`null` passes through). */
  function Annotate(env: Environment, cache: Cache, d: LanguageInformation, text: bytes, targetLocale: Option<bytes>): (a: Reply<LanguageInformation>)
    ensures a.result.Success? ==> AnnotatedFrom(d, a.result.value, targetLocale)
    ensures d.twoDigitLanguageCode.Unset? ==> a == Reply(cache, Failure(Uninitialized))
    ensures d.twoDigitLanguageCode.Set? && a.result.Failure? ==> a.result.error.CatalogueFailed?
  {
    match GetTwoDigitLanguageCode(d)
    case Failure(_) => Reply(cache, Failure(Uninitialized))
    case Success(code) =>
      var renamed := Rename(env.catalog, cache, d, code, targetLocale);
      match renamed.result
      case Failure(e) => Reply(renamed.cache, Failure(CatalogueFailed(e)))
      case Success(d2) =>
        var m := MentionDetection.GetMentionedLanguages(env.catalog, renamed.cache, env.stripTags, text, code, targetLocale);
        match m.result
        case Failure(e) => Reply(m.cache, Failure(CatalogueFailed(e)))
        case Success(mentions) => Reply(m.cache, Success(SetMentionedLanguages(d2, mentions)))
  }

  /** Without a target locale nothing is converted: the name stays
      polyglot's, and the mentions are the names, in the DTO's own locale, of
      the languages the text's words mention. */
  lemma {:induction false} AnnotateWithoutTarget(env: Environment, cache: Cache, d: LanguageInformation, text: bytes)
    requires d.twoDigitLanguageCode.Set?
    requires GetLanguagesForLocale(env.catalog, cache, d.twoDigitLanguageCode.value).result.Success?
    ensures Annotate(env, cache, d, text, None).result.Success?
    ensures Annotate(env, cache, d, text, None).result.value.languageName == d.languageName
    ensures forall x :: (x in Annotate(env, cache, d, text, None).result.value.mentionedLanguages <==>
      MentionDetection.NameMentioned(
        MentionDetection.FilterWordsAndLanguages(env.stripTags, text,
          GetLanguagesForLocale(env.catalog, cache, d.twoDigitLanguageCode.value).result.value), x))
  {
    MentionDetection.MentionsInUsedLocale(env.catalog, cache, env.stripTags, text, d.twoDigitLanguageCode.value);
  }

  /** A successful conversion leaves the target locale's table in the memo,
      so reading the DTO's own locale afterwards does not evict it and the
      mention search reads the same target table again. */
  lemma {:induction false} TargetStaysMemoised(cat: Catalog, cache: Cache, code: bytes, target: bytes)
    requires ConvertLocaleToLanguageName(cat, cache, code, target).result.Success?
    ensures var c1 := ConvertLocaleToLanguageName(cat, cache, code, target).cache;
      var u := GetLanguagesForLocale(cat, c1, code);
      GetLanguagesForLocale(cat, u.cache, target).result == GetLanguagesForLocale(cat, cache, target).result
  {
    var g := GetLanguagesForLocale(cat, cache, target);
    var c1 := ConvertLocaleToLanguageName(cat, cache, code, target).cache;
    assert |g.result.value| > 0;
    assert target in c1 && c1[target] == g.result.value;
    var u := GetLanguagesForLocale(cat, c1, code);
    assert target in u.cache && u.cache[target] == g.result.value;
  }

  /** With a target locale: a failed conversion of the code escapes first,
      then a failure to read the DTO's own locale. Otherwise the name becomes
      the target table's entry for the code, and the mentions are exactly the
      target table's names for the codes the text's words match, searched in
      the DTO's own locale; the call fails exactly when the target table
      lacks one of those codes. */
  lemma {:induction false} AnnotateWithTarget(env: Environment, cache: Cache, d: LanguageInformation, text: bytes, target: bytes)
    requires d.twoDigitLanguageCode.Set? && !PhpEmpty(target)
    ensures var code := d.twoDigitLanguageCode.value;
      var r := ConvertLocaleToLanguageName(env.catalog, cache, code, target);
      var a := Annotate(env, cache, d, text, Some(target));
      r.result.Failure? ==> a == Reply(r.cache, Failure(CatalogueFailed(r.result.error)))
    ensures var code := d.twoDigitLanguageCode.value;
      var r := ConvertLocaleToLanguageName(env.catalog, cache, code, target);
      var u := GetLanguagesForLocale(env.catalog, r.cache, code);
      var a := Annotate(env, cache, d, text, Some(target));
      r.result.Success? && u.result.Failure? ==> a == Reply(u.cache, Failure(CatalogueFailed(u.result.error)))
    ensures var code := d.twoDigitLanguageCode.value;
      var r := ConvertLocaleToLanguageName(env.catalog, cache, code, target);
      var u := GetLanguagesForLocale(env.catalog, r.cache, code);
      var a := Annotate(env, cache, d, text, Some(target));
      r.result.Success? && u.result.Success? ==>
        var t := GetLanguagesForLocale(env.catalog, cache, target).result.value;
        var f := MentionDetection.FilterWordsAndLanguages(env.stripTags, text, u.result.value);
        (a.result.Success? <==>
           forall k | 0 <= k < |f.languages| && MentionDetection.Mentioned(f, k) :: Get(t, f.languages[k].0).Some?)
        && (a.result.Failure? ==> a.result.error == CatalogueFailed(NameNotFound))
        && (a.result.Success? ==>
              a.result.value.languageName == Set(Get(t, code))
              && forall x :: x in a.result.value.mentionedLanguages <==> MentionDetection.CodeMentioned(f, t, x))
  {
    var code := d.twoDigitLanguageCode.value;
    var r := ConvertLocaleToLanguageName(env.catalog, cache, code, target);
    var renamed := Rename(env.catalog, cache, d, code, Some(target));
    assert renamed.cache == r.cache;
    assert renamed.result.Failure? <==> r.result.Failure?;
    if r.result.Success? {
      var u := GetLanguagesForLocale(env.catalog, r.cache, code);
      if u.result.Success? {
        TargetStaysMemoised(env.catalog, cache, code, target);
        MentionDetection.MentionsInReturnedLocale(env.catalog, r.cache, env.stripTags, text, code, target);
      }
    }
  }

  // ---------------------------------------------------------------- one text

  /** `getLanguageInformation`: an empty text (or "0") gives `null`; so does
      any exception from polyglot, after it has been logged. Converting the
      name and finding the mentions happen outside the `try`. */
  function GetLanguageInformation(env: Environment, cache: Cache, uniqueId: bytes, text: bytes, targetLocale: Option<bytes>): (a: Reply<Option<LanguageInformation>>)
    ensures PhpEmpty(text) ==> a == Reply(cache, Success(None))
    ensures !PhpEmpty(text) && Polyglot.GetLanguageInformation(env, cache, uniqueId, text).result.Failure? ==>
      a == Reply(Polyglot.GetLanguageInformation(env, cache, uniqueId, text).cache, Success(None))
    ensures a.result.Failure? ==> a.result.error.CatalogueFailed?
    ensures a.result.Success? && a.result.value.Some? ==>
      !PhpEmpty(text)
      && Polyglot.GetLanguageInformation(env, cache, uniqueId, text).result.Success?
      && Polyglot.GetLanguageInformation(env, cache, uniqueId, text).result.value.Some?
      && AnnotatedFrom(Polyglot.GetLanguageInformation(env, cache, uniqueId, text).result.value.value, a.result.value.value, targetLocale)
  {
    if PhpEmpty(text) then Reply(cache, Success(None))
    else
      var run := Polyglot.GetLanguageInformation(env, cache, uniqueId, text);
      match run.result
      case Failure(_) => Reply(run.cache, Success(None))
      case Success(None) => Reply(run.cache, Success(None))
      case Success(Some(d)) =>
        var a := Annotate(env, run.cache, d, text, targetLocale);
        match a.result
        case Failure(e) => Reply(a.cache, Failure(e))
        case Success(d2) => Reply(a.cache, Success(Some(d2)))
  }

  /** A DTO the single path returns carries the unique id it was detected
      under, no text, a non-empty two-letter code with its three-letter
      counterpart, and (without a target locale) polyglot's non-empty name. */
  lemma {:induction false} SingleReplyDescribesText(env: Environment, cache: Cache, uniqueId: bytes, text: bytes, targetLocale: Option<bytes>)
    requires GetLanguageInformation(env, cache, uniqueId, text, targetLocale).result.Success?
    requires GetLanguageInformation(env, cache, uniqueId, text, targetLocale).result.value.Some?
    ensures var d := GetLanguageInformation(env, cache, uniqueId, text, targetLocale).result.value.value;
      d.uniqueId == Set(uniqueId) && d.text.Unset?
      && d.twoDigitLanguageCode.Set? && !PhpEmpty(d.twoDigitLanguageCode.value)
      && d.threeDigitLanguageCode == Set(GetThreeDigitForTwoDigit(d.twoDigitLanguageCode.value))
      && d.languageName.Set? && d.languageName.value.Some?
      && (!Converts(targetLocale) ==> !PhpEmpty(d.languageName.value.value))
  {
    var d0 := Polyglot.GetLanguageInformation(env, cache, uniqueId, text).result.value.value;
    var d := GetLanguageInformation(env, cache, uniqueId, text, targetLocale).result.value.value;
    assert Polyglot.SingleFoundFor(d0, uniqueId);
    assert d.uniqueId == d0.uniqueId && d.text == d0.text;
    assert d.twoDigitLanguageCode == d0.twoDigitLanguageCode && d.threeDigitLanguageCode == d0.threeDigitLanguageCode;
  }

  /** An unhealthy polyglot never surfaces: the answer is `null`. */
  lemma {:induction false} UnhealthySingleGivesNull(env: Environment, cache: Cache, uniqueId: bytes, text: bytes, targetLocale: Option<bytes>)
    requires CheckHealth(env.health).Some?
    ensures GetLanguageInformation(env, cache, uniqueId, text, targetLocale).result == Success(None)
  {
  }

  // ---------------------------------------------------------------- many texts

  /** The re-keying loop of `getLanguagesInformation`: text `i` is stored
      under `ids[i]` (what `uniqid()` returned) in `uniqueKeyToText`, and
      moved in `texts` from its old key to the new one by `unset` and a
      write. The loop walks a copy of the original array. Gives
      (uniqueKeyToText, texts) after `n` steps. */
  function Rekey(texts: Assoc<bytes, bytes>, ids: seq<bytes>, n: nat): (r: (Assoc<bytes, bytes>, Assoc<bytes, bytes>))
    requires n <= |texts| && |ids| == |texts| && DistinctKeys(texts)
    ensures DistinctKeys(r.0) && DistinctKeys(r.1)
  {
    if n == 0 then ([], texts)
    else
      var prev := Rekey(texts, ids, n - 1);
      var removed := Remove(prev.1, texts[n - 1].0);
      RemoveKeepsDistinct(prev.1, texts[n - 1].0);
      PutGet(prev.0, ids[n - 1], texts[n - 1].1);
      PutGet(removed, ids[n - 1], texts[n - 1].1);
      (Put(prev.0, ids[n - 1], texts[n - 1].1), Put(removed, ids[n - 1], texts[n - 1].1))
  }

  /** The first `n` texts under their fresh keys. */
  function Fresh(texts: Assoc<bytes, bytes>, ids: seq<bytes>, n: nat): (r: Assoc<bytes, bytes>)
    requires n <= |texts| && |ids| == |texts|
    ensures |r| == n && forall i | 0 <= i < n :: r[i] == (ids[i], texts[i].1)
  {
    seq(n, i requires 0 <= i < n => (ids[i], texts[i].1))
  }

  /** `uniqid()` values that are distinct and unlike every original key. */
  predicate FreshIds(texts: Assoc<bytes, bytes>, ids: seq<bytes>) {
    |ids| == |texts| && NoDuplicates(ids) && forall i, j | 0 <= i < |ids| && 0 <= j < |texts| :: ids[i] != texts[j].0
  }

  /** Writing a key no entry has appends the entry. */
  lemma {:induction false} PutNew(a: Assoc<bytes, bytes>, k: bytes, v: bytes)
    requires forall i | 0 <= i < |a| :: a[i].0 != k
    ensures Put(a, k, v) == a + [(k, v)]
  {
    assert KeyIndex(a, k).None?;
  }

  /** One step of the loop when neither key involved clashes: the head
      entry leaves the front and its replacement joins the back. */
  lemma {:induction false} FreshStep(head: (bytes, bytes), rest: Assoc<bytes, bytes>, prev: Assoc<bytes, bytes>, e: (bytes, bytes))
    requires forall i | 0 <= i < |rest| :: rest[i].0 != head.0 && rest[i].0 != e.0
    requires forall i | 0 <= i < |prev| :: prev[i].0 != head.0 && prev[i].0 != e.0
    ensures Put(Remove([head] + rest + prev, head.0), e.0, e.1) == rest + prev + [e]
    ensures Put(prev, e.0, e.1) == prev + [e]
  {
    RemoveAppend([head] + rest, prev, head.0);
    RemoveFirst([head] + rest);
    assert ([head] + rest)[1..] == rest;
    RemoveAbsent(prev, head.0);
    PutNew(prev, e.0, e.1);
    PutNew(rest + prev, e.0, e.1);
  }

  /** Moving one more text appends it. */
  lemma {:induction false} FreshSnoc(texts: Assoc<bytes, bytes>, ids: seq<bytes>, n: nat)
    requires 0 < n <= |texts| && |ids| == |texts|
    ensures Fresh(texts, ids, n) == Fresh(texts, ids, n - 1) + [(ids[n - 1], texts[n - 1].1)]
  {
  }

  /** At step `n` neither the old key nor the new one occurs among the
      texts still ahead or the texts already moved. */
  lemma {:induction false} StepKeysClear(texts: Assoc<bytes, bytes>, ids: seq<bytes>, n: nat)
    requires 0 < n <= |texts| && DistinctKeys(texts) && FreshIds(texts, ids)
    ensures forall i | 0 <= i < |texts[n..]| :: texts[n..][i].0 != texts[n - 1].0 && texts[n..][i].0 != ids[n - 1]
    ensures forall i | 0 <= i < n - 1 :: ids[i] != texts[n - 1].0 && ids[i] != ids[n - 1]
  {
    forall i | 0 <= i < |texts[n..]| ensures texts[n..][i].0 != texts[n - 1].0 && texts[n..][i].0 != ids[n - 1] {
      assert texts[n..][i] == texts[n + i];
    }
  }

  /** A key none of the first `m` ids equals is not a key of `Fresh`. */
  lemma {:induction false} FreshAvoids(texts: Assoc<bytes, bytes>, ids: seq<bytes>, m: nat, k: bytes)
    requires m <= |texts| && |ids| == |texts|
    requires forall i | 0 <= i < m :: ids[i] != k
    ensures forall i | 0 <= i < |Fresh(texts, ids, m)| :: Fresh(texts, ids, m)[i].0 != k
  {
  }

  /** Step `n` on `texts`: the old key leaves the front, the new one joins
      the back. */
  lemma {:induction false} RekeyStep(texts: Assoc<bytes, bytes>, ids: seq<bytes>, n: nat)
    requires 0 < n <= |texts| && DistinctKeys(texts) && FreshIds(texts, ids)
    ensures Put(Remove(texts[n - 1..] + Fresh(texts, ids, n - 1), texts[n - 1].0), ids[n - 1], texts[n - 1].1)
      == texts[n..] + Fresh(texts, ids, n)
  {
    var prev := Fresh(texts, ids, n - 1);
    var e := (ids[n - 1], texts[n - 1].1);
    StepKeysClear(texts, ids, n);
    FreshAvoids(texts, ids, n - 1, texts[n - 1].0);
    FreshAvoids(texts, ids, n - 1, ids[n - 1]);
    FreshStep(texts[n - 1], texts[n..], prev, e);
    assert texts[n - 1..] == [texts[n - 1]] + texts[n..];
    FreshSnoc(texts, ids, n);
    assert texts[n..] + prev + [e] == texts[n..] + Fresh(texts, ids, n);
  }

  /** Step `n` on `uniqueKeyToText`: the new key joins the back. */
  lemma {:induction false} MovedStep(texts: Assoc<bytes, bytes>, ids: seq<bytes>, n: nat)
    requires 0 < n <= |texts| && FreshIds(texts, ids)
    ensures Put(Fresh(texts, ids, n - 1), ids[n - 1], texts[n - 1].1) == Fresh(texts, ids, n)
  {
    PutNew(Fresh(texts, ids, n - 1), ids[n - 1], texts[n - 1].1);
    FreshSnoc(texts, ids, n);
  }

  /** With fresh ids the loop does what it means to: after `n` steps the
      untouched texts keep their keys and the first `n` sit, in order, at the
      end under their new keys, which is also all `uniqueKeyToText` holds. */
  lemma {:induction false} RekeyWithFreshIds(texts: Assoc<bytes, bytes>, ids: seq<bytes>, n: nat)
    requires n <= |texts| && DistinctKeys(texts) && FreshIds(texts, ids)
    ensures Rekey(texts, ids, n).0 == Fresh(texts, ids, n)
    ensures Rekey(texts, ids, n).1 == texts[n..] + Fresh(texts, ids, n)
  {
    if n > 0 {
      RekeyWithFreshIds(texts, ids, n - 1);
      RekeyStep(texts, ids, n);
      MovedStep(texts, ids, n);
    }
  }

  /** The DTOs found for every id, in order, each converted and given the
      mentions of the text stored under its id. */
  function AnnotateFound(env: Environment, cache: Cache, uniqueKeyToText: Assoc<bytes, bytes>,
                         found: Assoc<bytes, seq<LanguageInformation>>, targetLocale: Option<bytes>): (a: Reply<seq<LanguageInformation>>)
    decreases |found|
  {
    if |found| == 0 then Reply(cache, Success([]))
    else
      match Get(uniqueKeyToText, found[0].0)
      case None => Reply(cache, Failure(TextMissing))
      case Some(text) =>
        var here := AnnotateEach(env, cache, found[0].1, text, targetLocale);
        match here.result
        case Failure(e) => Reply(here.cache, Failure(e))
        case Success(ds) =>
          var rest := AnnotateFound(env, here.cache, uniqueKeyToText, found[1..], targetLocale);
          match rest.result
          case Failure(e) => Reply(rest.cache, Failure(e))
          case Success(more) => Reply(rest.cache, Success(ds + more))
  }

  /** The inner loop over the DTOs found for one text. */
  function AnnotateEach(env: Environment, cache: Cache, dtos: seq<LanguageInformation>, text: bytes,
                        targetLocale: Option<bytes>): (a: Reply<seq<LanguageInformation>>)
    ensures a.result.Success? ==>
      |a.result.value| == |dtos| && forall k | 0 <= k < |dtos| :: AnnotatedFrom(dtos[k], a.result.value[k], targetLocale)
    ensures a.result.Failure? && (forall k | 0 <= k < |dtos| :: dtos[k].twoDigitLanguageCode.Set?) ==>
      a.result.error.CatalogueFailed?
    decreases |dtos|
  {
    if |dtos| == 0 then Reply(cache, Success([]))
    else
      var first := Annotate(env, cache, dtos[0], text, targetLocale);
      match first.result
      case Failure(e) => Reply(first.cache, Failure(e))
      case Success(d) =>
        var rest := AnnotateEach(env, first.cache, dtos[1..], text, targetLocale);
        assert forall k | 1 <= k < |dtos| :: dtos[k] == dtos[1..][k - 1];
        match rest.result
        case Failure(e) => Reply(rest.cache, Failure(e))
        case Success(more) => Reply(rest.cache, Success([d] + more))
  }

  /** On well-found input the loop fails only on the catalogue, and yields
      one annotated DTO per id, in order. */
  lemma {:induction false} AnnotateFoundSpec(env: Environment, cache: Cache, uniqueKeyToText: Assoc<bytes, bytes>,
                                             found: Assoc<bytes, seq<LanguageInformation>>, targetLocale: Option<bytes>)
    requires WellFound(uniqueKeyToText, found)
    ensures AnnotateFound(env, cache, uniqueKeyToText, found, targetLocale).result.Failure? ==>
      AnnotateFound(env, cache, uniqueKeyToText, found, targetLocale).result.error.CatalogueFailed?
    ensures AnnotateFound(env, cache, uniqueKeyToText, found, targetLocale).result.Success? ==>
      |AnnotateFound(env, cache, uniqueKeyToText, found, targetLocale).result.value| == |found|
      && forall j | 0 <= j < |found| ::
           AnnotatedFrom(found[j].1[0], AnnotateFound(env, cache, uniqueKeyToText, found, targetLocale).result.value[j], targetLocale)
  {
    AnnotateFoundFailure(env, cache, uniqueKeyToText, found, targetLocale);
    AnnotateFoundSuccess(env, cache, uniqueKeyToText, found, targetLocale);
  }

  /** Dropping the first id keeps the rest well found. */
  lemma {:induction false} WellFoundTail(texts: Assoc<bytes, bytes>, found: Assoc<bytes, seq<LanguageInformation>>)
    requires WellFound(texts, found) && |found| > 0
    ensures WellFound(texts, found[1..])
  {
    forall j | 0 <= j < |found[1..]|
      ensures |found[1..][j].1| == 1 && Get(texts, found[1..][j].0).Some?
        && found[1..][j].1[0].twoDigitLanguageCode.Set?
    {
      assert found[1..][j] == found[j + 1];
    }
  }

  lemma {:induction false} AnnotateFoundFailure(env: Environment, cache: Cache, uniqueKeyToText: Assoc<bytes, bytes>,
                                                found: Assoc<bytes, seq<LanguageInformation>>, targetLocale: Option<bytes>)
    requires WellFound(uniqueKeyToText, found)
    ensures AnnotateFound(env, cache, uniqueKeyToText, found, targetLocale).result.Failure? ==>
      AnnotateFound(env, cache, uniqueKeyToText, found, targetLocale).result.error.CatalogueFailed?
    decreases |found|
  {
    if |found| > 0 {
      var text := Get(uniqueKeyToText, found[0].0).value;
      var here := AnnotateEach(env, cache, found[0].1, text, targetLocale);
      if here.result.Success? {
        WellFoundTail(uniqueKeyToText, found);
        AnnotateFoundFailure(env, here.cache, uniqueKeyToText, found[1..], targetLocale);
      }
    }
  }

  lemma {:induction false} AnnotateFoundSuccess(env: Environment, cache: Cache, uniqueKeyToText: Assoc<bytes, bytes>,
                                                found: Assoc<bytes, seq<LanguageInformation>>, targetLocale: Option<bytes>)
    requires WellFound(uniqueKeyToText, found)
    ensures AnnotateFound(env, cache, uniqueKeyToText, found, targetLocale).result.Success? ==>
      |AnnotateFound(env, cache, uniqueKeyToText, found, targetLocale).result.value| == |found|
      && forall j | 0 <= j < |found| ::
           AnnotatedFrom(found[j].1[0], AnnotateFound(env, cache, uniqueKeyToText, found, targetLocale).result.value[j], targetLocale)
    decreases |found|
  {
    if |found| > 0 {
      var text := Get(uniqueKeyToText, found[0].0).value;
      var here := AnnotateEach(env, cache, found[0].1, text, targetLocale);
      var rest := AnnotateFound(env, here.cache, uniqueKeyToText, found[1..], targetLocale);
      if here.result.Success? && rest.result.Success? {
        WellFoundTail(uniqueKeyToText, found);
        AnnotateFoundSuccess(env, here.cache, uniqueKeyToText, found[1..], targetLocale);
        assert AnnotateFound(env, cache, uniqueKeyToText, found, targetLocale).result
          == Success(here.result.value + rest.result.value);
        AnnotatedConcat(found, here.result.value, rest.result.value, targetLocale);
      }
    }
  }

  /** The DTOs of the first id followed by those of the rest are annotated
      position by position. */
  lemma {:induction false} AnnotatedConcat(found: Assoc<bytes, seq<LanguageInformation>>, first: seq<LanguageInformation>,
                                           more: seq<LanguageInformation>, targetLocale: Option<bytes>)
    requires |found| > 0 && forall j | 0 <= j < |found| :: |found[j].1| == 1
    requires |first| == 1 && AnnotatedFrom(found[0].1[0], first[0], targetLocale)
    requires |more| == |found| - 1
    requires forall j | 0 <= j < |found[1..]| :: AnnotatedFrom(found[1..][j].1[0], more[j], targetLocale)
    ensures |first + more| == |found|
    ensures forall j | 0 <= j < |found| :: AnnotatedFrom(found[j].1[0], (first + more)[j], targetLocale)
  {
    forall j | 0 <= j < |found| ensures AnnotatedFrom(found[j].1[0], (first + more)[j], targetLocale) {
      if j > 0 {
        assert found[j] == found[1..][j - 1];
      }
    }
  }

  /** What the bulk entry point leaves: the bulk detection run (files,
      quarantine, memo), the memo at the end, and the DTOs or the exception. */
  datatype BulkReply = BulkReply(detection: BulkRun, cache: Cache, result: Result<seq<LanguageInformation>, ControllerError>)

  /** `getLanguagesInformation`: `ids[i]` is what `uniqid()` returned for the
      i-th text. The texts are moved under these keys and detected in bulk;
      a detection exception escapes. */
  function GetLanguagesInformation(env: Environment, cache: Cache, texts: Assoc<bytes, bytes>, ids: seq<bytes>,
                                   targetLocale: Option<bytes>): (a: BulkReply)
    requires DistinctKeys(texts) && |ids| == |texts|
    ensures a.detection == Detect(env, cache, Rekey(texts, ids, |texts|).1)
    ensures a.detection.result.Failure? ==>
      a == BulkReply(a.detection, a.detection.cache, Failure(DetectionFailed(a.detection.result.error)))
    ensures CheckHealth(env.health).Some? ==> a.result == Failure(DetectionFailed(Unhealthy(CheckHealth(env.health).value)))
  {
    var keyed := Rekey(texts, ids, |texts|);
    var run := Detect(env, cache, keyed.1);
    match run.result
    case Failure(e) => BulkReply(run, run.cache, Failure(DetectionFailed(e)))
    case Success(found) =>
      var r := AnnotateFound(env, run.cache, keyed.0, found, targetLocale);
      BulkReply(run, r.cache, r.result)
  }

  /** `k` is the old key of a text the loop has not reached yet. */
  predicate KeyAhead(texts: Assoc<bytes, bytes>, n: nat, k: bytes) {
    exists m | n <= m < |texts| :: texts[m].0 == k
  }

  /** Whatever the ids, every key `texts` holds after `n` steps is either
      in `uniqueKeyToText` or the old key of a text still ahead. */
  lemma {:induction false} RekeyTablesAgree(texts: Assoc<bytes, bytes>, ids: seq<bytes>, n: nat)
    requires n <= |texts| && |ids| == |texts| && DistinctKeys(texts)
    ensures forall k | Get(Rekey(texts, ids, n).1, k).Some? ::
      Get(Rekey(texts, ids, n).0, k).Some? || KeyAhead(texts, n, k)
  {
    if n == 0 {
      forall k | Get(texts, k).Some? ensures KeyAhead(texts, 0, k) {
        var m :| 0 <= m < |texts| && texts[m].0 == k;
      }
    } else {
      RekeyTablesAgree(texts, ids, n - 1);
      var prev := Rekey(texts, ids, n - 1);
      var removed := Remove(prev.1, texts[n - 1].0);
      forall k | Get(Rekey(texts, ids, n).1, k).Some?
        ensures Get(Rekey(texts, ids, n).0, k).Some? || KeyAhead(texts, n, k)
      {
        PutHasKey(removed, ids[n - 1], texts[n - 1].1, k);
        PutHasKey(prev.0, ids[n - 1], texts[n - 1].1, k);
        if k != ids[n - 1] {
          RemoveHasKey(prev.1, texts[n - 1].0, k);
          if !Get(prev.0, k).Some? {
            var m :| n - 1 <= m < |texts| && texts[m].0 == k;
            assert m != n - 1;
          }
        }
      }
    }
  }

  /** A batch fails only in detection or in the catalogue: the DTOs
      detection hands back always carry their text and their code. */
  lemma {:induction false} BulkFailsInDetectionOrCatalogue(env: Environment, cache: Cache, texts: Assoc<bytes, bytes>, ids: seq<bytes>,
                                        targetLocale: Option<bytes>)
    requires DistinctKeys(texts) && |ids| == |texts|
    ensures GetLanguagesInformation(env, cache, texts, ids, targetLocale).result.Failure? ==>
      GetLanguagesInformation(env, cache, texts, ids, targetLocale).result.error.DetectionFailed?
      || GetLanguagesInformation(env, cache, texts, ids, targetLocale).result.error.CatalogueFailed?
  {
    var keyed := Rekey(texts, ids, |texts|);
    var run := Detect(env, cache, keyed.1);
    DetectWellFound(env, cache, keyed.1);
    if run.result.Success? {
      RekeyedTextsAreKnown(texts, ids, run.result.value);
      AnnotateFoundSpec(env, run.cache, keyed.0, run.result.value, targetLocale);
    }
  }

  /** The texts detection finds under their new keys can be read back from
      `uniqueKeyToText`: the two arrays the loop builds hold the same
      entries. */
  lemma {:induction false} RekeyedTextsAreKnown(texts: Assoc<bytes, bytes>, ids: seq<bytes>, found: Assoc<bytes, seq<LanguageInformation>>)
    requires DistinctKeys(texts) && |ids| == |texts|
    requires WellFound(Rekey(texts, ids, |texts|).1, found)
    ensures WellFound(Rekey(texts, ids, |texts|).0, found)
  {
    RekeyTablesAgree(texts, ids, |texts|);
    var keyed := Rekey(texts, ids, |texts|);
    forall j | 0 <= j < |found|
      ensures |found[j].1| == 1 && Get(keyed.0, found[j].0).Some? && found[j].1[0].twoDigitLanguageCode.Set?
    {
      assert Get(keyed.1, found[j].0).Some?;
      assert !KeyAhead(texts, |texts|, found[j].0);
    }
  }

  /** A DTO detection found for a fresh key, once annotated, describes the
      text stored under that key. */
  lemma {:induction false} AnnotatedFoundDescribesText(d0: LanguageInformation, d: LanguageInformation, id: bytes, text: bytes,
                                    texts: Assoc<bytes, bytes>, ids: seq<bytes>, targetLocale: Option<bytes>)
    requires |ids| == |texts|
    requires Get(Fresh(texts, ids, |texts|), id) == Some(text)
    requires FoundFor(d0, id, text) && AnnotatedFrom(d0, d, targetLocale)
    ensures DescribesText(d, texts, ids, targetLocale)
  {
    var keyed := Fresh(texts, ids, |texts|);
    var i :| 0 <= i < |keyed| && keyed[i] == (id, text);
    assert ids[i] == id && texts[i].1 == text;
    assert d.uniqueId == d0.uniqueId && d.text == d0.text;
    assert d.twoDigitLanguageCode == d0.twoDigitLanguageCode && d.threeDigitLanguageCode == d0.threeDigitLanguageCode;
  }

  /** Detection and annotation of the texts under their fresh keys: every
      DTO that comes back describes one of the texts. */
  lemma {:induction false} FreshRepliesDescribeTexts(env: Environment, cache: Cache, texts: Assoc<bytes, bytes>, ids: seq<bytes>,
                                  targetLocale: Option<bytes>)
    requires FreshIds(texts, ids) && DistinctKeys(Fresh(texts, ids, |texts|))
    ensures (Detect(env, cache, Fresh(texts, ids, |texts|)).result.Success?
      && AnnotateFound(env, Detect(env, cache, Fresh(texts, ids, |texts|)).cache, Fresh(texts, ids, |texts|),
                       Detect(env, cache, Fresh(texts, ids, |texts|)).result.value, targetLocale).result.Success?) ==>
      forall k | 0 <= k < |AnnotateFound(env, Detect(env, cache, Fresh(texts, ids, |texts|)).cache, Fresh(texts, ids, |texts|),
                                         Detect(env, cache, Fresh(texts, ids, |texts|)).result.value, targetLocale).result.value| ::
        DescribesText(AnnotateFound(env, Detect(env, cache, Fresh(texts, ids, |texts|)).cache, Fresh(texts, ids, |texts|),
                                    Detect(env, cache, Fresh(texts, ids, |texts|)).result.value, targetLocale).result.value[k],
                      texts, ids, targetLocale)
  {
    var keyed := Fresh(texts, ids, |texts|);
    var run := Detect(env, cache, keyed);
    DetectFound(env, cache, keyed);
    DetectWellFound(env, cache, keyed);
    if run.result.Success? {
      var found := run.result.value;
      AnnotateFoundSpec(env, run.cache, keyed, found, targetLocale);
      var a := AnnotateFound(env, run.cache, keyed, found, targetLocale);
      if a.result.Success? {
        forall k | 0 <= k < |a.result.value| ensures DescribesText(a.result.value[k], texts, ids, targetLocale) {
          AnnotatedFoundDescribesText(found[k].1[0], a.result.value[k], found[k].0, Get(keyed, found[k].0).value,
                                      texts, ids, targetLocale);
        }
      }
    }
  }

  /** With fresh ids every DTO a batch returns belongs to one of the texts:
      it carries that text's fresh id and the text itself, a non-empty
      two-letter code with its three-letter counterpart, and, unless
      converted, polyglot's non-empty name. */
  lemma {:induction false} BulkRepliesDescribeTexts(env: Environment, cache: Cache, texts: Assoc<bytes, bytes>, ids: seq<bytes>,
                                 targetLocale: Option<bytes>)
    requires DistinctKeys(texts) && FreshIds(texts, ids)
    ensures GetLanguagesInformation(env, cache, texts, ids, targetLocale).result.Success? ==>
      forall k | 0 <= k < |GetLanguagesInformation(env, cache, texts, ids, targetLocale).result.value| ::
        DescribesText(GetLanguagesInformation(env, cache, texts, ids, targetLocale).result.value[k], texts, ids, targetLocale)
  {
    RekeyWithFreshIds(texts, ids, |texts|);
    assert texts[|texts|..] + Fresh(texts, ids, |texts|) == Fresh(texts, ids, |texts|);
    FreshRepliesDescribeTexts(env, cache, texts, ids, targetLocale);
  }

  /** `d` is the DTO of text `i`, for some `i`. */
  predicate DescribesText(d: LanguageInformation, texts: Assoc<bytes, bytes>, ids: seq<bytes>, targetLocale: Option<bytes>)
    requires |ids| == |texts|
  {
    exists i | 0 <= i < |texts| ::
      d.uniqueId == Set(ids[i]) && d.text == Set(texts[i].1)
      && d.twoDigitLanguageCode.Set? && !PhpEmpty(d.twoDigitLanguageCode.value)
      && d.threeDigitLanguageCode == Set(GetThreeDigitForTwoDigit(d.twoDigitLanguageCode.value))
      && d.languageName.Set? && d.languageName.value.Some?
      && (!Converts(targetLocale) ==> !PhpEmpty(d.languageName.value.value))
      && NoDuplicates(d.mentionedLanguages)
  }
}

=== FILE: locale_languages.dfy ===
/** The locale catalogue: for a base locale, the table from language code to
    language name written in that locale, read from the `language-list`
    package's `<locale>/language.json` files, retried up to 20 times while
    the decoded table is empty, and memoised per locale. */
module LocaleLanguages {
  import opened Wrappers
  import opened Bytes
  import opened PhpArrays

  /** Language code -> language name, in the file's order. */
  type Table = Assoc<bytes, bytes>

  /** The per-locale memo: only non-empty tables are ever stored. */
  type Cache = map<bytes, Table>

  /** What one attempt at reading a locale file observes. */
  datatype LoadResult =
    | Missing                   // `file_exists` is false
    | DecodeError               // `json_decode` reports an error
    | Decoded(table: Table)     // the decoded table, possibly empty

  datatype CatalogError =
    | PackageNotFound           // the `language-list` data directory is absent
    | DecodeFailure             // the locale file is not valid JSON
    | NameNotFound              // the table has no entry for the language code

  /** The file system as the catalogue sees it: the package's data directory
      (if found) and what attempt number `k` at reading a path observes. */
  datatype Catalog = Catalog(inclusionPath: Option<bytes>, load: (bytes, nat) -> LoadResult)

  /** Every catalogue operation returns the memo as it is afterwards, also
      when it fails. */
  datatype Answer<T> = Answer(cache: Cache, result: Result<T, CatalogError>)

  const MaxRetry: nat := 20

  const LanguageFileName: bytes := "/language.json"

  /** `/{$locale}/language.json`. */
  function LocaleFilePath(locale: bytes): (r: bytes)
    ensures |r| == |locale| + 1 + |LanguageFileName|
    ensures r[0] == '/' && r[1..1 + |locale|] == locale && r[1 + |locale|..] == LanguageFileName
  {
    "/" + locale + LanguageFileName
  }

  /** Different locales are read from different files. */
  lemma {:induction false} LocaleFilePathInjective(l1: bytes, l2: bytes)
    requires LocaleFilePath(l1) == LocaleFilePath(l2)
    ensures l1 == l2
  {
    assert |l1| == |l2|;
    assert l1 == LocaleFilePath(l1)[1..1 + |l1|];
  }

  /** Attempts `from` up to (not including) `to` all decoded an empty table. */
  predicate EmptyBetween(cat: Catalog, path: bytes, from: nat, to: nat) {
    forall i: nat | from <= i < to :: cat.load(path, i) == Decoded([])
  }

  /** The retry loop from attempt `k` on, every earlier attempt having decoded
      an empty table: stops at a missing file (empty result), a decode error
      (failure) or a non-empty table (that table), or gives up after
      `MaxRetry` attempts with the empty table. */
  function LoadFrom(cat: Catalog, path: bytes, k: nat): (r: Result<Table, CatalogError>)
    ensures r.Failure? ==> r.error == DecodeFailure
    ensures r.Failure? <==> exists j: nat | k <= j < MaxRetry :: EmptyBetween(cat, path, k, j) && cat.load(path, j) == DecodeError
    ensures r.Success? && |r.value| > 0 <==>
      exists j: nat | k <= j < MaxRetry :: EmptyBetween(cat, path, k, j) && cat.load(path, j).Decoded? && |cat.load(path, j).table| > 0
    ensures r.Success? && |r.value| > 0 ==>
      exists j: nat | k <= j < MaxRetry :: EmptyBetween(cat, path, k, j) && cat.load(path, j) == Decoded(r.value)
    decreases MaxRetry - k
  {
    if k >= MaxRetry then Success([])
    else
      match cat.load(path, k)
      case Missing =>
        assert forall j: nat | k < j && EmptyBetween(cat, path, k, j) :: cat.load(path, k) == Decoded([]);
        Success([])
      case DecodeError =>
        assert EmptyBetween(cat, path, k, k);
        assert forall j: nat | k < j && EmptyBetween(cat, path, k, j) :: cat.load(path, k) == Decoded([]);
        Failure(DecodeFailure)
      case Decoded(t) =>
        if |t| > 0 then
          assert EmptyBetween(cat, path, k, k);
          assert forall j: nat | k < j && EmptyBetween(cat, path, k, j) :: cat.load(path, k) == Decoded([]);
          Success(t)
        else
          var r := LoadFrom(cat, path, k + 1);
          EmptyBetweenStep(cat, path, k);
          r
  }

  lemma {:induction false} EmptyBetweenStep(cat: Catalog, path: bytes, k: nat)
    requires cat.load(path, k) == Decoded([])
    ensures forall j: nat | k < j :: EmptyBetween(cat, path, k, j) == EmptyBetween(cat, path, k + 1, j)
  {
  }

  /** `getLanguagesForLocale`: a memoised locale is answered from the memo;
      otherwise the file is read through the retry loop and a non-empty
      result is memoised. */
  function GetLanguagesForLocale(cat: Catalog, cache: Cache, locale: bytes): (a: Answer<Table>)
    ensures locale in cache ==> a == Answer(cache, Success(cache[locale]))
    ensures locale !in cache && cat.inclusionPath.None? ==> a == Answer(cache, Failure(PackageNotFound))
    ensures locale !in cache && cat.inclusionPath.Some? ==>
      var path := cat.inclusionPath.value + LocaleFilePath(locale);
      match LoadFrom(cat, path, 0)
      case Failure(e) => a == Answer(cache, Failure(e))
      case Success(t) => a.result == Success(t) && a.cache == (if |t| > 0 then cache[locale := t] else cache)
    ensures a.result.Success? && |a.result.value| > 0 ==> a.cache == cache[locale := a.result.value]
    ensures a.result.Success? && |a.result.value| == 0 ==> a.cache == cache
  {
    if locale in cache then Answer(cache, Success(cache[locale]))
    else
      match cat.inclusionPath
      case None => Answer(cache, Failure(PackageNotFound))
      case Some(root) =>
        match LoadFrom(cat, root + LocaleFilePath(locale), 0)
        case Failure(e) => Answer(cache, Failure(e))
        case Success(t) => Answer(if |t| > 0 then cache[locale := t] else cache, Success(t))
  }

  /** The retry loop as the source writes it, checked against `LoadFrom`. */
  method ReadLocaleFile(cat: Catalog, path: bytes) returns (r: Result<Table, CatalogError>)
    ensures r == LoadFrom(cat, path, 0)
  {
    var retryNum: nat := 0;
    var table: Table := [];
    while |table| == 0 && retryNum < MaxRetry
      invariant retryNum <= MaxRetry
      invariant |table| == 0 ==> LoadFrom(cat, path, 0) == LoadFrom(cat, path, retryNum)
      invariant |table| > 0 ==> LoadFrom(cat, path, 0) == Success(table)
      decreases MaxRetry - retryNum
    {
      match cat.load(path, retryNum)
      case Missing =>
        return Success([]);
      case DecodeError =>
        return Failure(DecodeFailure);
      case Decoded(t) =>
        table := t;
      retryNum := retryNum + 1;
    }
    return Success(table);
  }

  /** Every memoised table is non-empty and is what reading its locale's
      file yields. */
  predicate Coherent(cat: Catalog, cache: Cache) {
    forall l | l in cache ::
      |cache[l]| > 0 && cat.inclusionPath.Some?
      && LoadFrom(cat, cat.inclusionPath.value + LocaleFilePath(l), 0) == Success(cache[l])
  }

  /** The memo is invisible: with a coherent memo the answer is the one an
      empty memo gives, and the memo stays coherent. */
  lemma {:induction false} CacheIsTransparent(cat: Catalog, cache: Cache, locale: bytes)
    requires Coherent(cat, cache)
    ensures GetLanguagesForLocale(cat, cache, locale).result == GetLanguagesForLocale(cat, map[], locale).result
    ensures Coherent(cat, GetLanguagesForLocale(cat, cache, locale).cache)
  {
  }

  /** Asking again gives the same answer when the locale files read the same
      on both calls: whatever the first read memoised (or left out, for an
      empty table or a failure) the second read sees the same table or the
      same failure. */
  lemma {:induction false} RepeatedReadAgrees(cat: Catalog, cache: Cache, locale: bytes)
    ensures GetLanguagesForLocale(cat, GetLanguagesForLocale(cat, cache, locale).cache, locale).result
      == GetLanguagesForLocale(cat, cache, locale).result
  {
    var a := GetLanguagesForLocale(cat, cache, locale);
    if locale !in cache && cat.inclusionPath.Some? && a.result.Success? && |a.result.value| > 0 {
      assert a.cache == cache[locale := a.result.value];
    }
  }

  /** What the memo guarantees whatever the files hold on the second call: a
      non-empty table, once read, is the answer for that locale from then on,
      under any catalogue. */
  lemma {:induction false} MemoisedReadAgrees(cat: Catalog, cat2: Catalog, cache: Cache, locale: bytes)
    requires GetLanguagesForLocale(cat, cache, locale).result.Success?
    requires |GetLanguagesForLocale(cat, cache, locale).result.value| > 0
    ensures GetLanguagesForLocale(cat2, GetLanguagesForLocale(cat, cache, locale).cache, locale)
      == GetLanguagesForLocale(cat, cache, locale)
  {
    var a := GetLanguagesForLocale(cat, cache, locale);
    assert locale in a.cache && a.cache[locale] == a.result.value;
  }

  /** An empty table or a failure is not memoised: the next call reads the
      file again, so a file that changed in between (another process still
      writing it) gives that call its own answer. */
  lemma {:induction false} EmptyReadIsReread(cat: Catalog, cat2: Catalog, cache: Cache, locale: bytes)
    requires GetLanguagesForLocale(cat, cache, locale).result.Failure?
      || |GetLanguagesForLocale(cat, cache, locale).result.value| == 0
    ensures GetLanguagesForLocale(cat2, GetLanguagesForLocale(cat, cache, locale).cache, locale)
      == GetLanguagesForLocale(cat2, cache, locale)
  {
    var a := GetLanguagesForLocale(cat, cache, locale);
    assert a.cache == cache;
  }

  /** `convertLocaleToLanguageName`: the name of `code` written in
      `targetLocale`; reading a code the table lacks raises a type error. */
  function ConvertLocaleToLanguageName(cat: Catalog, cache: Cache, code: bytes, targetLocale: bytes): (a: Answer<bytes>)
    ensures var g := GetLanguagesForLocale(cat, cache, targetLocale);
      a.cache == g.cache
      && (g.result.Failure? ==> a.result == Failure(g.result.error))
      && (g.result.Success? ==>
            (a.result.Success? <==> exists i | 0 <= i < |g.result.value| :: g.result.value[i].0 == code)
            && (a.result.Success? ==> (code, a.result.value) in g.result.value)
            && (a.result.Failure? ==> a.result.error == NameNotFound))
  {
    var g := GetLanguagesForLocale(cat, cache, targetLocale);
    match g.result
    case Failure(e) => Answer(g.cache, Failure(e))
    case Success(t) =>
      match Get(t, code)
      case None => Answer(g.cache, Failure(NameNotFound))
      case Some(name) => Answer(g.cache, Success(name))
  }

  /** `convertLanguageNameToLocale`: the code of the first entry named
      `name`; no match, or a match whose code PHP considers empty, yields
      `false`, which the `?string` return type turns into "". */
  function ConvertLanguageNameToLocale(cat: Catalog, cache: Cache, name: bytes, targetLocale: bytes): (a: Answer<bytes>)
    ensures var g := GetLanguagesForLocale(cat, cache, targetLocale);
      a.cache == g.cache
      && (g.result.Failure? ==> a.result == Failure(g.result.error))
      && (g.result.Success? ==>
            (a.result.Success?
             && (a.result.value == [] <==> (ArraySearch(g.result.value, name).None? || PhpEmpty(ArraySearch(g.result.value, name).value)))
             && (a.result.value != [] ==>
                   a.result.value == ArraySearch(g.result.value, name).value
                   && exists i | 0 <= i < |g.result.value| ::
                        g.result.value[i] == (a.result.value, name) && forall j | 0 <= j < i :: g.result.value[j].1 != name)))
  {
    var g := GetLanguagesForLocale(cat, cache, targetLocale);
    match g.result
    case Failure(e) => Answer(g.cache, Failure(e))
    case Success(t) =>
      match ArraySearch(t, name)
      case None => Answer(g.cache, Success([]))
      case Some(code) => Answer(g.cache, Success(if PhpEmpty(code) then [] else code))
  }

  /** Converting a code to its name and the name back gives the code, when the
      locale's names are distinct and the code is not one PHP treats as empty. */
  lemma {:induction false} NameLocaleRoundTrip(cat: Catalog, cache: Cache, code: bytes, targetLocale: bytes)
    requires var g := GetLanguagesForLocale(cat, cache, targetLocale);
      g.result.Success? && DistinctKeys(g.result.value) && DistinctValues(g.result.value)
    requires ConvertLocaleToLanguageName(cat, cache, code, targetLocale).result.Success?
    requires !PhpEmpty(code)
    ensures var a := ConvertLocaleToLanguageName(cat, cache, code, targetLocale);
      ConvertLanguageNameToLocale(cat, a.cache, a.result.value, targetLocale).result == Success(code)
  {
    var g := GetLanguagesForLocale(cat, cache, targetLocale);
    var t := g.result.value;
    var a := ConvertLocaleToLanguageName(cat, cache, code, targetLocale);
    var name := a.result.value;
    var i :| 0 <= i < |t| && t[i] == (code, name);
    var g2 := GetLanguagesForLocale(cat, a.cache, targetLocale);
    assert g2.result == g.result by {
      if targetLocale !in cache {
        assert a.cache == cache[targetLocale := t];
      }
    }
    var s := ArraySearch(t, name);
    assert s == Some(code);
  }
}

=== FILE: mention_detection.dfy ===
/** `LanguageMentionDetectionController`: which languages a text mentions by
    name. The text is split into words, the words are narrowed down to those
    containing the first half of a supported language's name, and each
    remaining (language, word) pair is a mention when the word contains the
    name or is at least 85% similar to it. */
module MentionDetection {
  import opened Wrappers
  import opened Bytes
  import opened PhpArrays
  import opened Dto
  import opened LocaleLanguages
  import opened SimilarText

  /** `getSupportedLanguageIsoCodes`: the locales whose language names are
      looked for. */
  const SupportedLanguageIsoCodes: seq<bytes> := SupportedCodes0 + SupportedCodes1 + SupportedCodes2 + SupportedCodes3

  const SupportedCodes0: seq<bytes> := [
    "sq", "aln", "arq", "en_US", "es_419", "en", "ar", "shu", "arc", "en_AU", "de_AT", "bar",
    "be", "bs", "pt_BR", "en_GB", "bg", "zh", "zh_Hant", "zh_Hans", "lzh", "hr", "ce"]

  const SupportedCodes1: seq<bytes> := [
    "cs", "dak", "nds", "sli", "da", "dz", "et", "es_ES", "pt_PT", "fi", "fr",
    "el", "kl", "ka", "haw", "he", "hi", "hif", "es", "id", "ga", "is"]

  const SupportedCodes2: seq<bytes> := [
    "ja", "en_CA", "fr_CA", "kk", "ko", "lt", "lb", "la", "lv", "mk", "es_MX",
    "ro_MD", "ne", "nl", "de", "no", "nb", "nn", "pfl", "fa", "pl", "pt"]

  const SupportedCodes3: seq<bytes> := [
    "prg", "ru", "ro", "rue", "sr", "sh", "sk", "sl", "sco", "gd", "fr_CH",
    "gsw", "sv", "th", "uk", "cy", "vec", "hu", "vi", "it", "zea"]

  // ---------------------------------------------------------------- splitting into words

  /** Where the pattern `(?<=\w)\b\s*` matches: right after a word byte that ends a
      word. */
  predicate IsSplitPoint(s: bytes, k: int) {
    1 <= k <= |s| && IsWordByte(s[k - 1]) && (k == |s| || !IsWordByte(s[k]))
  }

  /** The length of the whitespace run (`\s*`) starting at `k`. */
  function SpaceRun(s: bytes, k: nat): (n: nat)
    requires k <= |s|
    ensures k + n <= |s|
    ensures forall i | k <= i < k + n :: IsPcreSpace(s[i])
    ensures k + n < |s| ==> !IsPcreSpace(s[k + n])
    decreases |s| - k
  {
    if k < |s| && IsPcreSpace(s[k]) then 1 + SpaceRun(s, k + 1) else 0
  }

  /** `preg_split` scanning from `k`, the current piece starting at `last`.
      An empty match (no whitespace) makes the scan step one byte on; the
      piece after the last match is kept even when empty. */
  function SplitFrom(s: bytes, last: nat, k: nat): (pieces: seq<bytes>)
    requires last <= k && last <= |s|
    ensures |pieces| >= 1
    decreases |s| + 1 - k
  {
    if k > |s| then [s[last..]]
    else if IsSplitPoint(s, k) then
      var e := k + SpaceRun(s, k);
      [s[last..k]] + SplitFrom(s, e, if e > k then e else k + 1)
    else SplitFrom(s, last, k + 1)
  }

  /** `preg_split` by the pattern `(?<=\w)\b\s*`: the text cut after every word,
      the whitespace behind it dropped. */
  function SplitWords(s: bytes): (pieces: seq<bytes>)
    ensures |pieces| >= 1
  {
    SplitFrom(s, 0, 0)
  }

  /** The bytes that are not whitespace. */
  function NonSpace(s: bytes): (r: bytes)
    ensures |r| <= |s|
  {
    if |s| == 0 then []
    else (if IsPcreSpace(s[0]) then [] else [s[0]]) + NonSpace(s[1..])
  }

  lemma {:induction false} NonSpaceAppend(a: bytes, b: bytes)
    ensures NonSpace(a + b) == NonSpace(a) + NonSpace(b)
  {
    if |a| > 0 {
      assert (a + b)[1..] == a[1..] + b;
      NonSpaceAppend(a[1..], b);
    } else {
      assert a + b == b;
    }
  }

  lemma {:induction false} NonSpaceOfSpaces(s: bytes)
    requires forall i | 0 <= i < |s| :: IsPcreSpace(s[i])
    ensures NonSpace(s) == []
  {
    if |s| > 0 {
      NonSpaceOfSpaces(s[1..]);
    }
  }

  function Concat(pieces: seq<bytes>): bytes {
    if |pieces| == 0 then [] else pieces[0] + Concat(pieces[1..])
  }

  /** Splitting drops whitespace only: the pieces put back together hold
      every other byte of the text, in order. */
  lemma {:induction false} SplitFromKeepsContent(s: bytes, last: nat, k: nat)
    requires last <= k && last <= |s|
    ensures NonSpace(Concat(SplitFrom(s, last, k))) == NonSpace(s[last..])
    decreases |s| + 1 - k
  {
    if k > |s| {
      ConcatSingle(s[last..]);
    } else if IsSplitPoint(s, k) {
      var e := k + SpaceRun(s, k);
      var next := if e > k then e else k + 1;
      SplitFromKeepsContent(s, e, next);
      var rest := SplitFrom(s, e, next);
      assert SplitFrom(s, last, k) == [s[last..k]] + rest;
      ConcatCons(s[last..k], rest);
      NonSpaceAcrossRun(s, last, k, e, Concat(rest));
    } else {
      SplitFromKeepsContent(s, last, k + 1);
    }
  }

  lemma {:induction false} ConcatSingle(p: bytes)
    ensures Concat([p]) == p
  {
    assert [p][1..] == [];
    assert Concat([p]) == p + Concat([]);
  }

  lemma {:induction false} ConcatCons(p: bytes, rest: seq<bytes>)
    ensures Concat([p] + rest) == p + Concat(rest)
  {
    assert ([p] + rest)[1..] == rest;
  }

  /** Dropping a whitespace run between two parts keeps the non-space bytes. */
  lemma {:induction false} NonSpaceAcrossRun(s: bytes, last: nat, k: nat, e: nat, tail: bytes)
    requires last <= k <= e <= |s|
    requires forall i | k <= i < e :: IsPcreSpace(s[i])
    requires NonSpace(tail) == NonSpace(s[e..])
    ensures NonSpace(s[last..k] + tail) == NonSpace(s[last..])
  {
    var a, m, b := s[last..k], s[k..e], s[e..];
    SliceInThree(s, last, k, e);
    assert forall i | 0 <= i < |m| :: m[i] == s[k + i];
    NonSpaceOfSpaces(m);
    NonSpaceAppend(a, tail);
    NonSpaceAppend(a + m, b);
    NonSpaceAppend(a, m);
  }

  lemma {:induction false} SliceInThree(s: bytes, last: nat, k: nat, e: nat)
    requires last <= k <= e <= |s|
    ensures s[last..] == s[last..k] + s[k..e] + s[e..]
  {
    assert forall i | 0 <= i < |s[last..]| :: s[last..][i] == (s[last..k] + s[k..e] + s[e..])[i];
  }

  lemma {:induction false} SplitWordsKeepsContent(s: bytes)
    ensures NonSpace(Concat(SplitWords(s))) == NonSpace(s)
  {
    SplitFromKeepsContent(s, 0, 0);
    assert s[0..] == s;
  }

  /** Two words split apart; the empty piece after the last word is kept. */
  lemma {:induction false} SplitTwoWords()
    ensures SplitWords("ab cd") == ["ab", "cd", ""]
  {
    assert !IsSplitPoint("ab cd", 0) && !IsSplitPoint("ab cd", 1) && IsSplitPoint("ab cd", 2);
    assert SpaceRun("ab cd", 2) == 1;
    assert !IsSplitPoint("ab cd", 3) && !IsSplitPoint("ab cd", 4) && IsSplitPoint("ab cd", 5);
    assert SpaceRun("ab cd", 5) == 0;
    assert "ab cd"[0..2] == "ab" && "ab cd"[3..5] == "cd" && "ab cd"[5..] == "";
  }

  /** `preg_replace("#\W#", "", $word)`: only the word bytes stay. */
  function RemoveNonWord(w: bytes): (r: bytes)
    ensures |r| <= |w|
    ensures forall i | 0 <= i < |r| :: IsWordByte(r[i])
    ensures (forall i | 0 <= i < |w| :: IsWordByte(w[i])) ==> r == w
  {
    if |w| == 0 then []
    else (if IsWordByte(w[0]) then [w[0]] else []) + RemoveNonWord(w[1..])
  }

  // ---------------------------------------------------------------- filtering words and languages

  /** The words the text is split into, duplicates dropped, then "" and "0"
      dropped. */
  function CandidateWords(stripTags: bytes -> bytes, haystack: bytes): (words: seq<bytes>)
    ensures NoDuplicates(words)
    ensures forall i | 0 <= i < |words| :: !PhpEmpty(words[i]) && words[i] in SplitWords(stripTags(haystack))
    ensures forall x | x in SplitWords(stripTags(haystack)) && !PhpEmpty(x) :: x in words
  {
    var pieces := SplitWords(stripTags(haystack));
    var unique := Unique(pieces);
    var words := FilterNonEmpty(unique);
    FilterKeepsDistinct(unique);
    forall x | x in pieces && !PhpEmpty(x) ensures x in words {
      var i :| 0 <= i < |unique| && unique[i] == x;
    }
    words
  }

  /** Dropping entries never brings a duplicate in. */
  lemma {:induction false} FilterKeepsDistinct(s: seq<bytes>)
    requires NoDuplicates(s)
    ensures NoDuplicates(FilterNonEmpty(s))
  {
    if |s| > 0 {
      assert NoDuplicates(s[1..]) by {
        forall i, j | 0 <= i < j < |s[1..]| ensures s[1..][i] != s[1..][j] {
          assert s[1..][i] == s[i + 1] && s[1..][j] == s[j + 1];
        }
      }
      FilterKeepsDistinct(s[1..]);
      var rest := FilterNonEmpty(s[1..]);
      forall i | 0 <= i < |rest| ensures rest[i] != s[0] {
        var k :| 0 <= k < |s[1..]| && s[1..][k] == rest[i];
        assert s[k + 1] == rest[i];
      }
    }
  }

  /** `in_array($languageCode, getSupportedLanguageIsoCodes())`. */
  predicate IsSupported(code: bytes) {
    Listed(code, SupportedLanguageIsoCodes)
  }

  /** `code` is one of `list`, searched front to back. */
  predicate Listed(code: bytes, list: seq<bytes>) {
    |list| > 0 && (list[0] == code || Listed(code, list[1..]))
  }

  lemma {:induction false} ListedIsMember(code: bytes, list: seq<bytes>)
    ensures Listed(code, list) <==> code in list
  {
    if |list| > 0 {
      ListedIsMember(code, list[1..]);
      assert list == [list[0]] + list[1..];
    }
  }

  /** `substr($language, 0, round(strlen($language) / 2))`: PHP rounds halves
      away from zero, so an odd-length name keeps its middle byte. */
  function HalfLanguageName(name: bytes): (half: bytes)
    ensures |half| <= |name| && half == name[..|half|]
  {
    name[..(|name| + 1) / 2]
  }

  /** A name holds its own half, and the half is at least half of it. */
  lemma {:induction false} HalfLanguageNameIsLargerHalf(name: bytes)
    ensures Contains(name, HalfLanguageName(name))
    ensures 2 * |HalfLanguageName(name)| >= |name|
  {
    assert OccursAt(name, HalfLanguageName(name), 0);
  }

  /** A word that contains a whole name contains its half too. */
  lemma {:induction false} WordWithNameHasHalf(word: bytes, name: bytes)
    requires Contains(word, name)
    ensures Contains(word, HalfLanguageName(name))
  {
    var k :| 0 <= k <= |word| - |name| && OccursAt(word, name, k);
    var h := HalfLanguageName(name);
    assert word[k..k + |h|] == word[k..k + |name|][..|h|];
    assert OccursAt(word, h, k);
  }

  /** Language entry `e` (code, name) is hinted at by `word`: the code is
      supported and the word holds the first half of the name. */
  predicate Hints(e: (bytes, bytes), word: bytes) {
    IsSupported(e.0) && Contains(word, HalfLanguageName(e.1))
  }

  /** The inner loop with its `continue 2`: the first entry from `from` on
      that the word hints at. */
  function FirstHint(languages: Table, word: bytes, from: nat): (r: Option<nat>)
    ensures r.Some? ==> from <= r.value < |languages| && Hints(languages[r.value], word)
    ensures forall j | from <= j < |languages| && (r.None? || j < r.value) :: !Hints(languages[j], word)
    decreases |languages| - from
  {
    if from >= |languages| then None
    else if Hints(languages[from], word) then Some(from)
    else FirstHint(languages, word, from + 1)
  }

  /** `preg_replace("#\W#", "", $word)` on every candidate word. */
  function NormalizeWords(words: seq<bytes>): (r: seq<bytes>)
    ensures |r| == |words|
    ensures forall i | 0 <= i < |words| :: r[i] == RemoveNonWord(words[i])
  {
    seq(|words|, i requires 0 <= i < |words| => RemoveNonWord(words[i]))
  }

  /** The outer loop of `filterWordsAndLanguages` before the final
      `array_unique` calls, over the normalised words: each word that hints at
      a language is kept, and its first such language is written under its
      code. */
  function CollectHints(languages: Table, words: seq<bytes>): (acc: WordsFilterResult)
    decreases |words|
  {
    if |words| == 0 then WordsFilterResult([], [])
    else
      var acc := CollectHints(languages, words[..|words| - 1]);
      var w := words[|words| - 1];
      match FirstHint(languages, w, 0)
      case None => acc
      case Some(j) => WordsFilterResult(acc.words + [w], Put(acc.languages, languages[j].0, languages[j].1))
  }

  /** A word is kept exactly when it hints at some language. */
  lemma {:induction false} CollectHintsWords(languages: Table, words: seq<bytes>)
    ensures forall x :: x in CollectHints(languages, words).words <==> x in words && FirstHint(languages, x, 0).Some?
  {
    if |words| > 0 {
      var init := words[..|words| - 1];
      CollectHintsWords(languages, init);
      assert words == init + [words[|words| - 1]];
    }
  }

  /** Every language kept is an entry of the table with a supported code,
      and some kept word holds the first half of its name. */
  lemma {:induction false} CollectHintsLanguages(languages: Table, words: seq<bytes>)
    ensures forall k | 0 <= k < |CollectHints(languages, words).languages| ::
      CollectHints(languages, words).languages[k] in languages
      && IsSupported(CollectHints(languages, words).languages[k].0)
      && exists x | x in CollectHints(languages, words).words ::
           Contains(x, HalfLanguageName(CollectHints(languages, words).languages[k].1))
  {
    if |words| > 0 {
      var init := words[..|words| - 1];
      CollectHintsLanguages(languages, init);
      var prev := CollectHints(languages, init);
      var w := words[|words| - 1];
      var acc := CollectHints(languages, words);
      match FirstHint(languages, w, 0)
      case None =>
        assert acc == prev;
      case Some(j) =>
        assert acc.words == prev.words + [w];
        assert acc.languages == Put(prev.languages, languages[j].0, languages[j].1);
        forall k | 0 <= k < |acc.languages|
          ensures acc.languages[k] in languages && IsSupported(acc.languages[k].0)
            && exists x | x in acc.words :: Contains(x, HalfLanguageName(acc.languages[k].1))
        {
          if acc.languages[k] == languages[j] {
            assert w in acc.words;
          } else {
            assert k < |prev.languages| && acc.languages[k] == prev.languages[k];
            var x :| x in prev.words && Contains(x, HalfLanguageName(prev.languages[k].1));
            assert x in acc.words;
          }
        }
    }
  }

  /** `$a[$k] = $v` leaves the entry (k, v) in the array. */
  lemma {:induction false} PutHolds(a: Table, k: bytes, v: bytes)
    ensures (k, v) in Put(a, k, v)
  {
    match KeyIndex(a, k)
    case Some(m) => assert Put(a, k, v)[m] == (k, v);
    case None => assert Put(a, k, v)[|a|] == (k, v);
  }

  /** An entry of the table survives a write of another entry of the same
      table, when the table's codes are distinct. */
  lemma {:induction false} PutKeeps(a: Table, k: bytes, v: bytes, f: (bytes, bytes), languages: Table)
    requires f in a && f in languages && (k, v) in languages && DistinctKeys(languages)
    ensures f in Put(a, k, v)
  {
    var i :| 0 <= i < |a| && a[i] == f;
    if f.0 == k {
      assert (k, v) == f;
      assert KeyIndex(a, k).Some?;
      assert Put(a, k, v)[KeyIndex(a, k).value] == f;
    } else if KeyIndex(a, k).Some? {
      assert Put(a, k, v)[i] == f;
    } else {
      assert Put(a, k, v)[i] == f;
    }
  }

  /** With distinct codes in the table (as a decoded JSON object has), the
      first language every kept word hints at is among the kept languages. */
  lemma {:induction false} CollectHintsComplete(languages: Table, words: seq<bytes>)
    requires DistinctKeys(languages)
    ensures forall x | x in CollectHints(languages, words).words ::
      FirstHint(languages, x, 0).Some? && languages[FirstHint(languages, x, 0).value] in CollectHints(languages, words).languages
  {
    if |words| > 0 {
      var init := words[..|words| - 1];
      CollectHintsComplete(languages, init);
      var prev := CollectHints(languages, init);
      var w := words[|words| - 1];
      var acc := CollectHints(languages, words);
      match FirstHint(languages, w, 0)
      case None =>
        assert acc == prev;
      case Some(j) =>
        var e := languages[j];
        assert acc.words == prev.words + [w];
        assert acc.languages == Put(prev.languages, e.0, e.1);
        PutHolds(prev.languages, e.0, e.1);
        forall x | x in acc.words
          ensures FirstHint(languages, x, 0).Some? && languages[FirstHint(languages, x, 0).value] in acc.languages
        {
          if x != w {
            assert x in prev.words;
            PutKeeps(prev.languages, e.0, e.1, languages[FirstHint(languages, x, 0).value], languages);
          }
        }
    }
  }

  /** Words that hint at nothing leave nothing behind. */
  lemma {:induction false} CollectNothing(languages: Table, words: seq<bytes>)
    requires forall x | x in words :: FirstHint(languages, x, 0).None?
    ensures CollectHints(languages, words) == WordsFilterResult([], [])
  {
    if |words| > 0 {
      CollectNothing(languages, words[..|words| - 1]);
      assert words[|words| - 1] in words;
    }
  }

  /** `filterWordsAndLanguages`: the candidate words normalised to their word
      bytes, kept when they hint at a supported language, and the languages
      they hint at first; then `array_unique` on both. */
  function FilterWordsAndLanguages(stripTags: bytes -> bytes, haystack: bytes, languages: Table): (f: WordsFilterResult)
    ensures NoDuplicates(f.words) && DistinctValues(f.languages)
  {
    var acc := CollectHints(languages, NormalizeWords(CandidateWords(stripTags, haystack)));
    UniqueByValueDistinct(acc.languages);
    WordsFilterResult(Unique(acc.words), UniqueByValue(acc.languages))
  }

  /** The words the filter keeps: exactly the normalised candidate words
      that hint at a supported language of the table. */
  lemma {:induction false} FilterKeepsHintingWords(stripTags: bytes -> bytes, haystack: bytes, languages: Table)
    ensures forall x :: x in FilterWordsAndLanguages(stripTags, haystack, languages).words <==>
      x in NormalizeWords(CandidateWords(stripTags, haystack)) && FirstHint(languages, x, 0).Some?
  {
    CollectHintsWords(languages, NormalizeWords(CandidateWords(stripTags, haystack)));
  }

  /** Every kept language is a supported entry of the table whose half name
      a kept word holds. */
  predicate LanguagesAreHinted(languages: Table, f: WordsFilterResult) {
    forall k | 0 <= k < |f.languages| ::
      f.languages[k] in languages && IsSupported(f.languages[k].0)
      && exists x | x in f.words :: Contains(x, HalfLanguageName(f.languages[k].1))
  }

  /** The name every kept word hints at first is among the kept names. */
  predicate FirstHintsKept(languages: Table, f: WordsFilterResult) {
    forall x | x in f.words :: FirstHint(languages, x, 0).Some?
      && exists k | 0 <= k < |f.languages| :: f.languages[k].1 == languages[FirstHint(languages, x, 0).value].1
  }

  /** The languages the filter keeps are supported entries of the table
      whose half name a kept word holds. */
  lemma {:induction false} FilterLanguagesAreHinted(stripTags: bytes -> bytes, haystack: bytes, languages: Table)
    ensures LanguagesAreHinted(languages, FilterWordsAndLanguages(stripTags, haystack, languages))
  {
    var words := NormalizeWords(CandidateWords(stripTags, haystack));
    var acc := CollectHints(languages, words);
    var f := FilterWordsAndLanguages(stripTags, haystack, languages);
    assert f.words == Unique(acc.words) && f.languages == UniqueByValue(acc.languages);
    CollectHintsLanguages(languages, words);
    UniqueByValueSubset(acc.languages);
    forall k | 0 <= k < |f.languages|
      ensures f.languages[k] in languages && IsSupported(f.languages[k].0)
        && exists x | x in f.words :: Contains(x, HalfLanguageName(f.languages[k].1))
    {
      assert f.languages[k] in acc.languages;
      var m :| 0 <= m < |acc.languages| && acc.languages[m] == f.languages[k];
      var x :| x in acc.words && Contains(x, HalfLanguageName(acc.languages[m].1));
      assert x in f.words;
    }
  }

  /** With distinct codes in the table (as a decoded JSON object has), the
      name every kept word hints at first survives `array_unique`. */
  lemma {:induction false} FilterKeepsFirstHints(stripTags: bytes -> bytes, haystack: bytes, languages: Table)
    requires DistinctKeys(languages)
    ensures FirstHintsKept(languages, FilterWordsAndLanguages(stripTags, haystack, languages))
  {
    var words := NormalizeWords(CandidateWords(stripTags, haystack));
    var acc := CollectHints(languages, words);
    var f := FilterWordsAndLanguages(stripTags, haystack, languages);
    assert f.words == Unique(acc.words) && f.languages == UniqueByValue(acc.languages);
    CollectHintsComplete(languages, words);
    UniqueByValueDistinct(acc.languages);
    forall x | x in f.words
      ensures FirstHint(languages, x, 0).Some?
        && exists k | 0 <= k < |f.languages| :: f.languages[k].1 == languages[FirstHint(languages, x, 0).value].1
    {
      assert x in acc.words;
      var e := languages[FirstHint(languages, x, 0).value];
      var m :| 0 <= m < |acc.languages| && acc.languages[m] == e;
    }
  }

  // ---------------------------------------------------------------- matching

  /** A word mentions a name when it contains it or, failing that, when
      `similar_text` rates the pair at 85% or more. */
  predicate IsHit(word: bytes, name: bytes) {
    Contains(word, name) || MeetsThreshold(word, name)
  }

  /** Some word of `words` mentions `name`. */
  predicate MentionedBy(words: seq<bytes>, name: bytes) {
    exists i | 0 <= i < |words| :: IsHit(words[i], name)
  }

  /** The inner loop of `getMentionedLanguages` for one language: one match
      per word that mentions it. */
  function WordHits(e: (bytes, bytes), words: seq<bytes>): (r: seq<(bytes, bytes)>)
    ensures forall k | 0 <= k < |r| :: r[k] == e
    ensures |r| > 0 <==> MentionedBy(words, e.1)
  {
    if |words| == 0 then []
    else
      var rest := WordHits(e, words[1..]);
      assert MentionedBy(words, e.1) <==> IsHit(words[0], e.1) || MentionedBy(words[1..], e.1) by {
        assert forall i | 1 <= i < |words| :: words[i] == words[1..][i - 1];
      }
      (if IsHit(words[0], e.1) then [e] else []) + rest
  }

  /** Language `k` of the filter result is mentioned by one of its words. */
  predicate Mentioned(f: WordsFilterResult, k: int) {
    0 <= k < |f.languages| && MentionedBy(f.words, f.languages[k].1)
  }

  /** Both loops: the (code, name) matches in the order they are found. */
  function Hits(languages: Assoc<bytes, bytes>, words: seq<bytes>): (r: seq<(bytes, bytes)>)
    ensures forall h | h in r :: h in languages && MentionedBy(words, h.1)
    ensures forall k | 0 <= k < |languages| :: languages[k] in r <==> MentionedBy(words, languages[k].1)
  {
    if |languages| == 0 then []
    else
      var here := WordHits(languages[0], words);
      var rest := Hits(languages[1..], words);
      assert forall k | 1 <= k < |languages| :: languages[k] == languages[1..][k - 1];
      assert forall h | h in here :: h == languages[0];
      forall k | 0 <= k < |languages|
        ensures languages[k] in here + rest <==> MentionedBy(words, languages[k].1)
      {
        if MentionedBy(words, languages[k].1) && k == 0 {
          assert here[0] in here + rest;
        }
        if MentionedBy(words, languages[k].1) && k > 0 {
          assert languages[1..][k - 1] in rest;
        }
      }
      here + rest
  }

  /** The names of the matches, in order. */
  function Names(hits: seq<(bytes, bytes)>): (r: seq<bytes>)
    ensures |r| == |hits| && forall k | 0 <= k < |hits| :: r[k] == hits[k].1
  {
    seq(|hits|, k requires 0 <= k < |hits| => hits[k].1)
  }

  /** `convertLocaleToLanguageName` on the code of every match, in order; the
      first exception stops the loop. */
  function ConvertAll(cat: Catalog, cache: Cache, hits: seq<(bytes, bytes)>, target: bytes): (a: Answer<seq<bytes>>)
    ensures a.result.Success? ==> |a.result.value| == |hits|
    decreases |hits|
  {
    if |hits| == 0 then Answer(cache, Success([]))
    else
      var c := ConvertLocaleToLanguageName(cat, cache, hits[0].0, target);
      match c.result
      case Failure(e) => Answer(c.cache, Failure(e))
      case Success(name) =>
        var rest := ConvertAll(cat, c.cache, hits[1..], target);
        match rest.result
        case Failure(e) => Answer(rest.cache, Failure(e))
        case Success(names) => Answer(rest.cache, Success([name] + names))
  }

  /** Every match's code has a name in the table `t`. */
  predicate AllNamed(t: Table, hits: seq<(bytes, bytes)>) {
    forall k | 0 <= k < |hits| :: Get(t, hits[k].0).Some?
  }

  /** `names[k]` is the table's name for the code of match `k`. */
  predicate NamedIn(t: Table, hits: seq<(bytes, bytes)>, names: seq<bytes>) {
    |names| == |hits| && forall k | 0 <= k < |hits| :: Get(t, hits[k].0) == Some(names[k])
  }

  /** Every conversion reads the same table of the returned locale, so the
      names are that table's entries for the codes, and the loop fails exactly
      when the table cannot be read or lacks one of the codes. */
  lemma {:induction false} ConvertAllReadsOneTable(cat: Catalog, cache: Cache, hits: seq<(bytes, bytes)>, target: bytes)
    ensures GetLanguagesForLocale(cat, ConvertAll(cat, cache, hits, target).cache, target).result
      == GetLanguagesForLocale(cat, cache, target).result
    ensures |hits| > 0 && GetLanguagesForLocale(cat, cache, target).result.Failure? ==>
      ConvertAll(cat, cache, hits, target).result == Failure(GetLanguagesForLocale(cat, cache, target).result.error)
    ensures GetLanguagesForLocale(cat, cache, target).result.Success? ==>
      (ConvertAll(cat, cache, hits, target).result.Success? <==>
         AllNamed(GetLanguagesForLocale(cat, cache, target).result.value, hits))
    ensures GetLanguagesForLocale(cat, cache, target).result.Success? && ConvertAll(cat, cache, hits, target).result.Success? ==>
      NamedIn(GetLanguagesForLocale(cat, cache, target).result.value, hits, ConvertAll(cat, cache, hits, target).result.value)
    ensures GetLanguagesForLocale(cat, cache, target).result.Success? && ConvertAll(cat, cache, hits, target).result.Failure? ==>
      ConvertAll(cat, cache, hits, target).result.error == NameNotFound
    decreases |hits|
  {
    if |hits| > 0 {
      var g := GetLanguagesForLocale(cat, cache, target);
      var c := ConvertLocaleToLanguageName(cat, cache, hits[0].0, target);
      RepeatedReadAgrees(cat, cache, target);
      assert GetLanguagesForLocale(cat, c.cache, target).result == g.result;
      if c.result.Success? {
        ConvertAllReadsOneTable(cat, c.cache, hits[1..], target);
        var rest := ConvertAll(cat, c.cache, hits[1..], target);
        if g.result.Success? {
          var t := g.result.value;
          assert c.result.value == Get(t, hits[0].0).value;
          assert AllNamed(t, hits) <==> Get(t, hits[0].0).Some? && AllNamed(t, hits[1..]) by {
            assert forall k | 1 <= k < |hits| :: hits[k] == hits[1..][k - 1];
          }
          if rest.result.Success? {
            var names := [c.result.value] + rest.result.value;
            assert ConvertAll(cat, cache, hits, target).result == Success(names);
            assert forall k | 1 <= k < |hits| :: hits[k] == hits[1..][k - 1] && names[k] == rest.result.value[k - 1];
          }
        }
      }
    }
  }

  /** `getMentionedLanguages`: the used locale's table is filtered against
      the text, every (language, word) pair is tested, and the names of the
      matches, converted to the returned locale when one is given, are
      returned without duplicates. `returnedLocale` is `None` for `null`. */
  function GetMentionedLanguages(cat: Catalog, cache: Cache, stripTags: bytes -> bytes, haystack: bytes,
                                 usedLocale: bytes, returnedLocale: Option<bytes>): (a: Answer<seq<bytes>>)
    ensures a.result.Success? ==> NoDuplicates(a.result.value)
    ensures GetLanguagesForLocale(cat, cache, usedLocale).result.Failure? ==>
      a == Answer(GetLanguagesForLocale(cat, cache, usedLocale).cache, Failure(GetLanguagesForLocale(cat, cache, usedLocale).result.error))
    ensures returnedLocale.None? ==> a.result.Success? == GetLanguagesForLocale(cat, cache, usedLocale).result.Success?
  {
    var g := GetLanguagesForLocale(cat, cache, usedLocale);
    match g.result
    case Failure(e) => Answer(g.cache, Failure(e))
    case Success(languages) =>
      var f := FilterWordsAndLanguages(stripTags, haystack, languages);
      var hits := Hits(f.languages, f.words);
      match returnedLocale
      case None => Answer(g.cache, Success(Unique(Names(hits))))
      case Some(target) =>
        var c := ConvertAll(cat, g.cache, hits, target);
        match c.result
        case Failure(e) => Answer(c.cache, Failure(e))
        case Success(names) => Answer(c.cache, Success(Unique(names)))
  }

  /** A name in the used locale is reported exactly when it names a kept
      language that some kept word mentions. */
  predicate NameMentioned(f: WordsFilterResult, x: bytes) {
    exists k | 0 <= k < |f.languages| && Mentioned(f, k) :: f.languages[k].1 == x
  }

  /** The names of the matches are the names of the mentioned languages. */
  lemma {:induction false} NamesOfHits(f: WordsFilterResult)
    ensures forall x :: x in Unique(Names(Hits(f.languages, f.words))) <==> NameMentioned(f, x)
  {
    HitNameIsMentioned(f);
    MentionedNameIsHit(f);
  }

  lemma {:induction false} HitNameIsMentioned(f: WordsFilterResult)
    ensures forall x | x in Names(Hits(f.languages, f.words)) :: NameMentioned(f, x)
  {
    var hits := Hits(f.languages, f.words);
    forall x | x in Names(hits) ensures NameMentioned(f, x) {
      var j :| 0 <= j < |hits| && Names(hits)[j] == x;
      assert hits[j] in hits;
      var k :| 0 <= k < |f.languages| && f.languages[k] == hits[j];
      assert Mentioned(f, k);
    }
  }

  lemma {:induction false} MentionedNameIsHit(f: WordsFilterResult)
    ensures forall x | NameMentioned(f, x) :: x in Names(Hits(f.languages, f.words))
  {
    var hits := Hits(f.languages, f.words);
    forall x | NameMentioned(f, x) ensures x in Names(hits) {
      var k :| 0 <= k < |f.languages| && Mentioned(f, k) && f.languages[k].1 == x;
      assert f.languages[k] in hits;
      var j :| 0 <= j < |hits| && hits[j] == f.languages[k];
      assert Names(hits)[j] == x;
    }
  }

  /** Without a returned locale the names are the used locale's own. */
  lemma {:induction false} MentionsInUsedLocale(cat: Catalog, cache: Cache, stripTags: bytes -> bytes, haystack: bytes, usedLocale: bytes)
    requires GetLanguagesForLocale(cat, cache, usedLocale).result.Success?
    ensures GetMentionedLanguages(cat, cache, stripTags, haystack, usedLocale, None).result.Success?
    ensures forall x :: (x in GetMentionedLanguages(cat, cache, stripTags, haystack, usedLocale, None).result.value <==>
      NameMentioned(FilterWordsAndLanguages(stripTags, haystack, GetLanguagesForLocale(cat, cache, usedLocale).result.value), x))
  {
    var f := FilterWordsAndLanguages(stripTags, haystack, GetLanguagesForLocale(cat, cache, usedLocale).result.value);
    NamesOfHits(f);
  }

  /** The code of a kept language that some kept word mentions is converted
      to the name `x` in the table `t`. */
  predicate CodeMentioned(f: WordsFilterResult, t: Table, x: bytes) {
    exists k | 0 <= k < |f.languages| && Mentioned(f, k) :: Get(t, f.languages[k].0) == Some(x)
  }

  /** The table names every match's code exactly when it names every
      mentioned language's code. */
  lemma {:induction false} AllNamedOfHits(f: WordsFilterResult, t: Table)
    ensures AllNamed(t, Hits(f.languages, f.words)) <==>
      forall k | 0 <= k < |f.languages| && Mentioned(f, k) :: Get(t, f.languages[k].0).Some?
  {
    var hits := Hits(f.languages, f.words);
    if AllNamed(t, hits) {
      forall k | 0 <= k < |f.languages| && Mentioned(f, k) ensures Get(t, f.languages[k].0).Some? {
        assert f.languages[k] in hits;
      }
    }
    if forall k | 0 <= k < |f.languages| && Mentioned(f, k) :: Get(t, f.languages[k].0).Some? {
      forall j | 0 <= j < |hits| ensures Get(t, hits[j].0).Some? {
        assert hits[j] in hits;
        var k :| 0 <= k < |f.languages| && f.languages[k] == hits[j];
        assert Mentioned(f, k);
      }
    }
  }

  /** Converting the matches' codes through `t` gives the names of the
      mentioned codes. */
  lemma {:induction false} ConvertedNamesOfHits(f: WordsFilterResult, t: Table, names: seq<bytes>)
    requires NamedIn(t, Hits(f.languages, f.words), names)
    ensures forall x :: x in Unique(names) <==> CodeMentioned(f, t, x)
  {
    ConvertedNameIsMentioned(f, t, names);
    MentionedCodeIsConverted(f, t, names);
  }

  lemma {:induction false} ConvertedNameIsMentioned(f: WordsFilterResult, t: Table, names: seq<bytes>)
    requires NamedIn(t, Hits(f.languages, f.words), names)
    ensures forall x | x in names :: CodeMentioned(f, t, x)
  {
    var hits := Hits(f.languages, f.words);
    forall x | x in names ensures CodeMentioned(f, t, x) {
      var j :| 0 <= j < |names| && names[j] == x;
      assert hits[j] in hits;
      var k :| 0 <= k < |f.languages| && f.languages[k] == hits[j];
      assert Mentioned(f, k);
    }
  }

  lemma {:induction false} MentionedCodeIsConverted(f: WordsFilterResult, t: Table, names: seq<bytes>)
    requires NamedIn(t, Hits(f.languages, f.words), names)
    ensures forall x | CodeMentioned(f, t, x) :: x in names
  {
    var hits := Hits(f.languages, f.words);
    forall x | CodeMentioned(f, t, x) ensures x in names {
      var k :| 0 <= k < |f.languages| && Mentioned(f, k) && Get(t, f.languages[k].0) == Some(x);
      assert f.languages[k] in hits;
      var j :| 0 <= j < |hits| && hits[j] == f.languages[k];
      assert names[j] == x;
    }
  }

  /** With a returned locale, the names are that locale's names for the codes
      of the mentioned languages; the call fails exactly when the returned
      locale's table lacks one of those codes. */
  lemma {:induction false} MentionsInReturnedLocale(cat: Catalog, cache: Cache, stripTags: bytes -> bytes, haystack: bytes,
                                 usedLocale: bytes, target: bytes)
    requires GetLanguagesForLocale(cat, cache, usedLocale).result.Success?
    requires GetLanguagesForLocale(cat, GetLanguagesForLocale(cat, cache, usedLocale).cache, target).result.Success?
    ensures GetMentionedLanguages(cat, cache, stripTags, haystack, usedLocale, Some(target)).result.Success? <==>
      forall k | 0 <= k < |FilterWordsAndLanguages(stripTags, haystack, GetLanguagesForLocale(cat, cache, usedLocale).result.value).languages|
          && Mentioned(FilterWordsAndLanguages(stripTags, haystack, GetLanguagesForLocale(cat, cache, usedLocale).result.value), k) ::
        Get(GetLanguagesForLocale(cat, GetLanguagesForLocale(cat, cache, usedLocale).cache, target).result.value,
            FilterWordsAndLanguages(stripTags, haystack, GetLanguagesForLocale(cat, cache, usedLocale).result.value).languages[k].0).Some?
    ensures GetMentionedLanguages(cat, cache, stripTags, haystack, usedLocale, Some(target)).result.Failure? ==>
      GetMentionedLanguages(cat, cache, stripTags, haystack, usedLocale, Some(target)).result.error == NameNotFound
    ensures GetMentionedLanguages(cat, cache, stripTags, haystack, usedLocale, Some(target)).result.Success? ==>
      forall x :: (x in GetMentionedLanguages(cat, cache, stripTags, haystack, usedLocale, Some(target)).result.value <==>
        CodeMentioned(FilterWordsAndLanguages(stripTags, haystack, GetLanguagesForLocale(cat, cache, usedLocale).result.value),
                      GetLanguagesForLocale(cat, GetLanguagesForLocale(cat, cache, usedLocale).cache, target).result.value, x))
  {
    var g := GetLanguagesForLocale(cat, cache, usedLocale);
    var f := FilterWordsAndLanguages(stripTags, haystack, g.result.value);
    var hits := Hits(f.languages, f.words);
    var t := GetLanguagesForLocale(cat, g.cache, target).result.value;
    ConvertAllReadsOneTable(cat, g.cache, hits, target);
    var c := ConvertAll(cat, g.cache, hits, target);
    AllNamedOfHits(f, t);
    if c.result.Success? {
      ConvertedNamesOfHits(f, t, c.result.value);
    }
  }

  /** A word of the text that is exactly a language's name is reported, when
      that language is the first one of the table whose half name the word
      holds (the inner loop stops at the first). */
  lemma {:induction false} ExactNameIsMentioned(cat: Catalog, cache: Cache, stripTags: bytes -> bytes, haystack: bytes, usedLocale: bytes, name: bytes)
    requires GetLanguagesForLocale(cat, cache, usedLocale).result.Success?
    requires DistinctKeys(GetLanguagesForLocale(cat, cache, usedLocale).result.value)
    requires name in NormalizeWords(CandidateWords(stripTags, haystack))
    requires FirstHint(GetLanguagesForLocale(cat, cache, usedLocale).result.value, name, 0).Some?
    requires GetLanguagesForLocale(cat, cache, usedLocale).result.value[
      FirstHint(GetLanguagesForLocale(cat, cache, usedLocale).result.value, name, 0).value].1 == name
    ensures name in GetMentionedLanguages(cat, cache, stripTags, haystack, usedLocale, None).result.value
  {
    var languages := GetLanguagesForLocale(cat, cache, usedLocale).result.value;
    var f := FilterWordsAndLanguages(stripTags, haystack, languages);
    FilterKeepsHintingWords(stripTags, haystack, languages);
    FilterKeepsFirstHints(stripTags, haystack, languages);
    MentionsInUsedLocale(cat, cache, stripTags, haystack, usedLocale);
    assert name in f.words;
    var k :| 0 <= k < |f.languages| && f.languages[k].1 == name;
    var i :| 0 <= i < |f.words| && f.words[i] == name;
    assert OccursAt(name, name, 0);
    assert IsHit(f.words[i], f.languages[k].1);
    assert Mentioned(f, k);
  }

  /** A text none of whose words holds half of a supported language's name
      mentions nothing. */
  lemma {:induction false} NoHintNoMention(cat: Catalog, cache: Cache, stripTags: bytes -> bytes, haystack: bytes,
                        usedLocale: bytes, returnedLocale: Option<bytes>)
    requires GetLanguagesForLocale(cat, cache, usedLocale).result.Success?
    requires forall x | x in NormalizeWords(CandidateWords(stripTags, haystack)) ::
      FirstHint(GetLanguagesForLocale(cat, cache, usedLocale).result.value, x, 0).None?
    ensures GetMentionedLanguages(cat, cache, stripTags, haystack, usedLocale, returnedLocale).result == Success([])
  {
    var languages := GetLanguagesForLocale(cat, cache, usedLocale).result.value;
    CollectNothing(languages, NormalizeWords(CandidateWords(stripTags, haystack)));
    assert FilterWordsAndLanguages(stripTags, haystack, languages) == WordsFilterResult([], []);
    assert Unique(Names([])) == [];
  }
}

=== FILE: normalization.dfy ===
/** `PolyglotBulkDetection::shortenAndNormalizeText`: how a text is turned
    into the contents of a polyglot input file, and what that keeps. */
module TextNormalization {
  import opened Bytes

  /** `Polyglot::MAX_TEXT_LENGTH`: how much of a text is handed to polyglot. */
  const MaxTextLength: nat := 1000

  /** Only word bytes and spaces. */
  predicate WordsAndSpaces(s: bytes) {
    forall i | 0 <= i < |s| :: IsWordByte(s[i]) || s[i] == ' '
  }

  /** No two spaces in a row. */
  predicate NoDoubleSpace(s: bytes) {
    forall i | 0 <= i < |s| - 1 :: !(s[i] == ' ' && s[i + 1] == ' ')
  }

  /** What the normalisation produces: word bytes separated by single spaces,
      with no space at either end. */
  predicate Normalized(s: bytes) {
    WordsAndSpaces(s) && NoDoubleSpace(s) && (|s| > 0 ==> s[0] != ' ' && s[|s| - 1] != ' ')
  }

  /** The text with every space removed: what collapsing space runs must not
      change. */
  function Unspaced(s: bytes): (r: bytes)
    ensures |r| <= |s|
  {
    if |s| == 0 then []
    else if s[0] == ' ' then Unspaced(s[1..])
    else [s[0]] + Unspaced(s[1..])
  }

  lemma {:induction false} UnspacedAppend(a: bytes, b: bytes)
    ensures Unspaced(a + b) == Unspaced(a) + Unspaced(b)
  {
    if |a| > 0 {
      assert (a + b)[1..] == a[1..] + b;
      UnspacedAppend(a[1..], b);
    } else {
      assert a + b == b;
    }
  }

  lemma {:induction false} UnspacedOfSpaces(s: bytes)
    requires forall i | 0 <= i < |s| :: s[i] == ' '
    ensures Unspaced(s) == []
  {
    if |s| > 0 {
      UnspacedOfSpaces(s[1..]);
    }
  }

  /** `preg_replace("#[^\w]#", " ", $s)`: every non-word byte becomes a space. */
  function BlankNonWord(s: bytes): (r: bytes)
    ensures |r| == |s| && WordsAndSpaces(r)
    ensures forall i | 0 <= i < |s| && IsWordByte(s[i]) :: r[i] == s[i]
    ensures forall i | 0 <= i < |s| && !IsWordByte(s[i]) :: r[i] == ' '
  {
    seq(|s|, i requires 0 <= i < |s| => if IsWordByte(s[i]) then s[i] else ' ')
  }

  /** Drops a leading run of spaces. */
  function SkipSpaces(s: bytes): (r: bytes)
    ensures |r| <= |s| && r == s[|s| - |r|..]
    ensures forall i | 0 <= i < |s| - |r| :: s[i] == ' '
    ensures |r| > 0 ==> r[0] != ' '
    ensures Unspaced(r) == Unspaced(s)
  {
    if |s| > 0 && s[0] == ' ' then
      var r := SkipSpaces(s[1..]);
      assert s[1..][|s| - 1 - |r|..] == s[|s| - |r|..];
      assert forall i | 1 <= i < |s| - |r| :: s[i] == s[1..][i - 1];
      r
    else s
  }

  /** `preg_replace("#[ ]{1,}#", " ", $s)`: every run of spaces becomes one
      space. `CollapseKeepsContent` states what it keeps. */
  function CollapseSpaces(s: bytes): (r: bytes)
    ensures |r| <= |s|
    ensures NoDoubleSpace(r)
    ensures |s| > 0 ==> |r| > 0 && r[0] == s[0]
    decreases |s|
  {
    if |s| == 0 then []
    else
      var tail := if s[0] == ' ' then SkipSpaces(s[1..]) else s[1..];
      var collapsed := CollapseSpaces(tail);
      ConsKeepsNoDoubleSpace(s[0], collapsed);
      [s[0]] + collapsed
  }

  lemma {:induction false} ConsKeepsNoDoubleSpace(c: byte, x: bytes)
    requires NoDoubleSpace(x)
    requires c == ' ' && |x| > 0 ==> x[0] != ' '
    ensures NoDoubleSpace([c] + x)
  {
    var y := [c] + x;
    forall i | 0 <= i < |y| - 1 ensures !(y[i] == ' ' && y[i + 1] == ' ') {
      if i > 0 {
        assert y[i] == x[i - 1] && y[i + 1] == x[i];
      }
    }
  }

  /** Collapsing keeps every byte but the spaces, in order. */
  lemma {:induction false} CollapseKeepsContent(s: bytes)
    ensures Unspaced(CollapseSpaces(s)) == Unspaced(s)
    decreases |s|
  {
    if |s| > 0 {
      var tail := if s[0] == ' ' then SkipSpaces(s[1..]) else s[1..];
      assert Unspaced(tail) == Unspaced(s[1..]);
      var collapsed := CollapseSpaces(tail);
      CollapseKeepsContent(tail);
      assert CollapseSpaces(s) == [s[0]] + collapsed;
      UnspacedCons(s[0], collapsed);
      UnspacedCons(s[0], s[1..]);
      assert s == [s[0]] + s[1..];
    }
  }

  /** The collapsed text ends with a space exactly when the input does. */
  lemma {:induction false} CollapseKeepsLastSpace(s: bytes)
    requires |s| > 0
    ensures CollapseSpaces(s)[|CollapseSpaces(s)| - 1] == ' ' <==> s[|s| - 1] == ' '
    decreases |s|
  {
    var tail := if s[0] == ' ' then SkipSpaces(s[1..]) else s[1..];
    var collapsed := CollapseSpaces(tail);
    assert CollapseSpaces(s) == [s[0]] + collapsed;
    if |tail| > 0 {
      CollapseKeepsLastSpace(tail);
      assert tail[|tail| - 1] == s[|s| - 1];
      assert ([s[0]] + collapsed)[|collapsed|] == collapsed[|collapsed| - 1];
    } else if |s| > 1 {
      assert s[1..][|s| - 2] == ' ';
    }
  }

  /** Unfolds `Unspaced` once on a byte in front. */
  lemma {:induction false} UnspacedCons(c: byte, x: bytes)
    ensures Unspaced([c] + x) == if c == ' ' then Unspaced(x) else [c] + Unspaced(x)
  {
    assert ([c] + x)[1..] == x;
  }

  /** Collapsing adds no byte: word bytes and spaces stay word bytes and
      spaces. */
  lemma {:induction false} CollapseKeepsWordsAndSpaces(s: bytes)
    requires WordsAndSpaces(s)
    ensures WordsAndSpaces(CollapseSpaces(s))
    decreases |s|
  {
    if |s| > 0 {
      var tail := if s[0] == ' ' then SkipSpaces(s[1..]) else s[1..];
      assert tail == s[|s| - |tail|..];
      SuffixKeepsWordsAndSpaces(s, |s| - |tail|);
      CollapseKeepsWordsAndSpaces(tail);
      assert CollapseSpaces(s) == [s[0]] + CollapseSpaces(tail);
      ConsKeepsWordsAndSpaces(s[0], CollapseSpaces(tail));
    }
  }

  lemma {:induction false} SuffixKeepsWordsAndSpaces(s: bytes, n: nat)
    requires WordsAndSpaces(s) && n <= |s|
    ensures WordsAndSpaces(s[n..])
  {
    assert forall i | 0 <= i < |s| - n :: s[n..][i] == s[n + i];
  }

  lemma {:induction false} ConsKeepsWordsAndSpaces(c: byte, x: bytes)
    requires IsWordByte(c) || c == ' '
    requires WordsAndSpaces(x)
    ensures WordsAndSpaces([c] + x)
  {
    assert forall i | 1 <= i < |x| + 1 :: ([c] + x)[i] == x[i - 1];
  }

  /** Collapsing changes nothing in a text without double spaces. */
  lemma {:induction false} CollapseOfCollapsed(s: bytes)
    requires NoDoubleSpace(s)
    ensures CollapseSpaces(s) == s
  {
    if |s| > 0 {
      assert NoDoubleSpace(s[1..]) by {
        forall i | 0 <= i < |s[1..]| - 1 ensures !(s[1..][i] == ' ' && s[1..][i + 1] == ' ') {
          assert s[1..][i] == s[i + 1] && s[1..][i + 1] == s[i + 2];
        }
      }
      CollapseOfCollapsed(s[1..]);
      if s[0] == ' ' {
        assert SkipSpaces(s[1..]) == s[1..];
      }
    }
  }

  /** The first `MaxTextLength` bytes of the text with a newline appended. */
  function CutOf(c: bytes): (t: bytes)
    ensures |t| == if |c| + 1 < MaxTextLength then |c| + 1 else MaxTextLength
    ensures t == (c + "\n")[..|t|]
  {
    var terminated := c + "\n";
    terminated[..if |terminated| < MaxTextLength then |terminated| else MaxTextLength]
  }

  /** The last steps of the normalisation: append a newline, keep the first
      1000 characters, trim. The bytes are ASCII here, so the multibyte cut
      equals a byte cut. */
  function FinishText(c: bytes): (r: bytes)
    ensures |r| <= MaxTextLength
  {
    Trim(CutOf(c))
  }

  /** How much of a text survives the cut: all of it below the limit. */
  function CutLength(c: bytes): (n: nat)
    ensures n <= |c| && n <= MaxTextLength
    ensures n == |c| || n == MaxTextLength
  {
    if |c| < MaxTextLength then |c| else MaxTextLength
  }

  /** The cut text agrees with the text up to the cut; past it there is
      only the newline. */
  lemma {:induction false} CutAgrees(c: bytes)
    ensures CutLength(c) <= |CutOf(c)|
    ensures forall k | 0 <= k < CutLength(c) :: CutOf(c)[k] == c[k]
    ensures forall k | CutLength(c) <= k < |CutOf(c)| :: CutOf(c)[k] == '\n'
  {
    var t := CutOf(c);
    forall k | 0 <= k < |t| ensures t[k] == (c + "\n")[k] {
    }
  }

  /** Finishing leaves a slice of the first `MaxTextLength` bytes of the
      words-and-spaces text itself, with only spaces cut away around it: the
      newline is always trimmed away, and nothing is left exactly when those
      bytes are all spaces. */
  lemma {:induction false} FinishIsSlice(c: bytes)
    requires WordsAndSpaces(c)
    ensures var r := FinishText(c); var n := CutLength(c);
      (r == [] <==> forall k | 0 <= k < n :: c[k] == ' ')
      && (|r| > 0 ==>
            var l := TrimLeftCount(CutOf(c));
            l + |r| <= n && r == c[l..l + |r|]
            && (forall k | 0 <= k < l :: c[k] == ' ')
            && (forall k | l + |r| <= k < n :: c[k] == ' '))
  {
    var t := CutOf(c);
    var r := Trim(t);
    var l := TrimLeftCount(t);
    var n := CutLength(c);
    CutAgrees(c);
    forall k | 0 <= k < n && IsTrimmable(t[k]) ensures c[k] == ' ' {
      assert IsWordByte(c[k]) || c[k] == ' ';
    }
    if |r| > 0 {
      assert !IsTrimmable(t[l + |r| - 1]);
      assert l + |r| <= n;
      assert t[l..l + |r|] == c[l..l + |r|];
      assert !IsTrimmable(t[l]);
    } else {
      assert forall k | 0 <= k < n :: IsTrimmable(t[k]);
    }
  }

  /** A slice of a text without double spaces has none either. */
  lemma {:induction false} SliceKeepsNormalForm(c: bytes, l: nat, n: nat)
    requires WordsAndSpaces(c) && NoDoubleSpace(c) && l + n <= |c|
    ensures WordsAndSpaces(c[l..l + n]) && NoDoubleSpace(c[l..l + n])
  {
    var r := c[l..l + n];
    assert forall i | 0 <= i < n :: r[i] == c[l + i];
  }

  /** Finishing a collapsed words-and-spaces text gives a normalised text. */
  lemma {:induction false} FinishNormalizes(c: bytes)
    requires WordsAndSpaces(c) && NoDoubleSpace(c)
    ensures Normalized(FinishText(c))
  {
    var r := FinishText(c);
    FinishIsSlice(c);
    if |r| > 0 {
      SliceKeepsNormalForm(c, TrimLeftCount(CutOf(c)), |r|);
    }
  }

  /** The file contents for one text (`shortenAndNormalizeText`): newlines
      become spaces, tags are stripped (`stripTags` stands for PHP's
      `strip_tags`), every non-word byte becomes a space, space runs shrink
      to one space, and `FinishText` appends the newline, cuts and trims. */
  function ShortenAndNormalizeText(stripTags: bytes -> bytes, text: bytes): (r: bytes)
    ensures Normalized(r)
    ensures |r| <= MaxTextLength
    ensures var c := CollapseSpaces(BlankNonWord(stripTags(Replace("\n", " ", text))));
      var n := CutLength(c);
      (r == [] <==> forall k | 0 <= k < n :: c[k] == ' ')
      && (|r| > 0 ==>
            var l := TrimLeftCount(CutOf(c));
            l + |r| <= n && r == c[l..l + |r|]
            && (forall k | 0 <= k < l :: c[k] == ' ')
            && (forall k | l + |r| <= k < n :: c[k] == ' '))
  {
    var blanked := BlankNonWord(stripTags(Replace("\n", " ", text)));
    CollapseKeepsWordsAndSpaces(blanked);
    FinishNormalizes(CollapseSpaces(blanked));
    FinishIsSlice(CollapseSpaces(blanked));
    FinishText(CollapseSpaces(blanked))
  }

  /** Nothing but spaces is lost from a text short enough not to be cut. */
  lemma {:induction false} NormalizeKeepsShortText(stripTags: bytes -> bytes, text: bytes)
    requires |CollapseSpaces(BlankNonWord(stripTags(Replace("\n", " ", text))))| < MaxTextLength
    ensures Unspaced(ShortenAndNormalizeText(stripTags, text))
         == Unspaced(BlankNonWord(stripTags(Replace("\n", " ", text))))
  {
    var blanked := BlankNonWord(stripTags(Replace("\n", " ", text)));
    CollapseKeepsContent(blanked);
    CollapseKeepsWordsAndSpaces(blanked);
    ShortTextKeepsContent(CollapseSpaces(blanked));
  }

  lemma {:induction false} UnspacedAround(a: bytes, m: bytes, b: bytes)
    requires forall k | 0 <= k < |a| :: a[k] == ' '
    requires forall k | 0 <= k < |b| :: b[k] == ' '
    ensures Unspaced(a + m + b) == Unspaced(m)
  {
    UnspacedOfSpaces(a);
    UnspacedOfSpaces(b);
    UnspacedAppend(a + m, b);
    UnspacedAppend(a, m);
  }

  /** Spaces around a text do not count. */
  lemma {:induction false} UnspacedPadded(c: bytes, l: nat, n: nat)
    requires l + n <= |c|
    requires forall k | 0 <= k < l :: c[k] == ' '
    requires forall k | l + n <= k < |c| :: c[k] == ' '
    ensures Unspaced(c) == Unspaced(c[l..l + n])
  {
    var a, m, b := c[..l], c[l..l + n], c[l + n..];
    assert c == a + m + b;
    forall k | 0 <= k < |a| ensures a[k] == ' ' {
      assert a[k] == c[k];
    }
    forall k | 0 <= k < |b| ensures b[k] == ' ' {
      assert b[k] == c[l + n + k];
    }
    UnspacedAround(a, m, b);
  }

  /** A text short enough not to be cut loses only spaces to finishing. */
  lemma {:induction false} ShortTextKeepsContent(c: bytes)
    requires WordsAndSpaces(c) && |c| < MaxTextLength
    ensures Unspaced(FinishText(c)) == Unspaced(c)
  {
    var r := FinishText(c);
    FinishIsSlice(c);
    if |r| > 0 {
      UnspacedPadded(c, TrimLeftCount(CutOf(c)), |r|);
    } else {
      UnspacedOfSpaces(c);
    }
  }

  /** Finishing a normalised text of at most 1000 bytes gives it back. */
  lemma {:induction false} FinishOfNormalized(s: bytes)
    requires Normalized(s) && |s| <= MaxTextLength
    ensures FinishText(s) == s
  {
    var cut := CutOf(s);
    assert cut[..|s|] == s;
    var r := Trim(cut);
    FinishIsSlice(s);
    if |s| > 0 {
      assert !IsTrimmable(cut[0]);
      assert TrimLeftCount(cut) == 0;
      assert !IsTrimmable(cut[|s| - 1]);
    }
  }

  /** A normalised text that `strip_tags` leaves alone is its own
      normalisation. */
  lemma {:induction false} NormalizedIsFixpoint(stripTags: bytes -> bytes, s: bytes)
    requires Normalized(s) && |s| <= MaxTextLength && stripTags(s) == s
    ensures ShortenAndNormalizeText(stripTags, s) == s
  {
    assert !Contains(s, "\n") by {
      forall k | 0 <= k <= |s| - 1 ensures !OccursAt(s, "\n", k) {
        assert s[k..k + 1][0] == s[k];
      }
    }
    ReplaceAbsent("\n", " ", s);
    assert BlankNonWord(s) == s;
    CollapseOfCollapsed(s);
    FinishOfNormalized(s);
  }

  /** Normalising twice is normalising once, given that `strip_tags` leaves
      normalised text (no tags in it) alone. */
  lemma {:induction false} NormalizeIdempotent(stripTags: bytes -> bytes, text: bytes)
    requires stripTags(ShortenAndNormalizeText(stripTags, text)) == ShortenAndNormalizeText(stripTags, text)
    ensures ShortenAndNormalizeText(stripTags, ShortenAndNormalizeText(stripTags, text)) == ShortenAndNormalizeText(stripTags, text)
  {
    NormalizedIsFixpoint(stripTags, ShortenAndNormalizeText(stripTags, text));
  }
}

=== FILE: php_arrays.dfy ===
/** PHP's ordered arrays as association lists, with the array functions the
    repository uses: key lookup, `$a[$k] = $v`, `array_search`,
    `array_unique` and `array_values`. */
module PhpArrays {
  import opened Wrappers
  import opened Bytes

  /** An ordered PHP array: its entries in iteration order. */
  type Assoc<K, V> = seq<(K, V)>

  /** PHP arrays never hold a key twice. */
  predicate DistinctKeys<K(==), V>(a: Assoc<K, V>) {
    forall i, j | 0 <= i < j < |a| :: a[i].0 != a[j].0
  }

  predicate DistinctValues<K, V(==)>(a: Assoc<K, V>) {
    forall i, j | 0 <= i < j < |a| :: a[i].1 != a[j].1
  }

  predicate NoDuplicates<T(==)>(s: seq<T>) {
    forall i, j | 0 <= i < j < |s| :: s[i] != s[j]
  }

  /** `$a[$k] ?? null`. */
  function Get<K(==), V>(a: Assoc<K, V>, k: K): (r: Option<V>)
    ensures r.Some? <==> exists i | 0 <= i < |a| :: a[i].0 == k
    ensures r.Some? ==> (k, r.value) in a
    ensures r.Some? && DistinctKeys(a) ==> forall i | 0 <= i < |a| && a[i].0 == k :: a[i].1 == r.value
  {
    if |a| == 0 then None
    else if a[0].0 == k then Some(a[0].1)
    else
      var r := Get(a[1..], k);
      assert forall i | 1 <= i < |a| :: a[i] == a[1..][i - 1];
      r
  }

  /** Index of the entry stored under `k`. */
  function KeyIndex<K(==), V>(a: Assoc<K, V>, k: K): (r: Option<nat>)
    ensures r.Some? ==> r.value < |a| && a[r.value].0 == k
    ensures forall j | 0 <= j < |a| && (r.None? || j < r.value) :: a[j].0 != k
  {
    if |a| == 0 then None
    else if a[0].0 == k then Some(0)
    else
      match KeyIndex(a[1..], k)
      case None => None
      case Some(i) => Some(i + 1)
  }

  /** `$a[$k] = $v`: an existing key keeps its position and takes the new
      value, a new key goes last. */
  function Put<K(==), V>(a: Assoc<K, V>, k: K, v: V): (r: Assoc<K, V>)
    ensures KeyIndex(a, k).Some? ==> r == a[KeyIndex(a, k).value := (k, v)]
    ensures KeyIndex(a, k).None? ==> r == a + [(k, v)]
  {
    match KeyIndex(a, k)
    case Some(i) => a[i := (k, v)]
    case None => a + [(k, v)]
  }

  /** After `$a[$k] = $v` the key reads back `v`, no other key changes, and
      keys stay distinct. */
  lemma {:induction false} PutGet<K, V>(a: Assoc<K, V>, k: K, v: V)
    requires DistinctKeys(a)
    ensures Get(Put(a, k, v), k) == Some(v)
    ensures forall i | 0 <= i < |a| && a[i].0 != k :: Get(Put(a, k, v), a[i].0) == Some(a[i].1)
    ensures DistinctKeys(Put(a, k, v))
  {
    var r := Put(a, k, v);
    var idx := if KeyIndex(a, k).Some? then KeyIndex(a, k).value else |a|;
    assert r[idx] == (k, v);
    assert DistinctKeys(r);
    var g := Get(r, k);
    assert g.Some?;
    forall i | 0 <= i < |a| && a[i].0 != k
      ensures Get(r, a[i].0) == Some(a[i].1)
    {
      assert r[i] == a[i];
      var g := Get(r, a[i].0);
      assert g.Some?;
    }
  }

  /** Index of the first entry, in array order, whose value is `v`. */
  function FirstIndexOfValue<K, V(==)>(a: Assoc<K, V>, v: V): (r: Option<nat>)
    ensures r.Some? ==> r.value < |a| && a[r.value].1 == v
    ensures forall j | 0 <= j < |a| && (r.None? || j < r.value) :: a[j].1 != v
  {
    if |a| == 0 then None
    else if a[0].1 == v then Some(0)
    else
      match FirstIndexOfValue(a[1..], v)
      case None => None
      case Some(i) => Some(i + 1)
  }

  /** PHP's `array_search($v, $a)`: the key of the first entry whose value is `v`. */
  function ArraySearch<K, V(==)>(a: Assoc<K, V>, v: V): (r: Option<K>)
    ensures r.None? <==> forall j | 0 <= j < |a| :: a[j].1 != v
    ensures r.Some? ==> exists i | 0 <= i < |a| :: a[i] == (r.value, v) && forall j | 0 <= j < i :: a[j].1 != v
  {
    match FirstIndexOfValue(a, v)
    case None => None
    case Some(i) => Some(a[i].0)
  }

  /** Index of the first occurrence of `x`. */
  function FirstIndex<T(==)>(s: seq<T>, x: T): (i: nat)
    requires x in s
    ensures i < |s| && s[i] == x && x !in s[..i]
  {
    if s[0] == x then 0 else 1 + FirstIndex(s[1..], x)
  }

  lemma {:induction false} FirstIndexOfPrefix<T>(s: seq<T>, n: nat, x: T)
    requires n <= |s| && x in s[..n]
    ensures FirstIndex(s, x) == FirstIndex(s[..n], x)
  {
    var i := FirstIndex(s[..n], x);
    var j := FirstIndex(s, x);
    assert s[..n][..i] == s[..i];
    assert s[..n][i] == s[i];
  }

  /** `array_values(array_unique($s))`: the first occurrence of each value, in
      order, re-indexed from 0. */
  function Unique<T(==)>(s: seq<T>): (r: seq<T>)
    ensures forall x | x in r :: x in s
    ensures forall x | x in s :: x in r
    ensures NoDuplicates(r)
  {
    if |s| == 0 then []
    else
      var n := |s| - 1;
      var init := Unique(s[..n]);
      assert forall x | x in s :: x in s[..n] || x == s[n] by {
        assert s == s[..n] + [s[n]];
      }
      if s[n] in init then init else init + [s[n]]
  }

  /** `array_unique` keeps the values in the order of their first
      occurrences. */
  lemma {:induction false} UniqueKeepsFirstOrder<T>(s: seq<T>)
    ensures forall i, j | 0 <= i < j < |Unique(s)| :: FirstIndex(s, Unique(s)[i]) < FirstIndex(s, Unique(s)[j])
  {
    if |s| > 0 {
      var n := |s| - 1;
      UniqueKeepsFirstOrder(s[..n]);
      var init := Unique(s[..n]);
      forall y | y in init ensures FirstIndex(s, y) == FirstIndex(s[..n], y) {
        FirstIndexOfPrefix(s, n, y);
      }
      if s[n] !in init {
        assert s[n] !in s[..n];
        assert FirstIndex(s, s[n]) == n;
      }
    }
  }

  /** `array_unique` on a keyed array: keeps, for each value, the first entry
      carrying it, with its key, in array order. */
  function UniqueByValue<K, V(==)>(a: Assoc<K, V>): (r: Assoc<K, V>)
    ensures |r| <= |a|
  {
    if |a| == 0 then []
    else
      var init := UniqueByValue(a[..|a| - 1]);
      if exists j | 0 <= j < |init| :: init[j].1 == a[|a| - 1].1 then init
      else init + [a[|a| - 1]]
  }

  /** `array_unique` keeps only entries of the array. */
  lemma {:induction false} UniqueByValueSubset<K, V>(a: Assoc<K, V>)
    ensures forall e | e in UniqueByValue(a) :: e in a
  {
    if |a| == 0 { return; }
    var n := |a| - 1;
    UniqueByValueSubset(a[..n]);
    var init := UniqueByValue(a[..n]);
    forall e | e in init ensures e in a {
      assert e in a[..n];
    }
  }

  /** `array_unique` leaves one entry per value and loses no value. */
  lemma {:induction false} UniqueByValueDistinct<K, V>(a: Assoc<K, V>)
    ensures DistinctValues(UniqueByValue(a))
    ensures forall i | 0 <= i < |a| :: exists j | 0 <= j < |UniqueByValue(a)| :: UniqueByValue(a)[j].1 == a[i].1
  {
    if |a| == 0 { return; }
    var n := |a| - 1;
    UniqueByValueDistinct(a[..n]);
    var init := UniqueByValue(a[..n]);
    var r := UniqueByValue(a);
    forall i | 0 <= i < n ensures exists j | 0 <= j < |init| :: init[j].1 == a[i].1 {
      assert a[i] == a[..n][i];
    }
    if exists j | 0 <= j < |init| :: init[j].1 == a[n].1 {
      assert r == init;
    } else {
      assert r == init + [a[n]];
    }
    forall i | 0 <= i < |a| ensures exists j | 0 <= j < |r| :: r[j].1 == a[i].1 {
      if i < n {
        var w :| 0 <= w < |init| && init[w].1 == a[i].1;
        assert r[w] == init[w];
      } else if r == init {
        var w :| 0 <= w < |init| && init[w].1 == a[n].1;
        assert r[w] == init[w];
      } else {
        assert r[|init|] == a[n];
      }
    }
    assert r == UniqueByValue(a);
  }

  /** The entry `array_unique` keeps for a value is the first one carrying it,
      so its key is the one `array_search` returns. */
  lemma {:induction false} UniqueByValueKeepsFirst<K, V>(a: Assoc<K, V>)
    ensures forall j | 0 <= j < |UniqueByValue(a)| :: ArraySearch(a, UniqueByValue(a)[j].1) == Some(UniqueByValue(a)[j].0)
  {
    if |a| == 0 { return; }
    var n := |a| - 1;
    UniqueByValueKeepsFirst(a[..n]);
    UniqueByValueDistinct(a[..n]);
    var init := UniqueByValue(a[..n]);
    var r := UniqueByValue(a);
    forall j | 0 <= j < |init| ensures ArraySearch(a, init[j].1) == Some(init[j].0) {
      SearchOfPrefix(a, n, init[j].1);
    }
    if exists j | 0 <= j < |init| :: init[j].1 == a[n].1 {
      assert r == init;
    } else {
      assert r == init + [a[n]];
      forall j | 0 <= j < n ensures a[j].1 != a[n].1 {
        assert a[j] == a[..n][j];
      }
      var f := FirstIndexOfValue(a, a[n].1);
      assert f == Some(n);
    }
  }

  /** Searching a prefix that already holds `v` finds the same key. */
  lemma {:induction false} SearchOfPrefix<K, V>(a: Assoc<K, V>, n: nat, v: V)
    requires n <= |a|
    requires ArraySearch(a[..n], v).Some?
    ensures ArraySearch(a, v) == ArraySearch(a[..n], v)
  {
    var i := FirstIndexOfValue(a[..n], v).value;
    assert a[..n][i] == a[i];
    var j := FirstIndexOfValue(a, v);
    assert forall k | 0 <= k < i :: a[k] == a[..n][k];
  }

  /** `unset($a[$k])`: every entry except the one under `k`, in order. */
  function Remove<K(==), V>(a: Assoc<K, V>, k: K): (r: Assoc<K, V>)
    ensures |r| <= |a|
    ensures forall e | e in r :: e in a && e.0 != k
    ensures forall e | e in a && e.0 != k :: e in r
  {
    if |a| == 0 then []
    else
      var rest := Remove(a[1..], k);
      assert forall e | e in a && e != a[0] :: e in a[1..];
      (if a[0].0 == k then [] else [a[0]]) + rest
  }

  /** Removing a key that is not there changes nothing. */
  lemma {:induction false} RemoveAbsent<K, V>(a: Assoc<K, V>, k: K)
    requires forall i | 0 <= i < |a| :: a[i].0 != k
    ensures Remove(a, k) == a
  {
    if |a| > 0 {
      RemoveAbsent(a[1..], k);
      assert [a[0]] + a[1..] == a;
    }
  }

  /** Removing the key of the first entry, when no other entry has it. */
  lemma {:induction false} RemoveFirst<K, V>(a: Assoc<K, V>)
    requires |a| > 0 && forall i | 1 <= i < |a| :: a[i].0 != a[0].0
    ensures Remove(a, a[0].0) == a[1..]
  {
    RemoveAbsent(a[1..], a[0].0);
  }

  /** `unset` works piecewise on a concatenation. */
  lemma {:induction false} RemoveAppend<K, V>(a: Assoc<K, V>, b: Assoc<K, V>, k: K)
    ensures Remove(a + b, k) == Remove(a, k) + Remove(b, k)
  {
    if |a| > 0 {
      assert (a + b)[1..] == a[1..] + b;
      RemoveAppend(a[1..], b, k);
    } else {
      assert a + b == b;
    }
  }

  /** `unset` keeps the keys distinct. */
  lemma {:induction false} RemoveKeepsDistinct<K, V>(a: Assoc<K, V>, k: K)
    requires DistinctKeys(a)
    ensures DistinctKeys(Remove(a, k))
  {
    if |a| > 0 {
      RemoveKeepsDistinct(a[1..], k);
      var rest := Remove(a[1..], k);
      forall e | e in rest ensures e.0 != a[0].0 {
        var i :| 0 <= i < |a[1..]| && a[1..][i] == e;
        assert a[i + 1] == e;
      }
    }
  }

  /** After `$a[$k] = $v` exactly the keys of `a` and `k` are set. */
  lemma {:induction false} PutHasKey<K, V>(a: Assoc<K, V>, k: K, v: V, x: K)
    ensures Get(Put(a, k, v), x).Some? <==> x == k || Get(a, x).Some?
  {
    var r := Put(a, k, v);
    var idx := if KeyIndex(a, k).Some? then KeyIndex(a, k).value else |a|;
    assert r[idx].0 == k;
    if Get(r, x).Some? && x != k {
      var i :| 0 <= i < |r| && r[i].0 == x;
      assert i < |a| && a[i].0 == x;
    }
    if Get(a, x).Some? {
      var i :| 0 <= i < |a| && a[i].0 == x;
      assert r[i].0 == x;
    }
  }

  /** After `unset($a[$k])` a key is set only if it was set and is not `k`. */
  lemma {:induction false} RemoveHasKey<K, V>(a: Assoc<K, V>, k: K, x: K)
    ensures Get(Remove(a, k), x).Some? ==> x != k && Get(a, x).Some?
  {
    if Get(Remove(a, k), x).Some? {
      var e := (x, Get(Remove(a, k), x).value);
      assert e in a;
      var i :| 0 <= i < |a| && a[i] == e;
      assert a[i].0 == x;
    }
  }

  /** The values `array_filter` keeps from a list of strings, in order:
      every entry except "" and "0". */
  function FilterNonEmpty(s: seq<bytes>): (r: seq<bytes>)
    ensures |r| <= |s|
    ensures forall i | 0 <= i < |r| :: !PhpEmpty(r[i]) && r[i] in s
    ensures forall i | 0 <= i < |s| && !PhpEmpty(s[i]) :: s[i] in r
  {
    if |s| == 0 then []
    else
      var rest := FilterNonEmpty(s[1..]);
      assert forall i | 1 <= i < |s| :: s[i] == s[1..][i - 1];
      if PhpEmpty(s[0]) then rest else [s[0]] + rest
  }

  /** Filtering keeps the order: the first kept entry is the first non-empty
      one. */
  lemma {:induction false} FilterNonEmptyHead(s: seq<bytes>, k: nat)
    requires k < |s| && !PhpEmpty(s[k])
    requires forall i | 0 <= i < k :: PhpEmpty(s[i])
    ensures |FilterNonEmpty(s)| > 0 && FilterNonEmpty(s)[0] == s[k]
  {
    if k > 0 {
      FilterNonEmptyHead(s[1..], k - 1);
    }
  }
}

=== FILE: polyglot.dfy ===
/** `Polyglot`: the language of a single text. The text is written to an
    input file, polyglot runs on it, and the first row that parses names
    the language. `getBulkLanguageInformation` hands over to
    `PolyglotBulkDetection.Detect` unchanged. */
module Polyglot {
  import opened Wrappers
  import opened Bytes
  import opened Dto
  import opened LocaleLanguages
  import opened IsoLanguageCodes
  import opened PolyglotFiles
  import opened PolyglotResultParser
  import opened PolyglotHealth
  import opened TextNormalization
  import opened PolyglotBulkDetection

  /** `languageDetectionCommand`: both health checks first (their exceptions
      escape), then the detection of one file with the errors muted. Unlike
      the bulk command there is no extra space before the muting. */
  function LanguageDetectionCommand(h: Health, path: bytes): (r: Result<bytes, HealthError>)
    ensures r.Failure? <==> CheckHealth(h).Some?
    ensures r.Failure? ==> r.error == CheckHealth(h).value
    ensures r.Success? ==>
      |r.value| == |DetectPrefix| + |path| + |ErrorMuting|
      && r.value[..|DetectPrefix|] == DetectPrefix
      && r.value[|DetectPrefix|..|DetectPrefix| + |path|] == path
      && r.value[|DetectPrefix| + |path|..] == ErrorMuting
  {
    match CheckHealth(h)
    case Some(e) => Failure(e)
    case None => Success(DetectPrefix + path + ErrorMuting)
  }

  /** `substr($s, 0, MAX_TEXT_LENGTH)`: the first 1000 bytes. */
  function ShortText(s: bytes): (r: bytes)
    ensures |r| <= MaxTextLength && |r| <= |s| && r == s[..|r|]
    ensures |s| <= MaxTextLength ==> r == s
  {
    if |s| <= MaxTextLength then s else s[..MaxTextLength]
  }

  /** The languages of the rows that parse, in row order. */
  function DetectedLanguages(rows: seq<bytes>): (langs: seq<bytes>)
    ensures |langs| <= |rows|
    ensures forall i | 0 <= i < |langs| :: !PhpEmpty(langs[i])
    ensures |langs| == 0 <==> forall i | 0 <= i < |rows| :: GetLanguageFromDetectionResultRow(rows[i]).None?
  {
    LanguagesOf(ParsedRows(rows))
  }

  /** Each row run through the row parser. */
  function ParsedRows(rows: seq<bytes>): (parsed: seq<Option<StringDetectionResult>>)
    ensures |parsed| == |rows|
    ensures forall i | 0 <= i < |rows| :: parsed[i] == GetLanguageFromDetectionResultRow(rows[i])
  {
    seq(|rows|, i requires 0 <= i < |rows| => GetLanguageFromDetectionResultRow(rows[i]))
  }

  /** The languages of the parsed rows, in order. */
  function LanguagesOf(parsed: seq<Option<StringDetectionResult>>): (langs: seq<bytes>)
    requires forall i | 0 <= i < |parsed| && parsed[i].Some? :: !PhpEmpty(parsed[i].value.language)
    ensures |langs| <= |parsed|
    ensures forall i | 0 <= i < |langs| :: !PhpEmpty(langs[i])
    ensures |langs| == 0 <==> forall i | 0 <= i < |parsed| :: parsed[i].None?
  {
    if |parsed| == 0 then []
    else
      assert forall i | 1 <= i < |parsed| :: parsed[i] == parsed[1..][i - 1];
      var rest := LanguagesOf(parsed[1..]);
      if parsed[0].None? then rest else [parsed[0].value.language] + rest
  }

  /** The first language is that of the first row that parses. */
  lemma {:induction false} FirstDetectedLanguage(rows: seq<bytes>, k: nat)
    requires k < |rows| && GetLanguageFromDetectionResultRow(rows[k]).Some?
    requires forall i | 0 <= i < k :: GetLanguageFromDetectionResultRow(rows[i]).None?
    ensures |DetectedLanguages(rows)| > 0
    ensures DetectedLanguages(rows)[0] == GetLanguageFromDetectionResultRow(rows[k]).value.language
  {
    FirstLanguageOf(ParsedRows(rows), k);
  }

  lemma {:induction false} FirstLanguageOf(parsed: seq<Option<StringDetectionResult>>, k: nat)
    requires forall i | 0 <= i < |parsed| && parsed[i].Some? :: !PhpEmpty(parsed[i].value.language)
    requires k < |parsed| && parsed[k].Some?
    requires forall i | 0 <= i < k :: parsed[i].None?
    ensures |LanguagesOf(parsed)| > 0 && LanguagesOf(parsed)[0] == parsed[k].value.language
  {
    if k > 0 {
      FirstLanguageOf(parsed[1..], k - 1);
    }
  }

  /** A DTO of the single-text path: names, codes and the unique id are set;
      the text is not. */
  predicate SingleFoundFor(d: LanguageInformation, uniqueId: bytes) {
    d.uniqueId == Set(uniqueId) && d.text.Unset?
    && d.languageName.Set? && d.languageName.value.Some? && !PhpEmpty(d.languageName.value.value)
    && d.twoDigitLanguageCode.Set? && !PhpEmpty(d.twoDigitLanguageCode.value)
    && d.threeDigitLanguageCode == Set(GetThreeDigitForTwoDigit(d.twoDigitLanguageCode.value))
    && d.mentionedLanguages == []
  }

  /** What one single-text run leaves behind: the memo, the input file
      written (path, contents), whether the file was unlinked, and the DTO
      (None for `null`) or the exception. */
  datatype SingleRun = SingleRun(
    cache: Cache,
    file: (bytes, bytes),
    removed: bool,
    result: Result<Option<LanguageInformation>, DetectionError>)

  /** `getLanguageInformation`: the unique id (`uniqid()`) is a parameter.
      The input file is unlinked only on the path that returns a DTO; when no
      row parses, no locale matches or an exception escapes, it stays. */
  function GetLanguageInformation(env: Environment, cache: Cache, uniqueId: bytes, text: bytes): (run: SingleRun)
    ensures run.file.0 == InputFilePath(uniqueId)
    ensures |run.file.1| <= MaxTextLength && |run.file.1| <= |env.stripTags(text)|
      && run.file.1 == env.stripTags(text)[..|run.file.1|]
    ensures run.removed <==> run.result.Success? && run.result.value.Some?
    ensures CheckHealth(env.health).Some? ==> run.result == Failure(Unhealthy(CheckHealth(env.health).value))
    ensures run.result.Success? && run.result.value.Some? ==> SingleFoundFor(run.result.value.value, uniqueId)
    ensures run.result.Failure? ==> run.result.error.Unhealthy? || run.result.error.CatalogueFailure?
  {
    var file := (InputFilePath(uniqueId), ShortText(env.stripTags(text)));
    match LanguageDetectionCommand(env.health, file.0)
    case Failure(e) => SingleRun(cache, file, false, Failure(Unhealthy(e)))
    case Success(command) =>
      var languages := DetectedLanguages(OutputRows(env.run(command)));
      if |languages| == 0 then SingleRun(cache, file, false, Success(None))
      else
        var c := ConvertLanguageNameToLocale(env.catalog, cache, languages[0], "en");
        match c.result
        case Failure(e) => SingleRun(c.cache, file, false, Failure(CatalogueFailure(e)))
        case Success(code) =>
          if PhpEmpty(code) then SingleRun(c.cache, file, false, Success(None))
          else
            SingleRun(c.cache, file, true, Success(Some(SingleDto(languages[0], code, uniqueId))))
  }

  /** The DTO filled in for a language and its locale code. */
  function SingleDto(language: bytes, code: bytes, uniqueId: bytes): (d: LanguageInformation)
    requires !PhpEmpty(language) && !PhpEmpty(code)
    ensures SingleFoundFor(d, uniqueId)
    ensures d.languageName == Set(Some(language)) && d.twoDigitLanguageCode == Set(code)
  {
    var d := SetLanguageName(NewLanguageInformation, Some(language));
    var d := SetTwoDigitLanguageCode(d, code);
    var d := SetThreeDigitLanguageCode(d, GetThreeDigitForTwoDigit(code));
    SetUniqueId(d, uniqueId)
  }

  /** The output rows of the single-text command on a healthy install. */
  function SingleRows(env: Environment, uniqueId: bytes): seq<bytes>
    requires CheckHealth(env.health).None?
  {
    OutputRows(env.run(LanguageDetectionCommand(env.health, InputFilePath(uniqueId)).value))
  }

  /** Once a row parses, the outcome is decided by the English locale code of
      the first parsed row's language: a catalogue failure escapes, an empty
      code ("" or "0") gives `null` and leaves the input file in place, and
      any other code gives the DTO for that language and code, and the input
      file is unlinked. */
  lemma {:induction false} SingleUsesFirstParsedRow(env: Environment, cache: Cache, uniqueId: bytes, text: bytes, k: nat)
    requires CheckHealth(env.health).None?
    requires k < |SingleRows(env, uniqueId)|
    requires GetLanguageFromDetectionResultRow(SingleRows(env, uniqueId)[k]).Some?
    requires forall i | 0 <= i < k :: GetLanguageFromDetectionResultRow(SingleRows(env, uniqueId)[i]).None?
    ensures var language := GetLanguageFromDetectionResultRow(SingleRows(env, uniqueId)[k]).value.language;
      var c := ConvertLanguageNameToLocale(env.catalog, cache, language, "en");
      var run := GetLanguageInformation(env, cache, uniqueId, text);
      run.cache == c.cache
      && (c.result.Failure? ==> run.result == Failure(CatalogueFailure(c.result.error)) && !run.removed)
      && (c.result.Success? && PhpEmpty(c.result.value) ==> run.result == Success(None) && !run.removed)
      && (c.result.Success? && !PhpEmpty(c.result.value) ==>
            run.result == Success(Some(SingleDto(language, c.result.value, uniqueId))) && run.removed)
  {
    FirstDetectedLanguage(SingleRows(env, uniqueId), k);
  }

  /** No parsable row means `null`, and the input file is left behind. */
  lemma {:induction false} NoParsedRowGivesNull(env: Environment, cache: Cache, uniqueId: bytes, text: bytes)
    requires CheckHealth(env.health).None?
    requires forall i | 0 <= i < |SingleRows(env, uniqueId)| :: GetLanguageFromDetectionResultRow(SingleRows(env, uniqueId)[i]).None?
    ensures GetLanguageInformation(env, cache, uniqueId, text) ==
      SingleRun(cache, (InputFilePath(uniqueId), ShortText(env.stripTags(text))), false, Success(None))
  {
    assert |DetectedLanguages(SingleRows(env, uniqueId))| == 0;
  }
}

=== FILE: polyglot_files.dfy ===
/** `PolyglotFilesHandler`: where the texts handed to the polyglot command
    line tool are written. */
module PolyglotFiles {
  import opened Wrappers
  import opened Bytes

  const InputFolder: bytes := "/tmp/polyglot/"

  const InputFileExtension: bytes := "txt"

  /** `getInputFilePath`: `<folder><name>.<extension>`. */
  function InputFilePath(fileName: bytes): (r: bytes)
    ensures |r| == |InputFolder| + |fileName| + 1 + |InputFileExtension|
    ensures r[..|InputFolder|] == InputFolder
    ensures r[|InputFolder|..|InputFolder| + |fileName|] == fileName
    ensures r[|r| - 1 - |InputFileExtension|..] == "." + InputFileExtension
  {
    InputFolder + fileName + "." + InputFileExtension
  }

  /** The file name back from a path: the inverse of `InputFilePath`. */
  function FileNameOf(path: bytes): (r: Option<bytes>)
    ensures r.Some? ==> InputFilePath(r.value) == path
  {
    var n := |InputFolder| + 1 + |InputFileExtension|;
    if |path| >= n && path[..|InputFolder|] == InputFolder
       && path[|path| - 1 - |InputFileExtension|..] == "." + InputFileExtension
    then
      var name := path[|InputFolder|..|path| - 1 - |InputFileExtension|];
      assert path == InputFolder + name + "." + InputFileExtension by {
        assert path == path[..|InputFolder|] + name + path[|path| - 1 - |InputFileExtension|..];
      }
      Some(name)
    else None
  }

  /** Every name round-trips through its path, so distinct names (distinct
      unique ids) never share a file. */
  lemma {:induction false} InputFilePathRoundTrip(fileName: bytes)
    ensures FileNameOf(InputFilePath(fileName)) == Some(fileName)
  {
    var p := InputFilePath(fileName);
    assert p[|InputFolder|..|p| - 1 - |InputFileExtension|] == fileName;
  }

  lemma {:induction false} InputFilePathInjective(a: bytes, b: bytes)
    requires InputFilePath(a) == InputFilePath(b)
    ensures a == b
  {
    InputFilePathRoundTrip(a);
    InputFilePathRoundTrip(b);
  }
}

=== FILE: polyglot_health.dfy ===
/** The health checks that run before every polyglot command:
    `Polyglot::isPolyglotInstalled` and `Polyglot::isRunningWithoutIssues`.
    The shell calls they make become inputs: the output of `which polyglot`
    and the output lines of a bare `polyglot` call. */
module PolyglotHealth {
  import opened Wrappers
  import opened Bytes

  /** What the two probe commands printed. `shell_exec` gives null when the
      command prints nothing. */
  datatype Health = Health(whichOutput: Option<bytes>, probeLines: seq<bytes>)

  datatype HealthError =
    | NotInstalled              // `which polyglot` printed nothing (or "0")
    | NotRunning(output: bytes) // the bare call did not complain about its arguments

  /** The message a working polyglot prints when called without arguments. */
  const TooFewArguments: bytes := "Too few arguments"

  /** `isPolyglotInstalled`: `which` printed something non-empty. */
  predicate IsPolyglotInstalled(h: Health) {
    h.whichOutput.Some? && !PhpEmpty(h.whichOutput.value)
  }

  /** `isRunningWithoutIssues`: the output lines, joined by single spaces,
      mention the argument complaint. */
  predicate IsRunningWithoutIssues(h: Health) {
    Contains(Join(" ", h.probeLines), TooFewArguments)
  }

  /** Both checks, in the source's order: the installation check fails first. */
  function CheckHealth(h: Health): (r: Option<HealthError>)
    ensures r.None? <==> IsPolyglotInstalled(h) && IsRunningWithoutIssues(h)
    ensures !IsPolyglotInstalled(h) ==> r == Some(NotInstalled)
    ensures IsPolyglotInstalled(h) && !IsRunningWithoutIssues(h) ==> r == Some(NotRunning(Join(" ", h.probeLines)))
  {
    if !IsPolyglotInstalled(h) then Some(NotInstalled)
    else if !IsRunningWithoutIssues(h) then Some(NotRunning(Join(" ", h.probeLines)))
    else None
  }

  lemma {:induction false} ContainsInfix(a: bytes, b: bytes, c: bytes, needle: bytes)
    requires Contains(b, needle)
    ensures Contains(a + b + c, needle)
  {
    var k :| 0 <= k <= |b| - |needle| && OccursAt(b, needle, k);
    assert (a + b + c)[|a| + k..|a| + k + |needle|] == b[k..k + |needle|];
    assert OccursAt(a + b + c, needle, |a| + k);
  }

  /** A piece of a join is contained in the join. */
  lemma {:induction false} JoinContainsPiece(sep: bytes, pieces: seq<bytes>, i: nat, needle: bytes)
    requires i < |pieces| && Contains(pieces[i], needle)
    ensures Contains(Join(sep, pieces), needle)
  {
    if |pieces| == 1 {
    } else if i == 0 {
      ContainsInfix([], pieces[0], sep + Join(sep, pieces[1..]), needle);
      assert [] + pieces[0] + (sep + Join(sep, pieces[1..])) == Join(sep, pieces);
    } else {
      JoinContainsPiece(sep, pieces[1..], i - 1, needle);
      ContainsInfix(pieces[0] + sep, Join(sep, pieces[1..]), [], needle);
      assert pieces[0] + sep + Join(sep, pieces[1..]) + [] == Join(sep, pieces);
    }
  }

  /** A probe line that carries the complaint is enough for the check. */
  lemma {:induction false} LineWithComplaintSuffices(h: Health, i: nat)
    requires i < |h.probeLines| && Contains(h.probeLines[i], TooFewArguments)
    ensures IsRunningWithoutIssues(h)
  {
    JoinContainsPiece(" ", h.probeLines, i, TooFewArguments);
  }

  /** No output at all means polyglot is not running properly. */
  lemma {:induction false} SilentProbeFails(h: Health)
    requires h.probeLines == []
    ensures !IsRunningWithoutIssues(h)
  {
  }
}

=== FILE: result_parser.dfy ===
/** `PolyglotResultParser`: reads one row of the polyglot tool's output, a
    language name and the text it was detected for, separated by a run of
    spaces whose width varies. */
module PolyglotResultParser {
  import opened Wrappers
  import opened Bytes

  /** `StringDetectionResultDto`: the language named by the row and the text
      it was detected for. */
  datatype StringDetectionResult = StringDetectionResult(language: bytes, text: bytes)

  /** The separator starts at this many spaces and grows by one before each
      attempt, so the widths tried are 7 to 31. */
  const MinSplitChars: nat := 6
  const MaxSplitChars: nat := 30

  /** `explode` of the row by a separator of `w` spaces. */
  function Pieces(row: bytes, w: nat): (pieces: seq<bytes>)
    requires w > 0
    ensures |pieces| >= 1
  {
    Explode(Spaces(w), row)
  }

  /** Entry `i` after `array_filter`: gone when it is "" or "0". */
  function Filtered(pieces: seq<bytes>, i: nat): (r: Option<bytes>)
    ensures r.Some? <==> i < |pieces| && !PhpEmpty(pieces[i])
    ensures r.Some? ==> r.value == pieces[i]
  {
    if i < |pieces| && !PhpEmpty(pieces[i]) then Some(pieces[i]) else None
  }

  /** The loop's break: the first width from `w` on at which entry 1 survives
      the filter. */
  function SelectWidth(row: bytes, w: nat): (r: Option<nat>)
    requires w > 0
    ensures r.Some? ==> w <= r.value <= MaxSplitChars + 1 && Filtered(Pieces(row, r.value), 1).Some?
    ensures forall v | w <= v <= MaxSplitChars + 1 && (r.None? || v < r.value) :: Filtered(Pieces(row, v), 1).None?
    decreases MaxSplitChars + 2 - w
  {
    if w > MaxSplitChars + 1 then None
    else if Filtered(Pieces(row, w), 1).Some? then Some(w)
    else SelectWidth(row, w + 1)
  }

  /** `getLanguageFromDetectionResultRow`: null unless some width splits off a
      second entry; otherwise the first entry is the language and the
      trimmed second entry the text, and either being empty gives null. */
  function GetLanguageFromDetectionResultRow(row: bytes): (r: Option<StringDetectionResult>)
    ensures r.Some? ==> !PhpEmpty(r.value.language) && !PhpEmpty(r.value.text)
  {
    match SelectWidth(row, MinSplitChars + 1)
    case None => None
    case Some(w) =>
      var pieces := Pieces(row, w);
      var checked := Trim(pieces[1]);
      if PhpEmpty(pieces[0]) || PhpEmpty(checked) then None
      else Some(StringDetectionResult(pieces[0], checked))
  }

  /** The bytes after the first occurrence of `sep`, up to the next one or to
      the end: the second piece of `explode`, found with `strpos`. */
  function SecondSegment(row: bytes, sep: bytes): bytes
    requires |sep| > 0 && IndexOf(row, sep).Some?
  {
    var rest := row[IndexOf(row, sep).value + |sep|..];
    match IndexOf(rest, sep)
    case None => rest
    case Some(j) => rest[..j]
  }

  /** `language` is the row up to its first run of `w` spaces, and `text` is
      the trimmed segment after that run. */
  predicate Segmented(row: bytes, w: nat, language: bytes, text: bytes)
    requires w > 0
  {
    IndexOf(row, Spaces(w)).Some?
    && language == row[..IndexOf(row, Spaces(w)).value]
    && text == Trim(SecondSegment(row, Spaces(w)))
  }

  /** The first two entries of `explode`, as `strpos` finds them. */
  lemma {:induction false} FirstTwoPieces(row: bytes, sep: bytes)
    requires |sep| > 0 && |Explode(sep, row)| >= 2
    ensures IndexOf(row, sep).Some?
    ensures Explode(sep, row)[0] == row[..IndexOf(row, sep).value]
    ensures Explode(sep, row)[1] == SecondSegment(row, sep)
  {
    var pieces := Explode(sep, row);
    ExplodeHead(sep, row);
    var i := IndexOf(row, sep).value;
    var rest := row[i + |sep|..];
    var tail := Explode(sep, rest);
    assert pieces[1..] == tail;
    assert pieces[1] == tail[0];
    ExplodeHead(sep, rest);
  }

  /** `explode` splits at the first occurrence: entry 0 is the text before
      it, and the remaining entries are the `explode` of the text after it. */
  lemma {:induction false} ExplodeHead(sep: bytes, s: bytes)
    requires |sep| > 0
    ensures IndexOf(s, sep).None? ==> Explode(sep, s) == [s]
    ensures IndexOf(s, sep).Some? ==>
      Explode(sep, s)[0] == s[..IndexOf(s, sep).value]
      && Explode(sep, s)[1..] == Explode(sep, s[IndexOf(s, sep).value + |sep|..])
  {
  }

  /** What a row parses to, stated both ways: the row yields `language` and
      `text` exactly when some width from 7 to 31 splits off a second
      non-empty piece, the first such width cuts the row into `language` and
      (after trimming) `text`, and neither is "" or "0". Everything after the
      second run of spaces is ignored, and a row that starts with the chosen
      run has an empty first piece and gives null. */
  lemma {:induction false} ParsedRowShape(row: bytes, language: bytes, text: bytes)
    ensures GetLanguageFromDetectionResultRow(row) == Some(StringDetectionResult(language, text)) <==>
      SelectWidth(row, MinSplitChars + 1).Some?
      && Segmented(row, SelectWidth(row, MinSplitChars + 1).value, language, text)
      && !PhpEmpty(language) && !PhpEmpty(text)
  {
    var sw := SelectWidth(row, MinSplitChars + 1);
    if sw.Some? {
      var w := sw.value;
      var pieces := Pieces(row, w);
      FirstTwoPieces(row, Spaces(w));
      assert GetLanguageFromDetectionResultRow(row) ==
        if PhpEmpty(pieces[0]) || PhpEmpty(Trim(pieces[1])) then None
        else Some(StringDetectionResult(pieces[0], Trim(pieces[1])));
    }
  }

  /** A parsed row: the text is trimmed, and the language is the row's
      prefix before the first run of the width `SelectWidth` chooses, a run
      it does not contain itself. */
  lemma {:induction false} ParsedLanguageBeforeFirstRun(row: bytes)
    requires GetLanguageFromDetectionResultRow(row).Some?
    ensures SelectWidth(row, MinSplitChars + 1).Some?
    ensures var r := GetLanguageFromDetectionResultRow(row).value;
      var w := SelectWidth(row, MinSplitChars + 1).value;
      !IsTrimmable(r.text[0]) && !IsTrimmable(r.text[|r.text| - 1])
      && |r.language| + w <= |row| && row[..|r.language|] == r.language
      && OccursAt(row, Spaces(w), |r.language|) && !Contains(r.language, Spaces(w))
  {
    var w := SelectWidth(row, MinSplitChars + 1).value;
    FirstPiece(row, Spaces(w));
  }

  /** `array_filter` drops an empty first piece, so a row that starts with
      the run of the chosen width has no language and gives null. */
  lemma {:induction false} LeadingSeparatorGivesNull(row: bytes)
    requires SelectWidth(row, MinSplitChars + 1).Some?
    requires OccursAt(row, Spaces(SelectWidth(row, MinSplitChars + 1).value), 0)
    ensures GetLanguageFromDetectionResultRow(row).None?
  {
    var w := SelectWidth(row, MinSplitChars + 1).value;
    FirstTwoPieces(row, Spaces(w));
  }

  /** Seven leading spaces followed by a piece that survives the filter: the
      seven-space width is chosen and the row gives null. */
  lemma {:induction false} LeadingRunGivesNull(t: bytes)
    requires |t| > 0 && t[0] != ' ' && t[0] != '0'
    ensures GetLanguageFromDetectionResultRow(Spaces(7) + t).None?
  {
    var sep := Spaces(7);
    var row := sep + t;
    assert OccursAt(row, sep, 0) by {
      assert row[..7] == sep;
    }
    assert IndexOf(row, sep) == Some(0);
    assert row[7..] == t;
    assert Pieces(row, 7) == [row[..0]] + Explode(sep, t);
    var p1 := Explode(sep, t)[0];
    assert |p1| > 0 && p1[0] == t[0] by {
      match IndexOf(t, sep)
      case None =>
      case Some(j) =>
        assert j != 0 by {
          assert !OccursAt(t, sep, 0) by {
            assert t[0] != sep[0];
          }
        }
    }
    assert Filtered(Pieces(row, 7), 1).Some?;
    assert SelectWidth(row, MinSplitChars + 1) == Some(7);
    LeadingSeparatorGivesNull(row);
  }

  /** Leading spaces alone do not make a row unparsable: when the piece after
      seven spaces is "0", the filter drops it and a wider run can split the
      row with the spaces inside the language. */
  lemma {:induction false} LeadingRunCanParse()
    ensures GetLanguageFromDetectionResultRow(Spaces(7) + "0" + Spaces(8) + "ab")
      == Some(StringDetectionResult(Spaces(7) + "0", "ab"))
  {
    var row := Spaces(7) + "0" + Spaces(8) + "ab";
    var s7 := Spaces(7);
    var s8 := Spaces(8);
    // width 7: the pieces are "", "0" and " ab", and "0" is dropped
    assert OccursAt(row, s7, 0) by {
      assert row[..7] == s7;
    }
    assert IndexOf(row, s7) == Some(0);
    var rest7 := row[7..];
    assert rest7 == "0" + s8 + "ab";
    assert !OccursAt(rest7, s7, 0) by {
      assert rest7[0] == '0';
    }
    assert OccursAt(rest7, s7, 1) by {
      assert rest7[1..8] == s7;
    }
    assert IndexOf(rest7, s7) == Some(1);
    FirstTwoPieces(row, s7);
    assert Pieces(row, 7)[1] == "0" by {
      assert |Pieces(row, 7)| >= 2 by {
        assert Pieces(row, 7) == [row[..0]] + Explode(s7, rest7);
        assert Explode(s7, rest7) == [rest7[..1]] + Explode(s7, rest7[8..]);
      }
      assert rest7[..1] == "0";
    }
    assert Filtered(Pieces(row, 7), 1).None?;
    // width 8: the first run of eight spaces follows the "0"
    forall k | 0 <= k < 8 ensures !OccursAt(row, s8, k) {
      assert row[7] == '0';
      assert row[k..k + 8][7 - k] == row[7];
    }
    assert OccursAt(row, s8, 8) by {
      assert row[8..16] == s8;
    }
    assert IndexOf(row, s8) == Some(8);
    var rest8 := row[16..];
    assert rest8 == "ab";
    assert IndexOf(rest8, s8).None?;
    assert Pieces(row, 8) == [row[..8]] + Explode(s8, rest8);
    assert Explode(s8, rest8) == [rest8];
    assert row[..8] == s7 + "0";
    assert Filtered(Pieces(row, 8), 1).Some?;
    assert SelectWidth(row, 7) == SelectWidth(row, 8);
    assert SelectWidth(row, MinSplitChars + 1) == Some(8);
    TrimOfUntrimmed("ab");
  }

  /** When `explode` yields two or more pieces, the first is the text before
      the first separator, which it does not contain. */
  lemma {:induction false} FirstPiece(s: bytes, sep: bytes)
    requires |sep| > 0 && |Explode(sep, s)| >= 2
    ensures var p := Explode(sep, s)[0];
      |p| + |sep| <= |s| && s[..|p|] == p && OccursAt(s, sep, |p|) && !Contains(p, sep)
  {
    var i := IndexOf(s, sep).value;
    var p := s[..i];
    assert Explode(sep, s)[0] == p;
    forall k | 0 <= k <= |p| - |sep| ensures !OccursAt(p, sep, k) {
      assert !OccursAt(s, sep, k);
      assert p[k..k + |sep|] == s[k..k + |sep|];
    }
  }

  /** A run of `w` spaces contains a run of 7. */
  lemma {:induction false} LongerRunContainsSeven(row: bytes, w: nat)
    requires w >= 7 && Contains(row, Spaces(w))
    ensures Contains(row, Spaces(7))
  {
    var k :| 0 <= k <= |row| - w && OccursAt(row, Spaces(w), k);
    assert row[k..k + 7] == row[k..k + w][..7];
    assert OccursAt(row, Spaces(7), k);
  }

  /** A row without seven spaces in a row never parses. */
  lemma {:induction false} NoSeparatorGivesNull(row: bytes)
    requires !Contains(row, Spaces(7))
    ensures GetLanguageFromDetectionResultRow(row).None?
  {
    forall w | MinSplitChars < w <= MaxSplitChars + 1
      ensures Filtered(Pieces(row, w), 1).None?
    {
      if Contains(row, Spaces(w)) {
        LongerRunContainsSeven(row, w);
      }
      assert IndexOf(row, Spaces(w)).None?;
    }
  }

  /** A row made of a space-free language name, seven spaces and a trimmed
      text without a seven-space run parses back into the name and the text. */
  lemma {:induction false} ParseRoundTrip(language: bytes, text: bytes)
    requires !PhpEmpty(language) && forall i | 0 <= i < |language| :: language[i] != ' '
    requires !PhpEmpty(text) && !IsTrimmable(text[0]) && !IsTrimmable(text[|text| - 1])
    requires !Contains(text, Spaces(7))
    ensures GetLanguageFromDetectionResultRow(language + Spaces(7) + text) == Some(StringDetectionResult(language, text))
  {
    var sep := Spaces(7);
    var row := language + sep + text;
    assert OccursAt(row, sep, |language|) by {
      assert row[|language|..|language| + 7] == sep;
    }
    var i := IndexOf(row, sep);
    forall k | 0 <= k < |language| ensures !OccursAt(row, sep, k) {
      assert row[k] == language[k];
    }
    assert i == Some(|language|);
    assert row[|language| + 7..] == text;
    assert row[..|language|] == language;
    assert Explode(sep, text) == [text];
    assert Explode(sep, row) == [language] + Explode(sep, text);
    var pieces := Pieces(row, 7);
    assert pieces == [language, text];
    assert SelectWidth(row, MinSplitChars + 1) == Some(7);
    TrimOfUntrimmed(text);
  }
}

=== FILE: similar_text.dfy ===
/** PHP's `similar_text`, which the mention matcher uses to accept a word
    that is close enough to a language name. The algorithm finds the first
    longest common substring, counts it, and recurses on the parts left of
    it and right of it. */
module SimilarText {
  import opened Bytes

  /** The percentage a word must reach to count as a mention. */
  const MinimalSimilarityPercentage: nat := 85

  /** A common substring: `a[pos1..pos1+len] == b[pos2..pos2+len]`. */
  datatype Match = Match(pos1: nat, pos2: nat, len: nat)

  /** Length of the common run that starts at `a[p]` and `b[q]`. */
  function CommonRun(a: bytes, b: bytes, p: nat, q: nat): (l: nat)
    requires p <= |a| && q <= |b|
    ensures p + l <= |a| && q + l <= |b|
    decreases |a| - p
  {
    if p < |a| && q < |b| && a[p] == b[q] then 1 + CommonRun(a, b, p + 1, q + 1) else 0
  }

  /** The run is common to both strings and cannot be extended. */
  lemma {:induction false} CommonRunSpec(a: bytes, b: bytes, p: nat, q: nat)
    requires p <= |a| && q <= |b|
    ensures a[p..p + CommonRun(a, b, p, q)] == b[q..q + CommonRun(a, b, p, q)]
    ensures var l := CommonRun(a, b, p, q); p + l == |a| || q + l == |b| || a[p + l] != b[q + l]
    decreases |a| - p
  {
    if p < |a| && q < |b| && a[p] == b[q] {
      CommonRunSpec(a, b, p + 1, q + 1);
      var l := CommonRun(a, b, p + 1, q + 1);
      assert a[p..p + 1 + l] == [a[p]] + a[p + 1..p + 1 + l];
      assert b[q..q + 1 + l] == [b[q]] + b[q + 1..q + 1 + l];
    }
  }

  predicate IsCommon(a: bytes, b: bytes, m: Match) {
    m.pos1 + m.len <= |a| && m.pos2 + m.len <= |b|
    && a[m.pos1..m.pos1 + m.len] == b[m.pos2..m.pos2 + m.len]
    && (m.len == 0 ==> m.pos1 == 0 && m.pos2 == 0)
  }

  /** Position (p, q) comes before (p', q') in the scan order: `a` outer, `b` inner. */
  predicate Before(p: nat, q: nat, p': nat, q': nat) {
    p < p' || (p == p' && q < q')
  }

  /** The scan over every pair of start positions, keeping a run only when it
      is strictly longer than the best so far. */
  function Scan(a: bytes, b: bytes, p: nat, q: nat, best: Match): (r: Match)
    requires p <= |a| && q <= |b|
    requires IsCommon(a, b, best)
    requires forall p': nat, q': nat | p' < |a| && q' < |b| && Before(p', q', p, q) :: CommonRun(a, b, p', q') <= best.len
    requires best.len > 0 ==> Before(best.pos1, best.pos2, p, q)
    requires forall p': nat, q': nat | p' < |a| && q' < |b| && Before(p', q', best.pos1, best.pos2) :: CommonRun(a, b, p', q') < best.len
    ensures IsCommon(a, b, r)
    ensures forall p': nat, q': nat | p' < |a| && q' < |b| :: CommonRun(a, b, p', q') <= r.len
    ensures r.len > 0 ==> r.pos1 < |a| && r.pos2 < |b| && CommonRun(a, b, r.pos1, r.pos2) == r.len
    ensures forall p': nat, q': nat | p' < |a| && q' < |b| && Before(p', q', r.pos1, r.pos2) :: CommonRun(a, b, p', q') < r.len
    decreases |a| - p, |b| - q
  {
    if p == |a| then
      assert forall p': nat, q': nat | p' < |a| && q' < |b| :: Before(p', q', p, q);
      assert best.len > 0 ==> CommonRun(a, b, best.pos1, best.pos2) == best.len by {
        if best.len > 0 {
          assert CommonRun(a, b, best.pos1, best.pos2) <= best.len;
          CommonRunCovers(a, b, best.pos1, best.pos2, best.len);
        }
      }
      best
    else if q == |b| then
      assert forall p': nat, q': nat | p' < |a| && q' < |b| && Before(p', q', p + 1, 0) :: Before(p', q', p, q);
      Scan(a, b, p + 1, 0, best)
    else
      var l := CommonRun(a, b, p, q);
      var next := if l > best.len then Match(p, q, l) else best;
      ScanStep(a, b, p, q, best, next);
      Scan(a, b, p, q + 1, next)
  }

  /** One step of the scan keeps its invariant. */
  lemma {:induction false} ScanStep(a: bytes, b: bytes, p: nat, q: nat, best: Match, next: Match)
    requires p < |a| && q < |b|
    requires IsCommon(a, b, best)
    requires forall p': nat, q': nat | p' < |a| && q' < |b| && Before(p', q', p, q) :: CommonRun(a, b, p', q') <= best.len
    requires best.len > 0 ==> Before(best.pos1, best.pos2, p, q)
    requires forall p': nat, q': nat | p' < |a| && q' < |b| && Before(p', q', best.pos1, best.pos2) :: CommonRun(a, b, p', q') < best.len
    requires next == if CommonRun(a, b, p, q) > best.len then Match(p, q, CommonRun(a, b, p, q)) else best
    ensures IsCommon(a, b, next)
    ensures forall p': nat, q': nat | p' < |a| && q' < |b| && Before(p', q', p, q + 1) :: CommonRun(a, b, p', q') <= next.len
    ensures next.len > 0 ==> Before(next.pos1, next.pos2, p, q + 1)
    ensures forall p': nat, q': nat | p' < |a| && q' < |b| && Before(p', q', next.pos1, next.pos2) :: CommonRun(a, b, p', q') < next.len
  {
    CommonRunSpec(a, b, p, q);
    ScanStepBound(a, b, p, q, best, next);
    if CommonRun(a, b, p, q) > best.len {
      forall p': nat, q': nat | p' < |a| && q' < |b| && Before(p', q', p, q)
        ensures CommonRun(a, b, p', q') < next.len
      {
      }
    }
  }

  /** Every run seen up to and including (p, q) is no longer than the best
      after the step. */
  lemma {:induction false} ScanStepBound(a: bytes, b: bytes, p: nat, q: nat, best: Match, next: Match)
    requires p < |a| && q < |b|
    requires forall p': nat, q': nat | p' < |a| && q' < |b| && Before(p', q', p, q) :: CommonRun(a, b, p', q') <= best.len
    requires next.len == if CommonRun(a, b, p, q) > best.len then CommonRun(a, b, p, q) else best.len
    ensures forall p': nat, q': nat | p' < |a| && q' < |b| && Before(p', q', p, q + 1) :: CommonRun(a, b, p', q') <= next.len
  {
    forall p': nat, q': nat | p' < |a| && q' < |b| && Before(p', q', p, q + 1)
      ensures CommonRun(a, b, p', q') <= next.len
    {
      if Before(p', q', p, q) {
        assert CommonRun(a, b, p', q') <= best.len;
      }
    }
  }

  /** A common substring at (p, q) is no longer than the run starting there. */
  lemma {:induction false} CommonRunCovers(a: bytes, b: bytes, p: nat, q: nat, len: nat)
    requires p + len <= |a| && q + len <= |b|
    requires a[p..p + len] == b[q..q + len]
    ensures len <= CommonRun(a, b, p, q)
    decreases len
  {
    if len > 0 {
      assert a[p] == a[p..p + len][0] == b[q..q + len][0] == b[q];
      assert a[p + 1..p + len] == a[p..p + len][1..];
      assert b[q + 1..q + len] == b[q..q + len][1..];
      CommonRunCovers(a, b, p + 1, q + 1, len - 1);
    }
  }

  /** The first (in scan order) longest common substring of `a` and `b`. */
  function FirstLongest(a: bytes, b: bytes): (r: Match)
    ensures IsCommon(a, b, r)
    ensures forall p: nat, q: nat | p < |a| && q < |b| :: CommonRun(a, b, p, q) <= r.len
    ensures forall p: nat, q: nat | p < |a| && q < |b| && Before(p, q, r.pos1, r.pos2) :: CommonRun(a, b, p, q) < r.len
  {
    Scan(a, b, 0, 0, Match(0, 0, 0))
  }

  /** `similar_text($a, $b)`: the number of matching bytes. PHP also skips
      the left recursion unless its scan raised the maximum more than once;
      that guard changes nothing, because a maximum found on the first raise
      leaves the left parts without a common byte, so they score 0 anyway. */
  function Similar(a: bytes, b: bytes): (n: nat)
    ensures n <= |a| && n <= |b|
    decreases |a| + |b|
  {
    var m := FirstLongest(a, b);
    if m.len == 0 then 0
    else
      var left := if m.pos1 > 0 && m.pos2 > 0 then Similar(a[..m.pos1], b[..m.pos2]) else 0;
      var right :=
        if m.pos1 + m.len < |a| && m.pos2 + m.len < |b| then
          Similar(a[m.pos1 + m.len..], b[m.pos2 + m.len..])
        else 0;
      m.len + left + right
  }

  /** The percentage `similar_text` reports is at least 85, i.e.
      `n * 2 * 100 / (|a| + |b|) >= 85`; two empty strings give 0%. */
  predicate MeetsThreshold(a: bytes, b: bytes) {
    |a| + |b| > 0 && 200 * Similar(a, b) >= MinimalSimilarityPercentage * (|a| + |b|)
  }

  /** A string is entirely similar to itself. */
  lemma {:induction false} SimilarSelf(a: bytes)
    ensures Similar(a, a) == |a|
  {
    var m := FirstLongest(a, a);
    if |a| > 0 {
      assert CommonRun(a, a, 0, 0) == |a| by {
        CommonRunCovers(a, a, 0, 0, |a|);
      }
    }
  }

  /** Any non-empty string meets the threshold against itself. */
  lemma {:induction false} SelfMeetsThreshold(a: bytes)
    requires |a| > 0
    ensures MeetsThreshold(a, a)
  {
    SimilarSelf(a);
  }

  /** Strings with no byte in common are 0% similar. */
  lemma {:induction false} SimilarDisjoint(a: bytes, b: bytes)
    requires forall i, j | 0 <= i < |a| && 0 <= j < |b| :: a[i] != b[j]
    ensures Similar(a, b) == 0
  {
    var m := FirstLongest(a, b);
  }

  /** PHP's `count > 1` guard on the left recursion is redundant: when the
      scan raised its maximum only once, every position before the match
      starts no common run, and the parts left of the match then score 0. */
  lemma {:induction false} LeftOfFirstRaiseScoresZero(a: bytes, b: bytes)
    requires forall p: nat, q: nat | p < |a| && q < |b| && Before(p, q, FirstLongest(a, b).pos1, FirstLongest(a, b).pos2) ::
      CommonRun(a, b, p, q) == 0
    ensures Similar(a[..FirstLongest(a, b).pos1], b[..FirstLongest(a, b).pos2]) == 0
  {
    var m := FirstLongest(a, b);
    var left1 := a[..m.pos1];
    var left2 := b[..m.pos2];
    forall i, j | 0 <= i < |left1| && 0 <= j < |left2| ensures left1[i] != left2[j] {
      assert Before(i, j, m.pos1, m.pos2);
      assert CommonRun(a, b, i, j) == 0;
    }
    SimilarDisjoint(left1, left2);
  }

  /** The threshold only lets through strings of comparable length: the
      shorter one is at least 85/115 of the longer. */
  lemma {:induction false} ThresholdBoundsLength(a: bytes, b: bytes)
    requires MeetsThreshold(a, b)
    ensures 115 * |a| >= 85 * |b| && 115 * |b| >= 85 * |a|
  {
    var n := Similar(a, b);
    assert n <= |a| && n <= |b|;
  }
}

=== FILE: special_characters.dfy ===
/** `SpecialCharacterHandler::escapeCharacters`: transliterates the special
    letters of Polish, German, Swedish or Norwegian text to ASCII. Letters are
    UTF-8 byte sequences; each map entry is applied in lower case and then in
    upper case, as `mb_strtolower` and `mb_strtoupper` produce them. */
module SpecialCharacters {
  import opened Bytes

  /** One map entry with its case forms: `mb_strtolower` and `mb_strtoupper`
      of the source letter and of its replacement. */
  datatype CaseForms = CaseForms(lowerFrom: bytes, lowerTo: bytes, upperFrom: bytes, upperTo: bytes)

  predicate WellFormed(forms: seq<CaseForms>) {
    forall i | 0 <= i < |forms| :: |forms[i].lowerFrom| > 0 && |forms[i].upperFrom| > 0
  }

  /** Every replacement, in either case, is non-empty ASCII. */
  predicate ReplacesWithAscii(forms: seq<CaseForms>) {
    forall i | 0 <= i < |forms| ::
      |forms[i].lowerFrom| > 0 && |forms[i].upperFrom| > 0
      && |forms[i].lowerTo| > 0 && AllAscii(forms[i].lowerTo)
      && |forms[i].upperTo| > 0 && AllAscii(forms[i].upperTo)
  }

  /** Every source letter is non-ASCII and every replacement non-empty ASCII. */
  predicate Transliterating(forms: seq<CaseForms>) {
    ReplacesWithAscii(forms)
    && forall i | 0 <= i < |forms| :: NoAscii(forms[i].lowerFrom) && NoAscii(forms[i].upperFrom)
  }

  /** ą ć ę ł ń ó ś ź ż, and their capitals. */
  const PolCharacterMap: seq<CaseForms> := [
    CaseForms("\U{C4}\U{85}", "a", "\U{C4}\U{84}", "A"),
    CaseForms("\U{C4}\U{87}", "c", "\U{C4}\U{86}", "C"),
    CaseForms("\U{C4}\U{99}", "e", "\U{C4}\U{98}", "E"),
    CaseForms("\U{C5}\U{82}", "l", "\U{C5}\U{81}", "L"),
    CaseForms("\U{C5}\U{84}", "n", "\U{C5}\U{83}", "N"),
    CaseForms("\U{C3}\U{B3}", "o", "\U{C3}\U{93}", "O"),
    CaseForms("\U{C5}\U{9B}", "s", "\U{C5}\U{9A}", "S"),
    CaseForms("\U{C5}\U{BA}", "z", "\U{C5}\U{B9}", "Z"),
    CaseForms("\U{C5}\U{BC}", "z", "\U{C5}\U{BB}", "Z")
  ]

  /** ä ö ü ß as the source writes them: `mb_strtoupper("ß")` is "SS" (full
      case mapping), so the upper-case pass rewrites "SS" to "S". */
  const DeuCharacterMapAsWritten: seq<CaseForms> := [
    CaseForms("\U{C3}\U{A4}", "a", "\U{C3}\U{84}", "A"),
    CaseForms("\U{C3}\U{B6}", "o", "\U{C3}\U{96}", "O"),
    CaseForms("\U{C3}\U{BC}", "u", "\U{C3}\U{9C}", "U"),
    CaseForms("\U{C3}\U{9F}", "s", "SS", "S")
  ]

  /** ä ö ü ß with the capital sharp s (U+1E9E) as the upper-case source, so
      that only special letters are ever rewritten. */
  const DeuCharacterMap: seq<CaseForms> := [
    CaseForms("\U{C3}\U{A4}", "a", "\U{C3}\U{84}", "A"),
    CaseForms("\U{C3}\U{B6}", "o", "\U{C3}\U{96}", "O"),
    CaseForms("\U{C3}\U{BC}", "u", "\U{C3}\U{9C}", "U"),
    CaseForms("\U{C3}\U{9F}", "s", "\U{E1}\U{BA}\U{9E}", "S")
  ]

  /** å ä ö é ü, and their capitals. */
  const SweCharacterMap: seq<CaseForms> := [
    CaseForms("\U{C3}\U{A5}", "a", "\U{C3}\U{85}", "A"),
    CaseForms("\U{C3}\U{A4}", "a", "\U{C3}\U{84}", "A"),
    CaseForms("\U{C3}\U{B6}", "o", "\U{C3}\U{96}", "O"),
    CaseForms("\U{C3}\U{A9}", "e", "\U{C3}\U{89}", "E"),
    CaseForms("\U{C3}\U{BC}", "u", "\U{C3}\U{9C}", "U")
  ]

  /** æ ø å to two letters each, and their capitals. */
  const NorCharacterMapIndirect: seq<CaseForms> := [
    CaseForms("\U{C3}\U{A6}", "ae", "\U{C3}\U{86}", "AE"),
    CaseForms("\U{C3}\U{B8}", "oe", "\U{C3}\U{98}", "OE"),
    CaseForms("\U{C3}\U{A5}", "aa", "\U{C3}\U{85}", "AA")
  ]

  /** The map chosen for a code: with direct characters (the default) "deu",
      "pol" and "swe" have one and every other code, "nor" included, has
      none; without, only "nor" has one. The code is compared in lower case. */
  function CharacterMapFor(deu: seq<CaseForms>, isoCode3digit: bytes, directCharacter: bool): (forms: seq<CaseForms>)
  {
    var code := ToLower(isoCode3digit);
    if directCharacter then
      if code == "deu" then deu
      else if code == "pol" then PolCharacterMap
      else if code == "swe" then SweCharacterMap
      else []
    else if code == "nor" then NorCharacterMapIndirect
    else []
  }

  /** One iteration of the `foreach`: the lower-case pass, then the upper-case pass. */
  function Step(text: bytes, f: CaseForms): bytes
    requires |f.lowerFrom| > 0 && |f.upperFrom| > 0
  {
    Replace(f.upperFrom, f.upperTo, Replace(f.lowerFrom, f.lowerTo, text))
  }

  /** The `foreach` over the map's entries, in order. */
  function Escape(text: bytes, forms: seq<CaseForms>): bytes
    requires WellFormed(forms)
  {
    if |forms| == 0 then text
    else Step(Escape(text, forms[..|forms| - 1]), forms[|forms| - 1])
  }

  /** `escapeCharacters` as the source writes it. */
  function EscapeCharactersAsWritten(text: bytes, isoCode3digit: bytes, directCharacter: bool): bytes {
    Escape(text, CharacterMapFor(DeuCharacterMapAsWritten, isoCode3digit, directCharacter))
  }

  /** `escapeCharacters` with the German upper-case pass corrected. */
  function EscapeCharacters(text: bytes, isoCode3digit: bytes, directCharacter: bool): bytes {
    Escape(text, CharacterMapFor(DeuCharacterMap, isoCode3digit, directCharacter))
  }

  /** Both versions of every map replace with ASCII. The corrected maps all
      transliterate; the maps as written do too, except the German one in
      direct mode, whose upper-case source "SS" is ASCII. */
  lemma {:induction false} MapsTransliterate(isoCode3digit: bytes, directCharacter: bool)
    ensures Transliterating(CharacterMapFor(DeuCharacterMap, isoCode3digit, directCharacter))
    ensures ReplacesWithAscii(CharacterMapFor(DeuCharacterMapAsWritten, isoCode3digit, directCharacter))
    ensures Transliterating(CharacterMapFor(DeuCharacterMapAsWritten, isoCode3digit, directCharacter))
      <==> !(directCharacter && ToLower(isoCode3digit) == "deu")
  {
    var code := ToLower(isoCode3digit);
    if directCharacter {
      if code == "deu" {
        DeuTransliterates();
        DeuAsWrittenReplacesWithAscii();
      } else if code == "pol" {
        PolTransliterates();
      } else if code == "swe" {
        SweTransliterates();
      }
    } else if code == "nor" {
      NorTransliterates();
    }
  }

  /** Each literal map transliterates, entry by entry. */
  lemma {:induction false} PolTransliterates()
    ensures Transliterating(PolCharacterMap)
  {
  }

  lemma {:induction false} DeuTransliterates()
    ensures Transliterating(DeuCharacterMap)
  {
  }

  /** The German map as written replaces with ASCII, but its last entry's
      upper-case source is the ASCII "SS". */
  lemma {:induction false} DeuAsWrittenReplacesWithAscii()
    ensures ReplacesWithAscii(DeuCharacterMapAsWritten)
    ensures !Transliterating(DeuCharacterMapAsWritten)
    ensures Transliterating(DeuCharacterMapAsWritten[..3])
  {
    assert !NoAscii(DeuCharacterMapAsWritten[3].upperFrom) by {
      assert IsAsciiByte(DeuCharacterMapAsWritten[3].upperFrom[0]);
    }
  }

  lemma {:induction false} SweTransliterates()
    ensures Transliterating(SweCharacterMap)
  {
  }

  lemma {:induction false} NorTransliterates()
    ensures Transliterating(NorCharacterMapIndirect)
  {
  }

  /** A code without a map leaves the text alone. */
  lemma {:induction false} UnsupportedCodeUnchanged(text: bytes, isoCode3digit: bytes, directCharacter: bool)
    requires directCharacter ==> ToLower(isoCode3digit) != "deu" && ToLower(isoCode3digit) != "pol" && ToLower(isoCode3digit) != "swe"
    requires !directCharacter ==> ToLower(isoCode3digit) != "nor"
    ensures EscapeCharacters(text, isoCode3digit, directCharacter) == text
    ensures EscapeCharactersAsWritten(text, isoCode3digit, directCharacter) == text
  {
  }

  /** Without direct characters Norwegian uses its two-letter forms. */
  lemma {:induction false} NorwegianNeedsIndirect(text: bytes, isoCode3digit: bytes)
    requires ToLower(isoCode3digit) == "nor"
    ensures EscapeCharacters(text, isoCode3digit, true) == text
    ensures EscapeCharacters(text, isoCode3digit, false) == Escape(text, NorCharacterMapIndirect)
  {
  }

  /** A non-ASCII string does not occur in ASCII text. */
  lemma {:induction false} AsciiLacksNoAscii(text: bytes, y: bytes)
    requires AllAscii(text) && |y| > 0 && NoAscii(y)
    ensures !Contains(text, y)
  {
    forall i | 0 <= i <= |text| - |y| ensures !OccursAt(text, y, i) {
      assert text[i..i + |y|][0] == text[i];
    }
  }

  /** A transliterating map leaves ASCII text unchanged. */
  lemma {:induction false} EscapeKeepsAscii(text: bytes, forms: seq<CaseForms>)
    requires Transliterating(forms) && AllAscii(text)
    ensures Escape(text, forms) == text
  {
    if |forms| > 0 {
      var f := forms[|forms| - 1];
      EscapeKeepsAscii(text, forms[..|forms| - 1]);
      AsciiLacksNoAscii(text, f.lowerFrom);
      ReplaceAbsent(f.lowerFrom, f.lowerTo, text);
      AsciiLacksNoAscii(text, f.upperFrom);
      ReplaceAbsent(f.upperFrom, f.upperTo, text);
    }
  }

  /** After a map that replaces with ASCII no non-ASCII source letter is
      left in the text, in either case. */
  lemma {:induction false} EscapeRemovesSpecials(text: bytes, forms: seq<CaseForms>)
    requires ReplacesWithAscii(forms)
    ensures forall i | 0 <= i < |forms| ::
      (NoAscii(forms[i].lowerFrom) ==> !Contains(Escape(text, forms), forms[i].lowerFrom))
      && (NoAscii(forms[i].upperFrom) ==> !Contains(Escape(text, forms), forms[i].upperFrom))
  {
    if |forms| > 0 {
      var n := |forms| - 1;
      var f := forms[n];
      var before := Escape(text, forms[..n]);
      EscapeRemovesSpecials(text, forms[..n]);
      var mid := Replace(f.lowerFrom, f.lowerTo, before);
      var after := Replace(f.upperFrom, f.upperTo, mid);
      assert after == Escape(text, forms);
      forall i | 0 <= i < |forms|
        ensures NoAscii(forms[i].lowerFrom) ==> !Contains(after, forms[i].lowerFrom)
        ensures NoAscii(forms[i].upperFrom) ==> !Contains(after, forms[i].upperFrom)
      {
        if i < n {
          assert forms[..n][i] == forms[i];
          if NoAscii(forms[i].lowerFrom) {
            ReplaceKeepsNoAsciiAbsent(f.lowerFrom, f.lowerTo, before, forms[i].lowerFrom);
            ReplaceKeepsNoAsciiAbsent(f.upperFrom, f.upperTo, mid, forms[i].lowerFrom);
          }
          if NoAscii(forms[i].upperFrom) {
            ReplaceKeepsNoAsciiAbsent(f.lowerFrom, f.lowerTo, before, forms[i].upperFrom);
            ReplaceKeepsNoAsciiAbsent(f.upperFrom, f.upperTo, mid, forms[i].upperFrom);
          }
        } else {
          if NoAscii(f.lowerFrom) {
            ReplaceRemovesNoAscii(f.lowerFrom, f.lowerTo, before);
            ReplaceKeepsNoAsciiAbsent(f.upperFrom, f.upperTo, mid, f.lowerFrom);
          }
          if NoAscii(f.upperFrom) {
            ReplaceRemovesNoAscii(f.upperFrom, f.upperTo, mid);
          }
        }
      }
    }
  }

  /** No source form of the map occurs in the text, in either case. */
  predicate NoSourceIn(text: bytes, forms: seq<CaseForms>) {
    forall i | 0 <= i < |forms| :: !Contains(text, forms[i].lowerFrom) && !Contains(text, forms[i].upperFrom)
  }

  /** A text in which no source form of the map occurs is left unchanged:
      every `str_replace` of the loop replaces nothing. */
  lemma {:induction false} EscapeKeepsAbsent(text: bytes, forms: seq<CaseForms>)
    requires WellFormed(forms) && NoSourceIn(text, forms)
    ensures Escape(text, forms) == text
  {
    if |forms| > 0 {
      var n := |forms| - 1;
      var f := forms[n];
      assert forall i | 0 <= i < n :: forms[..n][i] == forms[i];
      EscapeKeepsAbsent(text, forms[..n]);
      ReplaceAbsent(f.lowerFrom, f.lowerTo, text);
      ReplaceAbsent(f.upperFrom, f.upperTo, text);
    }
  }

  /** ASCII text passes through `escapeCharacters` unchanged, for every code. */
  lemma {:induction false} EscapeCharactersKeepsAscii(text: bytes, isoCode3digit: bytes, directCharacter: bool)
    requires AllAscii(text)
    ensures EscapeCharacters(text, isoCode3digit, directCharacter) == text
  {
    MapsTransliterate(isoCode3digit, directCharacter);
    EscapeKeepsAscii(text, CharacterMapFor(DeuCharacterMap, isoCode3digit, directCharacter));
  }

  /** No non-ASCII letter of the chosen map survives `escapeCharacters`, in
      either version: after direct "pol" no Polish diacritic is left, and so
      on. With the corrected maps that is every source letter; as written,
      the German upper-case source "SS" is the one exception, since the loop
      can leave "SS" behind ("SSS" becomes "SS"). */
  lemma {:induction false} EscapeCharactersRemovesSpecials(text: bytes, isoCode3digit: bytes, directCharacter: bool)
    ensures var forms := CharacterMapFor(DeuCharacterMap, isoCode3digit, directCharacter);
      forall i | 0 <= i < |forms| ::
        !Contains(EscapeCharacters(text, isoCode3digit, directCharacter), forms[i].lowerFrom)
        && !Contains(EscapeCharacters(text, isoCode3digit, directCharacter), forms[i].upperFrom)
    ensures var forms := CharacterMapFor(DeuCharacterMapAsWritten, isoCode3digit, directCharacter);
      forall i | 0 <= i < |forms| ::
        !Contains(EscapeCharactersAsWritten(text, isoCode3digit, directCharacter), forms[i].lowerFrom)
        && (NoAscii(forms[i].upperFrom) ==>
              !Contains(EscapeCharactersAsWritten(text, isoCode3digit, directCharacter), forms[i].upperFrom))
  {
    MapsTransliterate(isoCode3digit, directCharacter);
    EscapeRemovesSpecials(text, CharacterMapFor(DeuCharacterMap, isoCode3digit, directCharacter));
    EscapeRemovesSpecials(text, CharacterMapFor(DeuCharacterMapAsWritten, isoCode3digit, directCharacter));
  }

  /** A text in which no source form of the chosen map occurs comes out
      unchanged, in either version. */
  lemma {:induction false} EscapeCharactersKeepsPlainText(text: bytes, isoCode3digit: bytes, directCharacter: bool)
    ensures NoSourceIn(text, CharacterMapFor(DeuCharacterMap, isoCode3digit, directCharacter)) ==>
      EscapeCharacters(text, isoCode3digit, directCharacter) == text
    ensures NoSourceIn(text, CharacterMapFor(DeuCharacterMapAsWritten, isoCode3digit, directCharacter)) ==>
      EscapeCharactersAsWritten(text, isoCode3digit, directCharacter) == text
  {
    MapsTransliterate(isoCode3digit, directCharacter);
    var forms := CharacterMapFor(DeuCharacterMap, isoCode3digit, directCharacter);
    if NoSourceIn(text, forms) {
      EscapeKeepsAbsent(text, forms);
    }
    var written := CharacterMapFor(DeuCharacterMapAsWritten, isoCode3digit, directCharacter);
    if NoSourceIn(text, written) {
      EscapeKeepsAbsent(text, written);
    }
  }

  /** The source's `escapeCharacters` and the corrected one agree on every
      text exactly when the call is not a direct German one. */
  lemma {:induction false} AsWrittenAgreesOffGerman(isoCode3digit: bytes, directCharacter: bool)
    ensures (forall text :: EscapeCharactersAsWritten(text, isoCode3digit, directCharacter)
                              == EscapeCharacters(text, isoCode3digit, directCharacter))
      <==> !(directCharacter && ToLower(isoCode3digit) == "deu")
  {
    if directCharacter && ToLower(isoCode3digit) == "deu" {
      AsWrittenRewritesDoubleS();
      assert ToLower("deu") == "deu";
      assert EscapeCharactersAsWritten("SS", isoCode3digit, true) == EscapeCharactersAsWritten("SS", "deu", true);
      assert EscapeCharacters("SS", isoCode3digit, true) == EscapeCharacters("SS", "deu", true);
    }
  }

  /** As written, direct German escaping of ASCII text is exactly the
      replacement of "SS" by "S"; every other pass finds nothing. */
  lemma {:induction false} AsWrittenGermanOnAscii(t: bytes)
    requires AllAscii(t)
    ensures EscapeCharactersAsWritten(t, "deu", true) == Replace("SS", "S", t)
  {
    assert ToLower("deu") == "deu";
    var forms := DeuCharacterMapAsWritten;
    DeuAsWrittenReplacesWithAscii();
    EscapeKeepsAscii(t, forms[..3]);
    AsciiLacksNoAscii(t, forms[3].lowerFrom);
    ReplaceAbsent(forms[3].lowerFrom, forms[3].lowerTo, t);
  }

  /** As written, German escaping rewrites plain ASCII: "SS" becomes "S",
      and the replacement can leave "SS" behind. */
  lemma {:induction false} AsWrittenRewritesDoubleS()
    ensures EscapeCharactersAsWritten("SS", "deu", true) == "S"
    ensures EscapeCharactersAsWritten("SSS", "deu", true) == "SS"
    ensures EscapeCharacters("SS", "deu", true) == "SS"
  {
    AsWrittenGermanOnAscii("SS");
    assert Replace("SS", "S", "SS") == "S" + Replace("SS", "S", []);
    AsWrittenGermanOnAscii("SSS");
    assert "SSS"[2..] == "S";
    assert Replace("SS", "S", "SSS") == "S" + Replace("SS", "S", "S");
    EscapeCharactersKeepsAscii("SS", "deu", true);
  }
}

=== FILE: wrappers.dfy ===
/** Failure-carrying values used throughout the model: PHP's nullable returns
    become `Option`, thrown exceptions become the `Failure` side of `Result`. */
module Wrappers {

  datatype Option<+T> = None | Some(value: T)

  datatype Result<+T, +E> = Success(value: T) | Failure(error: E)
}
